=== FILE: README.md ===
# SNES SPC plugin: GUI, MIDI and processor logic in Dafny

This project models the deterministic core of the SNES SPC VST3 plugin. The
audio emulation itself lives in a native library that the plugin calls
through a foreign host, and is not modelled. What is modelled is everything
the plugin's own code decides:

- **Spectrum analyser** (`SampleRing`, `SpectrumBands`, `BitReversal`):
  - the 1024-slot sample ring and the order the analysis frame reads it in;
  - the bit-reversal table and the permutation it drives;
  - the loop bounds of the radix-2 butterfly;
  - the clamping of band bin ranges;
  - lazy resizing of the band arrays;
  - the smoothing and peak-hold filter;
  - the clamped settings.
- **MIDI learn** (`MidiLearn`, `MidiText`):
  - the 32-bit (channel, CC) key;
  - learn mode;
  - exact-then-omni lookup;
  - insert, remove and clear on the mapping table;
  - the linear CC-to-parameter value mapping;
  - the line-based text format, both directions, with the stream extraction operators modelled as scanners.
- **Preset browser** (`PresetOrder`, `PresetBrowser`):
  - the case-insensitive filter;
  - sorting by name and by game;
  - bounded selection;
  - the recent list;
  - favourites;
  - the search-path list.
- **Waveform view** (`Waveform`):
  - BRR block-header decoding, block counting and block colours;
  - sample conversion, zoom, offset and selection state.
- **Keyboard shortcuts** (`Keyboard`): event dispatch and its effects on the controller's parameters.
- **View switcher** (`ViewSwitcher`): one shown panel, chosen by index or by a control value.
- **Editor** (`SpcEditor`):
  - the SPC file-extension test;
  - drag and drop;
  - panel visibility from the view-mode parameter.
- **Audio processor** (`SpcProcessor`):
  - the parameter-change dispatch;
  - the (silent) output;
  - the host queries.
- **Parameter IDs** (`Params`): the layout the processor and the keyboard rely on.

Floating-point values are modelled as mathematical reals, and `size_t` indices as naturals. Each component is a module of immutable datatypes and pure functions. A few are methods where the source runs a loop whose invariant is the point: the ring push, the bit-reversal loop and permutation, the butterfly schedule, and the lookup by parameter. Effects on objects the model cannot see are made explicit:

- controller edits, callbacks and load requests are returned as values;
- the host's buffers are parameters.

## Model

| member | source | states |
|---|---|---|
| Params.AllIds | vst3/src/spc_params.h:9-68 | the enumeration lists 46 parameter IDs |
| Params.IdsDistinct | vst3/src/spc_params.h:9-70 | the IDs are strictly increasing, hence pairwise distinct, all below kNumParams, and kNumParams is 701 |
| Params.GroupsDisjoint | vst3/src/spc_params.h:9-42 | the voice-enable, solo and voice-volume groups share no ID, and none of them holds a transport ID |
| Params.VoiceParam | vst3/src/spc_params.h:15-22 | voice i's enable switch is a voice parameter whose voice index is i |
| Params.SoloParam | vst3/src/spc_params.h:25-32 | voice i's solo switch is a solo parameter whose index is i |
| Params.VoiceIndex | vst3/src/spc_processor.cpp:71-73 | a voice-enable ID minus kParamVoice0 is an index 0..7 into the 8-entry array, and adding it back gives the ID |
| Params.SoloIndex | vst3/src/spc_processor.cpp:76-78 | a solo ID minus kParamSolo0 is an index 0..7, and adding it back gives the ID |
| Common.ClampInt | vst3/src/gui/spectrum_view.h:33 | std::clamp on integers: the result lies in [lo, hi], equals x inside the range and the nearer bound outside it |
| Common.Trunc | vst3/src/gui/view_switcher.cpp:61 | static_cast to int truncates toward zero: the result is within one unit of x, on the zero side |
| Common.LowerIdempotent | vst3/src/gui/preset_browser.cpp:82-83 | lower-casing a string twice is lower-casing it once |
| Common.ContainsIff | vst3/src/gui/preset_browser.cpp:94-95 | find(needle) succeeds exactly when some window of the string equals the needle |
| Common.StrLessTotal | vst3/src/gui/preset_browser.cpp:108 | std::string's operator< orders any two different strings one way or the other |
| Common.SelectAppend | vst3/src/gui/preset_browser.cpp:154-157 | the remove_if idiom distributes over concatenation, so the survivors keep their relative order |
| SampleRing.Empty | vst3/src/gui/spectrum_view.cpp:11 | the constructed ring holds 1024 zeros with the write cursor at slot 0 |
| SampleRing.PushOne | vst3/src/gui/spectrum_view.cpp:40-43 | one sample is written at the cursor, the cursor advances modulo 1024, and every other slot is unchanged |
| SampleRing.FramePushOne | vst3/src/gui/spectrum_view.cpp:53-55 | after one push the oldest-to-newest frame drops its oldest sample and ends with the new one |
| SampleRing.Push | vst3/src/gui/spectrum_view.cpp:37-43 | after k pushes the cursor is (old + k) mod 1024 and the frame is the last 1024 samples of the old frame followed by the pushed ones |
| SampleRing.Frame | vst3/src/gui/spectrum_view.cpp:53-55 | the frame handed to the FFT always holds exactly FFT_SIZE (1024) samples |
| SampleRing.FrameHoldsEverySlot | vst3/src/gui/spectrum_view.cpp:53-55 | buffer slot j lands at frame index (j - cursor) mod 1024, so the oldest-first copy loses no slot |
| SampleRing.PushKeepsNewest | vst3/src/gui/spectrum_view.cpp:37-43 | after pushing at least 1024 samples the frame is exactly the newest 1024 of them |
| SampleRing.SlotOfSample | vst3/src/gui/spectrum_view.cpp:41-42 | each of the newest 1024 pushed samples, sample k, sits in slot (old cursor + k) mod 1024 |
| SpectrumBands.DefaultSettings | vst3/src/gui/spectrum_view.h:64-76 | the defaults are 32 bands, decay rate 0.05, smoothing 0.7, peaks shown and log scale on, and they satisfy the settings invariant |
| SpectrumBands.SetNumBands | vst3/src/gui/spectrum_view.h:33 | the band count becomes the request clamped to [8, 128]; no other setting changes |
| SpectrumBands.SetDecayRate | vst3/src/gui/spectrum_view.h:35 | the decay rate becomes the request clamped to [0.01, 1]; no other setting changes |
| SpectrumBands.SetSmoothing | vst3/src/gui/spectrum_view.h:36 | the smoothing becomes the request clamped to [0, 0.99]; no other setting changes |
| SpectrumBands.SettersKeepValid | vst3/src/gui/spectrum_view.h:33-40 | every setter preserves 8 <= bands <= 128, decay in [0.01, 1] and smoothing in [0, 0.99] |
| SpectrumBands.SetNumBandsIdempotent | vst3/src/gui/spectrum_view.h:33-34 | getNumBands after setNumBands(x) is clamp(x, 8, 128), and setting the same value twice is setting it once |
| SpectrumBands.InitialBands | vst3/src/gui/spectrum_view.cpp:14-16 | the constructed band, peak and decay arrays all hold 32 zeros |
| SpectrumBands.Resize | vst3/src/gui/spectrum_view.cpp:70-74 | std::vector::resize keeps the existing prefix and zero-fills only the new slots |
| SpectrumBands.ClampRange | vst3/src/gui/spectrum_view.cpp:96-98 | after clamping, 1 <= start < end for any raw range (so the averaging divisor is at least 1), and a raw start inside the spectrum keeps the end within 512 |
| SpectrumBands.LinearRangeInBounds | vst3/src/gui/spectrum_view.cpp:90-98 | in linear mode every band's clamped range lies within bins 1..512, so every magnitude read is in bounds |
| SpectrumBands.RawRange | vst3/src/gui/spectrum_view.cpp:82-94 | in linear mode a band below the band count starts inside the 512-bin spectrum and ends at most at bin 512 |
| SpectrumBands.SumNonNegative | vst3/src/gui/spectrum_view.cpp:101-104 | a sum of non-negative magnitudes is non-negative |
| SpectrumBands.Mean | vst3/src/gui/spectrum_view.cpp:100-105 | the average of non-negative magnitudes over a non-empty range is non-negative |
| SpectrumBands.Filter | vst3/src/gui/spectrum_view.cpp:107-117 | the smoothed value is a * old + (1 - a) * raw; when it rises above the held peak the peak jumps to it and the decay restarts at 0; otherwise the decay grows by the rate and the peak becomes max(0, peak - decay); a non-negative peak stays non-negative and never exceeds the larger of the old peak and the new value |
| SpectrumBands.FilterNonNegative | vst3/src/gui/spectrum_view.cpp:107-117 | with non-negative input and smoothing in [0, 1], value, peak and decay all stay non-negative |
| SpectrumBands.PeakFalls | vst3/src/gui/spectrum_view.cpp:114-117 | without a new peak, a held peak falls by at least the minimum decay rate or reaches 0 |
| SpectrumBands.SilenceShrinks | vst3/src/gui/spectrum_view.cpp:107-108 | on silent input the smoothed value shrinks to at most 0.99 of itself |
| SpectrumBands.UpdateBands | vst3/src/gui/spectrum_view.cpp:69-119 | afterwards the three band arrays all have numBands entries, and non-negativity is preserved |
| SpectrumBands.UpdateBandsCell | vst3/src/gui/spectrum_view.cpp:78-118 | band i after the update is the clamp-average-filter step applied to its old cell, or to a zero cell when i is a new slot |
| SpectrumBands.NewAnalyser | vst3/src/gui/spectrum_view.cpp:9-16 | the constructed analyser has an all-zero ring with the cursor at 0, 32 zero values, peaks and decays, and the default settings, and it satisfies its invariant |
| SpectrumBands.PushSamples | vst3/src/gui/spectrum_view.cpp:37-48 | pushing writes the ring as SampleRing.Push does, then always recomputes the bands (also for 0 samples); the settings are unchanged |
| BitReversal.ReverseBits | vst3/src/gui/spectrum_view.cpp:293-300 | the reversal of the low b bits is below 2^b |
| BitReversal.ReverseBitsLoop | vst3/src/gui/spectrum_view.cpp:293-300 | the shift-and-or loop computes the recursive definition of bit reversal |
| BitReversal.ReverseBitsInvolution | vst3/src/gui/spectrum_view.cpp:293-300 | for n < 2^b, reversing b bits twice gives n back |
| BitReversal.EightPointTable | vst3/src/gui/spectrum_view.cpp:293-300 | the 8-entry table is 0, 4, 2, 6, 1, 5, 3, 7 |
| BitReversal.BitCountOfPower | vst3/src/gui/spectrum_view.cpp:29-30 | the halving loop counts k bits for a size of 2^k |
| BitReversal.ReverseTableIsPermutation | vst3/src/gui/spectrum_view.cpp:28-33 | for a power-of-two size the table maps every index into range, is its own inverse, and has no repeated entry |
| BitReversal.BitCount | vst3/src/gui/spectrum_view.cpp:29-30 | the halving loop yields the floor of log2(size): 2^bits <= size < 2^(bits+1) for any size >= 1 |
| BitReversal.ReverseTable | vst3/src/gui/spectrum_view.cpp:28-33 | every table entry is below 2^bits and at most the table size |
| BitReversal.AnalyserTable | vst3/src/gui/spectrum_view.cpp:28-33 | for the 1024-point analyser the bit count is 10 and the table is an involution of 0..1023 |
| BitReversal.Permute | vst3/src/gui/spectrum_view.cpp:242-245 | the swap-when-i-below-j loop leaves data[i] = old data[lut[i]] for every i, with the same multiset of elements |
| BitReversal.SwapMultiset | vst3/src/gui/spectrum_view.cpp:244 | one swap keeps the multiset of elements |
| BitReversal.TwiddleTableSizes | vst3/src/gui/spectrum_view.cpp:224-234 | for n = 2^k there are k twiddle tables and table s holds 2^s factors |
| BitReversal.ButterflySchedule | vst3/src/gui/spectrum_view.cpp:248-259 | for n = 2^k every butterfly reads indices i+j and i+j+len/2 inside the data, uses an existing table and factor, and there are k * n/2 of them |
| MidiLearn.DefaultMapping | vst3/src/gui/midi_learn.h:16-23 | a default mapping has channel 0, CC 0, parameter -1, range [0, 1] and is not inverted |
| MidiLearn.MakeKey | vst3/src/gui/midi_learn.h:72-74 | for a CC below 256 and a channel below 256, the 32-bit shift-and-or key is slot * 256 + CC, where slot is 0xFF for a negative channel |
| MidiLearn.OmniCollapse | vst3/src/gui/midi_learn.h:73 | every negative channel gives the same key as channel -1 |
| MidiLearn.KeyInjective | vst3/src/gui/midi_learn.h:17-18 | on CC 0..127 and channel -1..15 the key's low byte is the CC, its next byte the channel slot, and different pairs give different keys |
| MidiLearn.NewHandler | vst3/src/gui/midi_learn.cpp:13-15 | a new handler is not learning and has an empty table |
| MidiLearn.StartLearn | vst3/src/gui/midi_learn.cpp:17-20 | afterwards the handler is learning for the given parameter; the table is unchanged |
| MidiLearn.CancelLearn | vst3/src/gui/midi_learn.cpp:22-25 | afterwards the handler is not learning; the table is unchanged |
| MidiLearn.LearnModeCycle | vst3/src/gui/midi_learn.h:34-36 | isLearning is true with the given parameter after startLearn and false after a following cancelLearn; the table is untouched throughout |
| MidiLearn.ApplyMapping | vst3/src/gui/midi_learn.cpp:74-88 | an edit is produced exactly when there is a controller; it targets the mapping's parameter and carries min + (v / 127)(max - min), mirrored about the range when inverted, which lies in [min, max] for v in 0..127 |
| MidiLearn.MappedValueRange | vst3/src/gui/midi_learn.cpp:78-83 | for values 0..127 and min <= max the mapped value lies in [min, max]; 0 gives min (max when inverted) and 127 gives max (min when inverted) |
| MidiLearn.InvertedMirrors | vst3/src/gui/midi_learn.cpp:81-83 | the inverted and plain values of the same input are mirror images: they add up to min + max |
| MidiLearn.GetMappingForCC | vst3/src/gui/midi_learn.cpp:107-115 | the result is present exactly when the key of (CC, channel) is in the table, and is then the stored mapping |
| MidiLearn.AddMapping | vst3/src/gui/midi_learn.cpp:90-94 | the table stays keyed by each entry's own (CC, channel); learn state unchanged |
| MidiLearn.RemoveMapping | vst3/src/gui/midi_learn.cpp:96-100 | exactly the one key leaves the table; learn state unchanged |
| MidiLearn.ClearAllMappings | vst3/src/gui/midi_learn.cpp:102-105 | the table becomes empty; learn state unchanged |
| MidiLearn.AddRemoveLookup | vst3/src/gui/midi_learn.cpp:90-115 | lookup after add returns the added mapping; add and remove leave every other key's lookup unchanged; lookup after remove or clear finds nothing |
| MidiLearn.LearnedMapping | vst3/src/gui/midi_learn.cpp:32-38 | a learned mapping records the channel, CC and parameter with range [0, 1], not inverted |
| MidiLearn.ProcessMidiCC | vst3/src/gui/midi_learn.cpp:27-72 | in learn mode: store the learned full-range mapping under the key, leave learn mode, fire the callback if set, apply the CC value through the learned mapping at once, handled. Otherwise: state unchanged; exact key before omni key; handled exactly when one of them exists; no edit when not handled |
| MidiLearn.LearnThenLookup | vst3/src/gui/midi_learn.cpp:31-60 | after learning, the lookup finds the learned mapping, and the next CC on that key edits the learned parameter |
| MidiLearn.SortedKeys | vst3/src/gui/midi_learn.cpp:119 | std::map iterates its keys exactly once each, in increasing order |
| MidiLearn.GetMappingForParam | vst3/src/gui/midi_learn.cpp:117-125 | no result exactly when no entry has the parameter; otherwise the entry with the smallest such key |
| MidiText.ScanIntText | vst3/src/gui/midi_learn.cpp:159-161 | extracting an int from a printed 32-bit int followed by a delimiter gives the int back and stops at the delimiter |
| MidiText.ScanFloatText | vst3/src/gui/midi_learn.cpp:162-163 | extracting a float from well-formed float text gives the value that text denotes and stops after it |
| MidiText.Lines | vst3/src/gui/midi_learn.cpp:151 | the getline loop splits the text into at least one line, none containing a newline |
| MidiText.LinesAppend | vst3/src/gui/midi_learn.cpp:151 | a newline-free line followed by a newline is read as that line, then the rest |
| MidiText.ParseLine | vst3/src/gui/midi_learn.cpp:159-164 | a line yields a mapping exactly when all eleven chained extractions succeed |
| MidiText.ParseLineEmpty | vst3/src/gui/midi_learn.cpp:152 | an empty line yields no mapping |
| MidiText.ParseLineText | vst3/src/gui/midi_learn.cpp:133-138 | reading a printed mapping line gives the mapping back, with min and max as their printed text denotes |
| MidiText.NoNewlineInTokens | vst3/src/gui/midi_learn.cpp:133-138 | the printed fields of a line contain no newline, so each mapping stays on its own line |
| MidiText.LoadLine | vst3/src/gui/midi_learn.cpp:152-168 | an empty or unparseable line is skipped; otherwise its mapping is stored under its own key, overwriting |
| MidiText.LoadKeys | vst3/src/gui/midi_learn.cpp:151-169 | after reading, a key is present exactly when it was before or some stored line has it |
| MidiText.LoadSources | vst3/src/gui/midi_learn.cpp:151-169 | every entry after reading was there before or was read from one of the lines |
| MidiText.Deserialize | vst3/src/gui/midi_learn.cpp:144-172 | the result is always true, learn state is kept, and the table stays keyed by each entry's own (CC, channel) |
| MidiText.ScanInt | vst3/src/gui/midi_learn.cpp:159-164 | a successful `>>` into int yields a 32-bit value and consumes input; a value outside the 32-bit range never succeeds |
| MidiText.ScanChar | vst3/src/gui/midi_learn.cpp:159-163 | a successful `>>` into char skips leading whitespace, yields a non-space character and consumes input |
| MidiText.ScanFloat | vst3/src/gui/midi_learn.cpp:162-163 | a successful `>>` into float consumes input |
| MidiText.Serialize | vst3/src/gui/midi_learn.cpp:127-142 | the text is empty exactly when the table is empty, and otherwise ends with a newline (one line per mapping) |
| MidiText.DeserializeContents | vst3/src/gui/midi_learn.cpp:146-169 | the old table is discarded: the keys are exactly those of the stored lines, and every entry was read from a line |
| MidiText.SerializeLoads | vst3/src/gui/midi_learn.cpp:132-139 | reading the serialised text stores the re-read mappings row by row, in key order |
| MidiText.RoundTrip | vst3/src/gui/midi_learn.cpp:127-172 | serialise-then-deserialise keeps the key set, learn state and the integer and flag fields; min and max become what their printed text denotes |
| MidiText.RoundTripExact | vst3/src/gui/midi_learn.cpp:127-172 | when the float printer is exact, serialise-then-deserialise gives the handler back unchanged |
| PresetOrder.BeforeIrreflexive | vst3/src/gui/preset_browser.cpp:107-117 | both comparators are irreflexive, as std::sort requires |
| PresetOrder.BeforeTransitive | vst3/src/gui/preset_browser.cpp:107-117 | both comparators are transitive, as std::sort requires |
| PresetOrder.Insert | vst3/src/gui/preset_browser.cpp:106 | inserting adds exactly one element |
| PresetOrder.Sort | vst3/src/gui/preset_browser.cpp:106 | sorting permutes its input (same multiset) |
| PresetOrder.SortSorted | vst3/src/gui/preset_browser.cpp:106 | the sorted list has no pair out of order |
| PresetOrder.SortByNameOrder | vst3/src/gui/preset_browser.cpp:105-111 | after sortByName the names are non-decreasing (ascending) or non-increasing (descending) |
| PresetOrder.SortByGameOrder | vst3/src/gui/preset_browser.cpp:113-120 | after sortByGame games are in the requested direction, and equal games are ordered by ascending name whatever the direction |
| PresetBrowser.NewBrowser | vst3/src/gui/preset_browser.h:84-90 | a new browser has empty preset, filtered, recent and search-path lists, an empty filter and no selection (SIZE_MAX) |
| PresetBrowser.FilterPresets | vst3/src/gui/preset_browser.cpp:76-99 | an empty filter keeps all presets; otherwise the result holds exactly the presets whose lower-cased name or game contains the lower-cased filter |
| PresetBrowser.FilterOrder | vst3/src/gui/preset_browser.cpp:85-98 | filtering distributes over concatenation, so it is the order-preserving subsequence of matches |
| PresetBrowser.FilterIgnoresCase | vst3/src/gui/preset_browser.cpp:81-83 | a filter and its lower-cased form select the same presets |
| PresetBrowser.FilterIdempotent | vst3/src/gui/preset_browser.cpp:76-99 | filtering the filtered list again changes nothing |
| PresetBrowser.ApplyFilter | vst3/src/gui/preset_browser.cpp:76-103 | the filtered list is recomputed from all presets and the selection is cleared; nothing else changes |
| PresetBrowser.SetFilter | vst3/src/gui/preset_browser.cpp:71-74 | the filter is stored, the list is refiltered and the selection cleared |
| PresetBrowser.AddPreset | vst3/src/gui/preset_browser.cpp:53-55 | the preset is appended to the full list; nothing else changes |
| PresetBrowser.ClearPresets | vst3/src/gui/preset_browser.cpp:57-62 | both lists are emptied and the selection is cleared; the rest is kept |
| PresetBrowser.SortBy | vst3/src/gui/preset_browser.cpp:105-120 | sorting permutes the full list, refilters it and clears the selection |
| PresetBrowser.SortByOrders | vst3/src/gui/preset_browser.cpp:105-120 | after sortByName or sortByGame the full list is in that order |
| PresetBrowser.SelectPreset | vst3/src/gui/preset_browser.cpp:122-130 | an index inside the filtered list is selected and passed to the callback if set; any other index changes nothing |
| PresetBrowser.GetSelectedPreset | vst3/src/gui/preset_browser.cpp:145-150 | null exactly when the selection is out of range; otherwise the selected filtered entry |
| PresetBrowser.SelectThenGet | vst3/src/gui/preset_browser.cpp:122-150 | after selecting an in-range index, getSelectedPreset returns that entry |
| PresetBrowser.NoSelectionAfterFilter | vst3/src/gui/preset_browser.cpp:101 | after setFilter there is no selected preset |
| PresetBrowser.DropPath | vst3/src/gui/preset_browser.cpp:154-157 | the survivors are exactly the entries with a different path |
| PresetBrowser.AddToRecent | vst3/src/gui/preset_browser.cpp:152-166 | the preset comes first, no other entry has its path, and the list has at most 10 entries |
| PresetBrowser.RecentKeepsOrder | vst3/src/gui/preset_browser.cpp:152-166 | the new list is the preset followed by the other entries in their old order, cut to 10 |
| PresetBrowser.RecentKeepsOthers | vst3/src/gui/preset_browser.cpp:154-160 | when the old list is shorter than 10, every entry with another path survives |
| PresetBrowser.AddToRecentIdempotent | vst3/src/gui/preset_browser.cpp:152-166 | adding the same preset twice is adding it once |
| PresetBrowser.LoadSelectedPreset | vst3/src/gui/preset_browser.cpp:132-143 | with a selection in range: its path is loaded exactly when there is a controller, the preset reaches the load callback exactly when one is set, and the preset becomes the most recent entry; otherwise nothing happens |
| PresetBrowser.LoadMakesMostRecent | vst3/src/gui/preset_browser.cpp:132-143 | after loading, the selected preset heads the recent list, and loading it again leaves the browser unchanged |
| PresetBrowser.FirstWithPath | vst3/src/gui/preset_browser.cpp:173-177 | the index of the first preset with the path, or none when no preset has it |
| PresetBrowser.ToggleFavorite | vst3/src/gui/preset_browser.cpp:168-181 | out of range is a no-op; otherwise the filtered entry's flag flips and is copied to the first full-list entry with the same path; nothing else changes |
| PresetBrowser.ToggleTwice | vst3/src/gui/preset_browser.cpp:168-181 | toggling the same entry twice restores the browser when both copies agreed |
| PresetBrowser.GetFavorites | vst3/src/gui/preset_browser.cpp:183-191 | the result holds exactly the favourite entries of the full list |
| PresetBrowser.FavoritesOrder | vst3/src/gui/preset_browser.cpp:185-189 | favourites keep the full list's order |
| PresetBrowser.AddSearchPath | vst3/src/gui/preset_browser.cpp:193-197 | the path is appended only when absent, so a duplicate-free list stays duplicate-free |
| PresetBrowser.AddSearchPathIdempotent | vst3/src/gui/preset_browser.cpp:193-197 | adding the same path twice is adding it once |
| PresetBrowser.RemoveSearchPath | vst3/src/gui/preset_browser.cpp:199-203 | every occurrence of the path goes, no other path appears, and every other path is kept |
| PresetBrowser.RemoveSearchPathKeepsOrder | vst3/src/gui/preset_browser.cpp:199-203 | removal works piece by piece over a concatenation and drops exactly the matching entries, so the kept paths stay in their order |
| PresetBrowser.AddThenRemove | vst3/src/gui/preset_browser.cpp:193-203 | removing a newly added path restores the list, order included |
| Waveform.DecodeHeader | vst3/src/gui/waveform_view.cpp:240-244 | shift < 16 and filter < 4; end is bit 0 and loop is bit 1 of the byte |
| Waveform.EncodeDecode | vst3/src/gui/waveform_view.cpp:241-244 | every header byte equals shift<<4, filter<<2, loop<<1 and end recombined |
| Waveform.DecodeEncode | vst3/src/gui/waveform_view.cpp:241-244 | any header with in-range fields survives packing into a byte and decoding |
| Waveform.NumBlocks | vst3/src/gui/waveform_view.cpp:231 | the count is the number of whole 9-byte blocks |
| Waveform.BlockHeaders | vst3/src/gui/waveform_view.cpp:236-244 | block b's header is the decoded byte at 9b, which is in bounds |
| Waveform.TrailingBytesIgnored | vst3/src/gui/waveform_view.cpp:231 | a trailing partial block adds no block |
| Waveform.ShortBufferHasNoBlocks | vst3/src/gui/waveform_view.cpp:231-232 | fewer than 9 bytes give no blocks, so nothing is drawn |
| Waveform.Classify | vst3/src/gui/waveform_view.cpp:248-257 | the colour class is loop-end when end and loop, end-only when end alone, filtered when not end and the filter is non-zero, else plain |
| Waveform.BlockColor | vst3/src/gui/waveform_view.cpp:247-257 | a looping end block is yellow (255, 200, 0), any other end block red (255, 100, 100), a filtered block (74, 159 - 30 * filter, 255), so green 129, 99 or 69, and a plain block the waveform colour |
| Waveform.ColorTellsKind | vst3/src/gui/waveform_view.cpp:247-257 | with the default waveform colour, two blocks get the same colour exactly when they have the same class |
| Waveform.FilterMarkHeight | vst3/src/gui/waveform_view.cpp:270-275 | the filter mark is drawn exactly when the filter is non-zero and is at most 9 pixels high |
| Waveform.NewView | vst3/src/gui/waveform_view.h:68-85 | a new view has no data, waveform mode, zoom 1, offset 0 and no selection |
| Waveform.SetSampleData | vst3/src/gui/waveform_view.cpp:16-29 | left gets exactly numSamples entries, each in [-1, 32767/32768], and right is emptied; nothing else changes |
| Waveform.SampleScaleInverts | vst3/src/gui/waveform_view.cpp:23-26 | each converted sample times 32768 is the original 16-bit value |
| Waveform.SetWaveformData | vst3/src/gui/waveform_view.cpp:31-42 | left copies numSamples values; right copies as many when given and is emptied otherwise |
| Waveform.StereoLengthsAgree | vst3/src/gui/waveform_view.cpp:34-36 | with both channels given, left and right both hold numSamples entries |
| Waveform.ClearData | vst3/src/gui/waveform_view.cpp:44-50 | left, right and the BRR bytes are emptied; nothing else changes |
| Waveform.ClearedHasNoBlocks | vst3/src/gui/waveform_view.cpp:44-50 | after clearData there are no BRR blocks to draw |
| Waveform.SetBrrBlockData | vst3/src/gui/waveform_view.cpp:64-69 | the bytes are stored and the mode becomes BRR samples; nothing else changes |
| Waveform.SetDisplayMode | vst3/src/gui/waveform_view.h:39-40 | getDisplayMode returns the mode just set |
| Waveform.SetZoom | vst3/src/gui/waveform_view.h:43 | zoom becomes the request clamped to [0.1, 100] |
| Waveform.SetZoomIdempotent | vst3/src/gui/waveform_view.h:43 | setting the stored zoom again changes nothing |
| Waveform.SetOffset | vst3/src/gui/waveform_view.h:45-46 | getOffset returns the offset just set, unclamped |
| Waveform.SetSelection | vst3/src/gui/waveform_view.cpp:52-56 | both ends are stored as given, and hasSelection holds exactly when they differ |
| Waveform.ClearSelection | vst3/src/gui/waveform_view.cpp:58-62 | both ends become 0, so there is no selection |
| Waveform.ClearIsEmptySelection | vst3/src/gui/waveform_view.h:51 | clearing the selection is selecting the empty range 0..0 |
| Keyboard.NarrowLower | vst3/src/gui/keyboard_handler.cpp:47 | the lower-cased character is narrowed to 8 bits; ASCII characters keep their lower-case code |
| Keyboard.CharAction | vst3/src/gui/keyboard_handler.cpp:46-75 | space toggles play, l or L toggles loop, m or M mutes all, n or N clears the solos, digit c toggles voice c - '1' (a voice 0..7), and a zero character triggers nothing |
| Keyboard.VirtualAction | vst3/src/gui/keyboard_handler.cpp:79-112 | Escape stops and Home jumps to the start, each exactly for that key; Up and Down raise and lower the volume exactly when no modifier is held; every other key or a modified Up or Down triggers nothing |
| Keyboard.Decide | vst3/src/gui/keyboard_handler.cpp:39-113 | only key-down events act; a character shortcut takes precedence over the virtual key |
| Keyboard.CaseInsensitive | vst3/src/gui/keyboard_handler.cpp:47 | an upper-case letter acts as its lower-case form |
| Keyboard.NarrowingAliases | vst3/src/gui/keyboard_handler.cpp:47 | a character 256 code points above another (and not an upper-case letter) acts the same after the 8-bit narrowing |
| Keyboard.DigitsToggleVoices | vst3/src/gui/keyboard_handler.cpp:62-73 | digit c toggles voice c - '1', whose parameter lies in 100..107 |
| Keyboard.OthersNotConsumed | vst3/src/gui/keyboard_handler.cpp:46-112 | any other narrow character with any other virtual key is not consumed |
| Keyboard.KeyBindings | vst3/src/gui/keyboard_handler.cpp:40-112 | on a key-down event: space, l, m and n in either case run their shortcuts; with no character shortcut, Escape stops, Home rewinds, and Up and Down change the volume only without modifiers |
| Keyboard.Toggled | vst3/src/gui/keyboard_handler.cpp:70 | the toggle gives 0 or 1, and 1 exactly when the old value is at most 0.5 |
| Keyboard.ToggleTwice | vst3/src/gui/keyboard_handler.cpp:116-135 | toggling 0 or 1 twice restores it |
| Keyboard.SetIfPresent | vst3/src/gui/keyboard_handler.cpp:67-71 | a parameter the controller has is set; a missing one (null object) changes nothing |
| Keyboard.Apply | vst3/src/gui/keyboard_handler.cpp:116-207 | no action adds or removes a parameter; every parameter outside the ones the action touches keeps its value; every switch an action other than the volume keys writes ends at 0 or 1 |
| Keyboard.OnKeyboardEvent | vst3/src/gui/keyboard_handler.cpp:39-113 | consumed exactly when the dispatch finds an action; without a controller nothing is edited |
| Keyboard.NotConsumedChangesNothing | vst3/src/gui/keyboard_handler.cpp:40-43 | an unconsumed event, in particular any non-key-down event, changes no parameter |
| Keyboard.DigitTogglesOnlyItsVoice | vst3/src/gui/keyboard_handler.cpp:62-73 | a digit key is consumed, toggles its voice's parameter and leaves every other parameter alone |
| Keyboard.PlayPauseKeyToggles | vst3/src/gui/keyboard_handler.cpp:50-52 | space is consumed, toggles the play parameter (0 above 0.5, else 1) and nothing else, and pressing it again restores a 0 or 1 value |
| Keyboard.LoopKeyToggles | vst3/src/gui/keyboard_handler.cpp:53-55 | l or L is consumed, toggles the loop parameter and nothing else, and pressing it again restores a 0 or 1 value |
| Keyboard.VolumeStaysInRange | vst3/src/gui/keyboard_handler.cpp:155-174 | up sets the master volume to min(1, v + 0.05) and down to max(0, v - 0.05), so a volume in [0, 1] stays there and moves by at most 0.05 in the key's direction; without the parameter nothing changes |
| Keyboard.EscapeStops | vst3/src/gui/keyboard_handler.cpp:79-82 | an Escape key-down with no character shortcut is consumed and sets play and position to 0 and nothing else |
| Keyboard.HomeOnlyRewinds | vst3/src/gui/keyboard_handler.cpp:98-106 | a Home key-down with no character shortcut is consumed and sets only the position to 0 |
| Keyboard.MuteAllContents | vst3/src/gui/keyboard_handler.cpp:177-186 | 'm' sets all 8 voice parameters to 0 and nothing else |
| Keyboard.SoloNoneContents | vst3/src/gui/keyboard_handler.cpp:189-207 | 'n' sets all 8 solo parameters to 0 and all 8 voice parameters to 1, and nothing else |
| ViewSwitcher.NewSwitcher | vst3/src/gui/view_switcher.h:34-35 | a new switcher has no panels and active index 0 |
| ViewSwitcher.AddPanel | vst3/src/gui/view_switcher.cpp:13-23 | a null view is ignored; otherwise the panel is appended, hidden unless it is the first, and the active index stays valid |
| ViewSwitcher.AddPanelKeepsOneShown | vst3/src/gui/view_switcher.cpp:13-23 | adding a shown first panel, or any later panel, keeps exactly the active panel shown |
| ViewSwitcher.UpdateVisibility | vst3/src/gui/view_switcher.cpp:39-43 | afterwards exactly the active panel is shown |
| ViewSwitcher.SetActiveIndex | vst3/src/gui/view_switcher.cpp:26-36 | an out-of-range or current index changes nothing, visibility included; any other panel becomes active and the only one shown |
| ViewSwitcher.SetActivePreservesOneShown | vst3/src/gui/view_switcher.cpp:26-43 | once exactly the active panel is shown, every setActiveIndex keeps it so |
| ViewSwitcher.SetActiveIdempotent | vst3/src/gui/view_switcher.cpp:26-36 | selecting the same index twice is selecting it once |
| ViewSwitcher.IndexForValueInRange | vst3/src/gui/view_switcher.cpp:61 | for a value in [0, 1] and at least one panel the rounded index names a panel |
| ViewSwitcher.ValueEndsSelectEndPanels | vst3/src/gui/view_switcher.cpp:61 | value 0 selects the first panel and value 1 the last |
| ViewSwitcher.ValueChanged | vst3/src/gui/view_switcher.cpp:58-63 | without a control or a switcher nothing happens; otherwise setActiveIndex gets the rounded index |
| ViewSwitcher.ValueChangedSelects | vst3/src/gui/view_switcher.cpp:58-63 | a value in [0, 1] makes the panel it names the active one |
| ViewSwitcher.IndexForValue | vst3/src/gui/view_switcher.cpp:61 | for a value in [0, 1] and at least one panel the rounded index names a panel |
| SpcEditor.LastDot | vst3/src/gui/spc_editor.cpp:259 | rfind finds the last '.' or reports none |
| SpcEditor.Extension | vst3/src/gui/spc_editor.cpp:258-264 | the extension is empty or starts with its only '.' |
| SpcEditor.AcceptsIff | vst3/src/gui/spc_editor.cpp:258-265 | a path is accepted exactly when, lower-cased, it ends in .spc, .rsn or .spcx |
| SpcEditor.ExtensionIs | vst3/src/gui/spc_editor.cpp:258-264 | for a single-dot suffix e, the extension is e exactly when the lower-cased path ends in e |
| SpcEditor.NoDotRefused | vst3/src/gui/spc_editor.cpp:259-265 | a path without a '.' is refused |
| SpcEditor.UpperCaseAccepted | vst3/src/gui/spc_editor.cpp:262-265 | "song.SPC" is accepted |
| SpcEditor.LastExtensionCounts | vst3/src/gui/spc_editor.cpp:259-265 | "a.spc.txt" is refused: only the last extension counts |
| SpcEditor.ContainsSpcFile | vst3/src/gui/spc_editor.cpp:246-272 | false for a null package; otherwise true exactly when some non-empty file-path item passes the extension test |
| SpcEditor.ExtractFilePath | vst3/src/gui/spc_editor.cpp:275-290 | the first non-empty file-path item, or the empty string when there is none |
| SpcEditor.SpcFileHasPath | vst3/src/gui/spc_editor.cpp:317-323 | when the package holds an SPC file, the extracted path is non-empty |
| SpcEditor.ExtractedNeedNotBeSpc | vst3/src/gui/spc_editor.cpp:275-290 | the extracted path need not be the item that passed the test: for a.txt then b.spc it is a.txt |
| SpcEditor.OnDragEnter | vst3/src/gui/spc_editor.cpp:293-300 | the drag-over flag becomes containsSpcFile, and Copy is returned exactly then |
| SpcEditor.OnDragMove | vst3/src/gui/spc_editor.cpp:309-314 | Copy exactly when the drag-over flag is set |
| SpcEditor.OnDragLeave | vst3/src/gui/spc_editor.cpp:303-306 | the drag-over flag is cleared; nothing else changes |
| SpcEditor.EnterThenMove | vst3/src/gui/spc_editor.cpp:293-314 | a move right after an enter answers as the enter did |
| SpcEditor.OnDrop | vst3/src/gui/spc_editor.cpp:317-330 | no SPC file means false and no change; a true result loads the non-empty extracted path and clears the flag; a false result changes nothing |
| SpcEditor.DropAcceptedIff | vst3/src/gui/spc_editor.cpp:317-330 | a drop succeeds exactly when the package holds an SPC file and there is a controller |
| SpcEditor.ViewModeThresholds | vst3/src/gui/spc_editor.cpp:141 | for a value in [0, 1] the mode is 0 below 0.25, 1 below 0.75 and 2 from there on |
| SpcEditor.ShowIf | vst3/src/gui/spc_editor.cpp:145-153 | a missing panel stays missing; a present one gets the given visibility |
| SpcEditor.UpdatePanelVisibility | vst3/src/gui/spc_editor.cpp:136-159 | a present mixer is shown exactly in mode 0, samples exactly in mode 1 and the browser exactly in mode 2; missing panels stay missing |
| SpcEditor.ViewModeOf | vst3/src/gui/spc_editor.cpp:138-142 | without a controller the mode is 0; otherwise, for a value in [0, 1], it is 0 below 0.25, 1 below 0.75 and 2 from there on |
| SpcEditor.OnePanelShown | vst3/src/gui/spc_editor.cpp:136-153 | at most one panel is shown, and exactly one when all three exist and the value is normalized or absent |
| SpcProcessor.NewProcessor | vst3/src/spc_processor.h:45-53 | defaults are volume 1, stopped, looping, all voices enabled, no solo, 44.1 kHz |
| SpcProcessor.ApplyParam | vst3/src/spc_processor.cpp:60-80 | master volume takes the value; play, loop, voice and solo switches take value > 0.5; each ID sets only its own field |
| SpcProcessor.OtherIdsIgnored | vst3/src/spc_processor.cpp:60-80 | any ID outside the switch leaves the state unchanged |
| SpcProcessor.ApplyQueue | vst3/src/spc_processor.cpp:55-59 | an empty queue has no last point and changes nothing |
| SpcProcessor.OnlyLastPointCounts | vst3/src/spc_processor.cpp:59 | only the last point of a queue is applied |
| SpcProcessor.ApplyQueuesAppend | vst3/src/spc_processor.cpp:50-84 | the queues are applied one after another, in order |
| SpcProcessor.LastVolumeQueueWins | vst3/src/spc_processor.cpp:52-63 | the last master-volume queue of a block sets the volume, whatever came before |
| SpcProcessor.MapPrefix | vst3/src/spc_processor.cpp:97-115 | a sample loop rewrites the first numSamples entries and keeps the rest |
| SpcProcessor.Process | vst3/src/spc_processor.cpp:48-118 | the changes are applied and the result is kResultOk; without a stereo first bus no output is touched |
| SpcProcessor.ApplyQueues | vst3/src/spc_processor.cpp:50-84 | the processor stays valid and keeps its sample rate; a parameter that receives no queue keeps its value |
| SpcProcessor.RenderBus | vst3/src/spc_processor.cpp:95-115 | the first numSamples frames of both stereo channels are silence whether or not it is playing, because the zeros are only scaled by the master volume; later frames and any further channels are unchanged |
| SpcProcessor.OutputIsSilent | vst3/src/spc_processor.cpp:95-115 | with a stereo first bus both channels are exactly 0 for every sample of the block, playing or not; every other sample, channel and bus is unchanged |
| SpcProcessor.CanProcessSampleSize | vst3/src/spc_processor.cpp:120-125 | only 32-bit samples are accepted |
| SpcProcessor.SetState | vst3/src/spc_processor.cpp:127-134 | refused exactly on a null stream; the processor is unchanged |
| SpcProcessor.GetState | vst3/src/spc_processor.cpp:136-143 | refused exactly on a null stream; nothing is written |
| SpcProcessor.StateRoundTrip | vst3/src/spc_processor.cpp:127-143 | getState and then setState with the same stream leave the processor unchanged and both succeed |
| SpcProcessor.LoadSpcFile | vst3/src/spc_processor.cpp:145-148 | loading always fails and changes nothing |
| SpcProcessor.SetupProcessing | vst3/src/spc_processor.cpp:43-46 | the sample rate is stored whatever the setup says and nothing else changes; the setup is accepted exactly for 32-bit samples, the only size canProcessSampleSize accepts |

## Left out

- FFT arithmetic, the Hann window, the twiddle factor values, the log10/pow band edges and the dB scale are floating-point numerics and are not modelled. The band update takes the 512 magnitudes as an input, and the log-mode bin edges as a function `logEdge` that is assumed to stay below 512. Only the index and permutation structure of the FFT is modelled.
- Floating point is modelled with reals: no rounding, NaN or infinity. For example, the 0.05 volume steps and the /32768 scaling are exact in the model.
- SpectrumBands.UpdateBands: stated for the model's reals; float rounding in the smoothing could differ in the last bit.
- All draw methods, the view factories, hit testing, scrolling, the colour setters and `invalid()` are VSTGUI rendering and are not modelled. The block colours and the filter-mark height are the only drawing facts kept.
- Mutex locking in the spectrum view, waveform view and MIDI-learn handler is not modelled: the model is single-threaded.
- Filesystem and environment access is not modelled: scanning directories, refreshing the preset list, saving and loading mapping files, and the preset browser's setup from the environment.
- The editor's timer (test-signal generation), its open/close and its view lookups are not modelled.
- The foreign audio host (`dotnet_host`), controller parameter registration, the plugin factory, the ID and message headers, and the icon generator script are not part of this model.
- The processor's initialize, terminate and setActive are not modelled: initialize calls the SDK base class and also adds the stereo output bus (vst3/src/spc_processor.cpp:22), and terminate and setActive only call the base class. notify is declared (vst3/src/spc_processor.h:33) but defined nowhere in the source. The `voiceVolume_` array is not modelled either, because no modelled operation reads or writes it.
- Text is `seq<char>`, and one model char stands for one byte of the source's std::string. tolower on a code above 255 is modelled as the identity. Ordering, lower-casing and substring search agree with the byte-wise source for UTF-8 text, but multi-byte characters are not decoded.
- The shortcut list registered in the keyboard handler's constructor is not modelled, because the event handler never reads it.
- Controller edits, load requests and callbacks are returned as values (`Edit`, `LoadOutcome`, `Option<PresetInfo>`); what the controller then does is not modelled. The keyboard's `setNormalized` is modelled as a plain store: the SDK's clamping to [0, 1] is not modelled.
- PresetOrder.Sort: std::sort is unstable. The model is a stable insertion sort, and the contract states only what std::sort promises, a sorted permutation. The order of equivalent presets is therefore not claimed to match the source.
- MidiText.RoundTrip: `operator<<` for floats is a parameter `fmt` that yields well-formed decimal text. Min and max are promised only up to the value that text denotes. The exact round trip, MidiText.RoundTripExact, needs an exact printer.
- MidiText.Deserialize: a line is parsed by the model's scanners for `>>` on int, char and float. An int outside the 32-bit range fails its line, as the stream's failbit does. Locale handling, the C library's rounding of long decimal inputs and hexadecimal floats are not modelled.
- PresetBrowser.NoSelectionAfterFilter: assumes fewer than SIZE_MAX presets, as any real list has, so that SIZE_MAX can never be an index.
- ViewSwitcher.ValueChanged: the product value * (count - 1) + 0.5 is computed in reals, not in single-precision float.
- ViewSwitcher.AddPanel: a panel is modelled only by its own visibility flag. Adding the same view object twice therefore gives two independent flags in the model, where the source holds one aliased view whose visibility the later setVisible call decides.
- SpcProcessor.SetupProcessing: the SDK base class AudioEffect is not part of this model. Its setupProcessing is taken to refuse a sample size canProcessSampleSize refuses and to accept the rest; the setup it keeps is not modelled. The SDK constant kSample32 is taken to be 0 and kSample64 to be 1.
- SpectrumBands.PushSamples: pushing 0 samples still recomputes the spectrum and the bands (vst3/src/gui/spectrum_view.cpp:37-48); it is not a no-op.
- SpectrumBands.Resize: a change in band count keeps the existing band values and zero-fills only the new slots, as std::vector::resize does (vst3/src/gui/spectrum_view.cpp:70-74); the arrays are not reset.

=== FILE: bit_reversal.dfy ===
/**
  The index structure of SpectrumView's radix-2 FFT: reverseBits, the
  bit-reversal lookup table built in the constructor, the swap loop that
  applies it, the shape of the twiddle tables and the butterfly index
  schedule. The complex arithmetic itself is not modelled.
 */
module BitReversal {
  import opened Common

  /**
    reverseBits(n, bits): the low `bits` bits of n in reverse order.
    Written low-bit first: bit 0 of n becomes bit (bits - 1) of the result.
   */
  function ReverseBits(n: nat, bits: nat): (r: nat)
    ensures r < Pow2(bits)
  {
    if bits == 0 then 0 else LowBit(n) * Pow2(bits - 1) + ReverseBits(n / 2, bits - 1)
  }

  /** n & 1. */
  function LowBit(n: nat): (b: nat)
    ensures b == n % 2 && b <= 1
  {
    n % 2
  }

  /**
    The loop of SpectrumView::reverseBits: result = (result << 1) | (n & 1);
    n >>= 1, `bits` times. The shifted result is even, so the OR is an
    addition; the result stays below 2^bits, so a 64-bit size_t never wraps
    for the 10 bits used here.
   */
  method ReverseBitsLoop(n: nat, bits: nat) returns (result: nat)
    ensures result == ReverseBits(n, bits)
    ensures result < Pow2(bits)
  {
    result := 0;
    var m := n;
    var i := 0;
    while i < bits
      invariant 0 <= i <= bits
      invariant ReverseBits(n, bits) == result * Pow2(bits - i) + ReverseBits(m, bits - i)
    {
      LoopStep(result, m, bits - i);
      result := result * 2 + LowBit(m);
      m := m / 2;
      i := i + 1;
    }
  }

  /** One iteration of the reverseBits loop moves bit 0 of m from the pending part to the result. */
  lemma LoopStep(result: nat, m: nat, rest: nat)
    requires rest >= 1
    ensures result * Pow2(rest) + ReverseBits(m, rest)
         == (result * 2 + LowBit(m)) * Pow2(rest - 1) + ReverseBits(m / 2, rest - 1)
  {
    var p := Pow2(rest - 1);
    assert Pow2(rest) == 2 * p;
    calc {
      result * Pow2(rest) + ReverseBits(m, rest);
      result * (2 * p) + LowBit(m) * p + ReverseBits(m / 2, rest - 1);
      { MulAssoc(result, 2, p); }
      (result * 2) * p + LowBit(m) * p + ReverseBits(m / 2, rest - 1);
      { MulDistrib(result * 2, LowBit(m), p); }
      (result * 2 + LowBit(m)) * p + ReverseBits(m / 2, rest - 1);
    }
  }

  lemma MulAssoc(a: int, b: int, c: int)
    ensures a * (b * c) == (a * b) * c
  {
  }

  lemma MulDistrib(a: int, b: int, c: int)
    ensures a * c + b * c == (a + b) * c
  {
  }

  /** Quotient and remainder are determined by any decomposition n = d q + r with 0 <= r < d. */
  lemma DivModUnique(n: int, d: int, q: int, r: int)
    requires d > 0 && n == d * q + r && 0 <= r < d
    ensures n / d == q && n % d == r
  {
    var q0 := n / d;
    var r0 := n % d;
    assert n == d * q0 + r0;
    if q0 > q {
      assert d * q0 >= d * (q + 1) by { MulMonotone(d, q + 1, q0); }
      assert false;
    } else if q0 < q {
      assert d * q >= d * (q0 + 1) by { MulMonotone(d, q0 + 1, q); }
      assert false;
    }
  }

  lemma MulMonotone(d: int, a: int, b: int)
    requires d > 0 && a <= b
    ensures d * a <= d * b
  {
  }

  /** Arithmetic behind TopBitFirst: splitting n at p = 2q. */
  lemma SplitAtPower(n: nat, q: nat)
    requires q >= 1
    ensures (n % (2 * q)) % 2 == n % 2
    ensures (n % (2 * q)) / 2 == (n / 2) % q
    ensures (n / 2) / q == n / (2 * q)
  {
    var p := 2 * q;
    var a := n / p;
    var m := n % p;
    assert n == p * a + m;
    assert p * a == 2 * (q * a) by { MulAssoc(2, q, a); }
    DivModUnique(n, 2, q * a + m / 2, m % 2);
    assert m / 2 < q;
    DivModUnique(n / 2, q, a, m / 2);
    DivModUnique(n, 2, q * a + m / 2, m % 2);
  }

  /** The same reversal read from the other end: the top bit of n becomes bit 0. */
  lemma {:induction false} TopBitFirst(n: nat, b: nat)
    requires b >= 1 && n < Pow2(b)
    ensures ReverseBits(n, b) == 2 * ReverseBits(n % Pow2(b - 1), b - 1) + n / Pow2(b - 1)
  {
    if b == 1 {
      assert n < 2;
    } else {
      var q := Pow2(b - 2);
      var p := Pow2(b - 1);
      assert p == 2 * q;
      SplitAtPower(n, q);
      assert n / 2 < p by { DivModUnique(n, 2, n / 2, n % 2); }
      TopBitFirst(n / 2, b - 1);
      var l := LowBit(n);
      var rest := ReverseBits((n / 2) % q, b - 2);
      assert ReverseBits(n / 2, b - 1) == 2 * rest + n / p;
      assert ReverseBits(n % p, b - 1) == l * q + rest;
      DoubleFactor(l, q);
      Recombine(ReverseBits(n, b), ReverseBits(n / 2, b - 1), ReverseBits(n % p, b - 1), l * p, l * q, rest, n / p);
    }
  }

  lemma DoubleFactor(a: int, q: int)
    ensures a * (2 * q) == 2 * (a * q)
  {
  }

  /** The linear step of TopBitFirst, with the products named. */
  lemma Recombine(whole: int, upper: int, lower: int, lp: int, lq: int, rest: int, top: int)
    requires whole == lp + upper && upper == 2 * rest + top
    requires lower == lq + rest && lp == 2 * lq
    ensures whole == 2 * lower + top
  {
  }

  /** Reversing twice gives back every b-bit number. */
  lemma {:induction false} ReverseBitsInvolution(n: nat, b: nat)
    requires n < Pow2(b)
    ensures ReverseBits(ReverseBits(n, b), b) == n
  {
    if b > 0 {
      var p := Pow2(b - 1);
      var t := ReverseBits(n / 2, b - 1);
      var r := ReverseBits(n, b);
      assert r == p * LowBit(n) + t;
      TopBitFirst(r, b);
      DivModUnique(r, p, LowBit(n), t);
      assert n / 2 < p by { DivModUnique(n, 2, n / 2, n % 2); }
      ReverseBitsInvolution(n / 2, b - 1);
    }
  }

  /**
    The constructor's bit count: for (temp = size; temp > 1; temp >>= 1)
    bits++. It is floor(log2 size): 2^bits <= size < 2^(bits + 1).
   */
  function BitCount(size: nat): (bits: nat)
    ensures size >= 1 ==> Pow2(bits) <= size < Pow2(bits + 1)
  {
    if size > 1 then 1 + BitCount(size / 2) else 0
  }

  lemma {:induction false} BitCountOfPower(k: nat)
    ensures BitCount(Pow2(k)) == k
  {
    if k > 0 {
      assert Pow2(k) / 2 == Pow2(k - 1);
      BitCountOfPower(k - 1);
    }
  }

  /** bitReverseLUT_: entry i is reverseBits(i, bits). */
  function ReverseTable(size: nat): (lut: seq<nat>)
    ensures |lut| == size
    ensures forall i :: 0 <= i < size ==> lut[i] < Pow2(BitCount(size)) && lut[i] <= size
  {
    seq(size, (i: int) requires 0 <= i < size => ReverseBits(i, BitCount(size)))
  }

  /** Every entry is an index of the table and the table undoes itself. */
  ghost predicate IsInvolution(lut: seq<nat>) {
    forall i :: 0 <= i < |lut| ==> lut[i] < |lut| && lut[lut[i]] == i
  }

  /**
    For a power-of-two size the table is an involution of 0..size-1, hence
    a permutation: no two indices share an entry and every index is hit.
   */
  lemma ReverseTableIsPermutation(k: nat)
    ensures IsInvolution(ReverseTable(Pow2(k)))
    ensures forall i, j :: 0 <= i < j < Pow2(k) ==> ReverseTable(Pow2(k))[i] != ReverseTable(Pow2(k))[j]
  {
    var lut := ReverseTable(Pow2(k));
    BitCountOfPower(k);
    forall i | 0 <= i < |lut|
      ensures lut[i] < |lut| && lut[lut[i]] == i
    {
      ReverseBitsInvolution(i, k);
    }
    forall i, j | 0 <= i < j < Pow2(k)
      ensures lut[i] != lut[j]
    {
      assert lut[lut[i]] == i && lut[lut[j]] == j;
    }
  }

  /** The table the analyser actually uses: FFT_SIZE = 1024 = 2^10, so 10 bits. */
  lemma AnalyserTable()
    ensures BitCount(1024) == 10
    ensures IsInvolution(ReverseTable(1024))
  {
    assert Pow2(10) == 1024;
    BitCountOfPower(10);
    ReverseTableIsPermutation(10);
  }

  /** The classic 8-point fixture. */
  lemma EightPointTable()
    ensures ReverseTable(8) == [0, 4, 2, 6, 1, 5, 3, 7]
  {
    assert BitCount(8) == 3;
    var lut := ReverseTable(8);
    assert lut[0] == 0 && lut[1] == 4 && lut[2] == 2 && lut[3] == 6;
    assert lut[4] == 1 && lut[5] == 5 && lut[6] == 3 && lut[7] == 7;
  }

  /**
    The permutation loop of fftOptimized: for each i, swap data[i] and
    data[lut[i]] when i < lut[i]. With an involutive table every element is
    moved exactly once, to the bit-reversed position.
   */
  method Permute<T>(data: seq<T>, lut: seq<nat>) returns (out: seq<T>)
    requires |lut| == |data|
    requires IsInvolution(lut)
    ensures |out| == |data|
    ensures forall i :: 0 <= i < |data| ==> out[i] == data[lut[i]]
    ensures multiset(out) == multiset(data)
  {
    out := data;
    var i := 0;
    while i < |data|
      invariant 0 <= i <= |data|
      invariant |out| == |data|
      invariant forall k :: 0 <= k < |data| ==>
                  out[k] == (if k < i || lut[k] < i then data[lut[k]] else data[k])
      invariant multiset(out) == multiset(data)
    {
      var j := lut[i];
      if i < j {
        ghost var prev := out;
        out := out[i := out[j]][j := out[i]];
        assert multiset(out) == multiset(prev) by {
          SwapMultiset(prev, i, j);
        }
      }
      i := i + 1;
    }
  }

  lemma SwapMultiset<T>(s: seq<T>, i: nat, j: nat)
    requires i < j < |s|
    ensures multiset(s[i := s[j]][j := s[i]]) == multiset(s)
  {
    var t := s[i := s[j]][j := s[i]];
    assert s == s[..i] + [s[i]] + s[i + 1..j] + [s[j]] + s[j + 1..];
    assert t == s[..i] + [s[j]] + s[i + 1..j] + [s[i]] + s[j + 1..];
  }

  /** precomputeTwiddleFactors: for len = 2, 4, ..., n one table of len/2 factors. */
  method TwiddleTableSizes(n: nat, ghost k: nat) returns (sizes: seq<nat>)
    requires n == Pow2(k)
    ensures |sizes| == k
    ensures forall s :: 0 <= s < k ==> sizes[s] == Pow2(s)
  {
    sizes := [];
    var len := 2;
    while len <= n
      invariant len == Pow2(|sizes| + 1)
      invariant |sizes| <= k
      invariant forall s :: 0 <= s < |sizes| ==> sizes[s] == Pow2(s)
    {
      PowMonotone(|sizes| + 1, k);
      sizes := sizes + [len / 2];
      len := len * 2;
    }
    if |sizes| < k {
      PowMonotone(|sizes| + 1, k);
    }
  }

  lemma {:induction false} PowMonotone(a: nat, b: nat)
    ensures a <= b <==> Pow2(a) <= Pow2(b)
  {
    if a > 0 && b > 0 {
      PowMonotone(a - 1, b - 1);
    } else if a > 0 {
      assert Pow2(a) == 2 * Pow2(a - 1);
    } else if b > 0 {
      assert Pow2(b) == 2 * Pow2(b - 1);
    }
  }

  /** One butterfly: stage, the two data indices it combines, and the twiddle entry it uses. */
  datatype Butterfly = Butterfly(stage: nat, top: nat, bottom: nat, twiddle: nat)

  /** A butterfly whose indices all exist: data indices below n, an existing table and factor. */
  ghost predicate InBounds(b: Butterfly, n: nat, sizes: seq<nat>) {
    b.stage < |sizes| && b.twiddle < sizes[b.stage] &&
    b.top < b.bottom < n && b.bottom == b.top + Pow2(b.stage)
  }

  /**
    The loop nest of fftOptimized without the arithmetic: stage by stage
    (len = 2, 4, ..., n), block by block (i = 0, len, 2 len, ...), pair by
    pair (j < len/2), combining data[i + j] with data[i + j + len/2] using
    factor j of twiddle table `stage`. For n = 2^k every index is inside
    the data, every stage has a table and every factor exists; there are
    (n/2) log2 n butterflies in all.
   */
  method ButterflySchedule(n: nat, ghost k: nat, sizes: seq<nat>) returns (plan: seq<Butterfly>)
    requires n == Pow2(k) && n > 1
    requires |sizes| == k && forall s :: 0 <= s < k ==> sizes[s] == Pow2(s)
    ensures |plan| == k * (n / 2)
    ensures forall b :: b in plan ==> InBounds(b, n, sizes)
  {
    plan := [];
    var stage := 0;
    var len := 2;
    while len <= n
      invariant len == Pow2(stage + 1)
      invariant stage <= k
      invariant |plan| == stage * (n / 2)
      invariant forall b :: b in plan ==> InBounds(b, n, sizes)
    {
      PowMonotone(stage + 1, k);
      PowerDivides(stage + 1, k);
      var half := len / 2;
      assert half == Pow2(stage) == sizes[stage];
      ghost var base := |plan|;
      var i := 0;
      while i < n
        invariant 0 <= i <= n && i % len == 0
        invariant |plan| == base + i / 2
        invariant forall b :: b in plan ==> InBounds(b, n, sizes)
      {
        NextBlock(i, n, len);
        var j := 0;
        while j < half
          invariant 0 <= j <= half
          invariant |plan| == base + i / 2 + j
          invariant forall b :: b in plan ==> InBounds(b, n, sizes)
        {
          plan := plan + [Butterfly(stage, i + j, i + j + half, j)];
          j := j + 1;
        }
        i := i + len;
      }
      MulSucc(stage, n / 2);
      len := len * 2;
      stage := stage + 1;
    }
    if stage < k {
      PowMonotone(stage + 1, k);
    }
  }

  /** Blocks of a multiple-of-len array: the next block also fits. */
  lemma NextBlock(i: nat, n: nat, len: nat)
    requires len >= 2 && len % 2 == 0
    requires i < n && i % len == 0 && n % len == 0
    ensures i + len <= n && (i + len) % len == 0
    ensures (i + len) / 2 == i / 2 + len / 2
  {
    var a := i / len;
    var c := n / len;
    assert i == len * a;
    assert n == len * c;
    if a >= c {
      MulMonotone(len, c, a);
      assert false;
    }
    MulMonotone(len, a + 1, c);
    DivModUnique(i + len, len, a + 1, 0);
  }

  /** len = 2^a divides n = 2^b when a <= b. */
  lemma PowerDivides(a: nat, b: nat)
    requires a <= b
    ensures Pow2(b) % Pow2(a) == 0
  {
    PowSplit(a, b - a);
    DivModUnique(Pow2(b), Pow2(a), Pow2(b - a), 0);
  }

  lemma MulSucc(a: int, b: int)
    ensures (a + 1) * b == a * b + b
  {
  }

  lemma {:induction false} PowSplit(a: nat, b: nat)
    ensures Pow2(a + b) == Pow2(a) * Pow2(b)
  {
    if a > 0 {
      PowSplit(a - 1, b);
    }
  }
}

=== FILE: common.dfy ===
/**
  Small shared vocabulary: an optional value, powers of two, clamping,
  and the byte-string helpers (C-locale lower-casing, substring search,
  suffix test and the lexicographic order of std::string).
 */
module Common {

  /** A value that may be absent (a null pointer, an empty std::optional). */
  datatype Option<+T> = None | Some(value: T)

  function Pow2(k: nat): (r: nat)
    ensures r >= 1
  {
    if k == 0 then 1 else 2 * Pow2(k - 1)
  }

  /** std::clamp(x, lo, hi) on integers. */
  function ClampInt(x: int, lo: int, hi: int): (r: int)
    requires lo <= hi
    ensures lo <= r <= hi
    ensures lo <= x <= hi ==> r == x
    ensures x < lo ==> r == lo
    ensures x > hi ==> r == hi
  {
    if x < lo then lo else if hi < x then hi else x
  }

  /** std::clamp(x, lo, hi) on reals. */
  function ClampReal(x: real, lo: real, hi: real): (r: real)
    requires lo <= hi
    ensures lo <= r <= hi
    ensures lo <= x <= hi ==> r == x
    ensures x < lo ==> r == lo
    ensures x > hi ==> r == hi
  {
    if x < lo then lo else if hi < x then hi else x
  }

  function MinReal(a: real, b: real): real { if b < a then b else a }
  function MaxReal(a: real, b: real): real { if a < b then b else a }

  /** static_cast<int> of a floating value: truncation toward zero. */
  function Trunc(x: real): (n: int)
    ensures x >= 0.0 ==> n as real <= x < n as real + 1.0
    ensures x < 0.0 ==> n as real - 1.0 < x <= n as real
  {
    if x >= 0.0 then x.Floor else -((-x).Floor)
  }

  /** std::tolower in the "C" locale: only 'A'..'Z' change. */
  function LowerChar(c: char): (r: char)
    ensures 'A' <= c <= 'Z' ==> r as int == c as int + 32
    ensures !('A' <= c <= 'Z') ==> r == c
    ensures !('A' <= r <= 'Z')
  {
    if 'A' <= c <= 'Z' then (c as int + 32) as char else c
  }

  /** The std::transform(..., tolower) idiom over a whole string. */
  function Lower(s: string): (r: string)
    ensures |r| == |s|
    ensures forall i :: 0 <= i < |s| ==> r[i] == LowerChar(s[i])
  {
    seq(|s|, i requires 0 <= i < |s| => LowerChar(s[i]))
  }

  lemma LowerIdempotent(s: string)
    ensures Lower(Lower(s)) == Lower(s)
  {
  }

  predicate IsPrefix(p: string, s: string) {
    |p| <= |s| && s[..|p|] == p
  }

  /** s.find(needle) != npos, searched from the front. */
  predicate Contains(s: string, needle: string)
    decreases |s|
  {
    IsPrefix(needle, s) || (|s| > 0 && Contains(s[1..], needle))
  }

  /** needle occurs in s starting at index i. */
  predicate OccursAt(s: string, needle: string, i: int) {
    0 <= i && i + |needle| <= |s| && s[i..i + |needle|] == needle
  }

  /** The declarative reading of Contains: some window of s equals needle. */
  lemma {:induction false} ContainsIff(s: string, needle: string)
    ensures Contains(s, needle) <==> exists i :: OccursAt(s, needle, i)
    decreases |s|
  {
    if IsPrefix(needle, s) {
      assert OccursAt(s, needle, 0);
    } else if |s| > 0 {
      ContainsIff(s[1..], needle);
      if Contains(s[1..], needle) {
        var i :| OccursAt(s[1..], needle, i);
        assert s[i + 1..i + 1 + |needle|] == s[1..][i..i + |needle|];
        assert OccursAt(s, needle, i + 1);
      }
      if exists i :: OccursAt(s, needle, i) {
        var i :| OccursAt(s, needle, i);
        if i > 0 {
          assert s[1..][i - 1..i - 1 + |needle|] == s[i..i + |needle|];
          assert OccursAt(s[1..], needle, i - 1);
        }
      }
    }
  }

  predicate EndsWith(s: string, suffix: string) {
    |suffix| <= |s| && s[|s| - |suffix|..] == suffix
  }

  /**
    std::string operator<: compare character codes position by position;
    a proper prefix is smaller.
   */
  predicate StrLess(a: string, b: string)
    decreases |a|
  {
    if |a| == 0 then |b| > 0
    else if |b| == 0 then false
    else if a[0] < b[0] then true
    else if b[0] < a[0] then false
    else StrLess(a[1..], b[1..])
  }

  lemma {:induction false} StrLessIrreflexive(a: string)
    ensures !StrLess(a, a)
    decreases |a|
  {
    if |a| > 0 {
      StrLessIrreflexive(a[1..]);
    }
  }

  lemma {:induction false} StrLessTransitive(a: string, b: string, c: string)
    requires StrLess(a, b) && StrLess(b, c)
    ensures StrLess(a, c)
    decreases |a|
  {
    if |a| > 0 && |b| > 0 && |c| > 0 && a[0] == b[0] && b[0] == c[0] {
      StrLessTransitive(a[1..], b[1..], c[1..]);
    }
  }

  /** Any two different strings are ordered one way or the other. */
  lemma {:induction false} StrLessTotal(a: string, b: string)
    requires a != b
    ensures StrLess(a, b) || StrLess(b, a)
    decreases |a|
  {
    if |a| > 0 && |b| > 0 && a[0] == b[0] {
      assert a == [a[0]] + a[1..] && b == [b[0]] + b[1..];
      StrLessTotal(a[1..], b[1..]);
    }
  }

  /**
    The elements of s that `keep` accepts, in their order: the shape of
    both a copy-if loop and the erase(remove_if(...)) idiom.
   */
  function Select<T>(s: seq<T>, keep: T -> bool): (r: seq<T>)
    ensures |r| <= |s|
    ensures forall i :: 0 <= i < |r| ==> r[i] in s && keep(r[i])
    ensures forall i :: 0 <= i < |s| && keep(s[i]) ==> s[i] in r
    decreases |s|
  {
    if s == [] then []
    else (if keep(s[0]) then [s[0]] else []) + Select(s[1..], keep)
  }

  /** Selecting distributes over concatenation, so relative order is kept. */
  lemma {:induction false} SelectAppend<T>(a: seq<T>, b: seq<T>, keep: T -> bool)
    ensures Select(a + b, keep) == Select(a, keep) + Select(b, keep)
    decreases |a|
  {
    if a == [] {
      assert a + b == b;
    } else {
      assert (a + b)[0] == a[0];
      assert (a + b)[1..] == a[1..] + b;
      SelectAppend(a[1..], b, keep);
      var h := if keep(a[0]) then [a[0]] else [];
      assert Select(a + b, keep) == h + (Select(a[1..], keep) + Select(b, keep));
    }
  }

  /** When every element is accepted nothing is dropped. */
  lemma {:induction false} SelectAll<T>(s: seq<T>, keep: T -> bool)
    requires forall i :: 0 <= i < |s| ==> keep(s[i])
    ensures Select(s, keep) == s
    decreases |s|
  {
    if s != [] {
      SelectAll(s[1..], keep);
    }
  }

  /** Two tests that agree on the elements select the same. */
  lemma {:induction false} SelectSame<T>(s: seq<T>, f: T -> bool, g: T -> bool)
    requires forall i :: 0 <= i < |s| ==> f(s[i]) == g(s[i])
    ensures Select(s, f) == Select(s, g)
    decreases |s|
  {
    if s != [] {
      SelectSame(s[1..], f, g);
    }
  }

  /** A product of non-negative reals is non-negative. */
  lemma MulNonNegative(a: real, b: real)
    requires a >= 0.0 && b >= 0.0
    ensures a * b >= 0.0
  {
  }
}

=== FILE: keyboard.dfy ===
/**
  KeyboardHandler: the editor's keyboard hook. A key-down event is first
  matched on its character (lower-cased, then narrowed to an 8-bit char),
  then on its virtual key; a matched event runs a shortcut against the
  controller's parameter objects and is consumed.

  The controller is `Option<ParamValues>`: None is a null controller, and a
  parameter id missing from the map is a parameter object the controller
  does not have (getParameterObject returns null).
 */
module Keyboard {
  import opened Common
  import opened Params

  /** The controller's parameter objects: id to normalized value. */
  type ParamValues = map<int, real>

  datatype EventType = KeyDown | KeyUp | OtherEvent
  datatype VirtualKey = NoKey | Escape | Up | Down | Home | OtherKey
  datatype Modifier = Shift | Alt | Control | Super

  datatype KeyEvent = KeyEvent(
    kind: EventType,
    character: char,
    virt: VirtualKey,
    modifiers: set<Modifier>)

  datatype ConsumeState = Consumed | NotConsumed

  /** The shortcuts the handler can run. */
  datatype Action =
    | TogglePlayPause
    | ToggleLoop
    | MuteAll
    | SoloNone
    | ToggleVoice(voice: nat)
    | StopPlayback
    | IncreaseVolume
    | DecreaseVolume
    | JumpToStart

  const VolumeStep: real := 0.05

  // ---------------------------------------------------------------------
  // Matching.
  // ---------------------------------------------------------------------

  /** static_cast<char>(std::tolower(c)): the lower-cased code narrowed to 8 bits. */
  function NarrowLower(c: char): (b: nat)
    ensures b < 256
    ensures c as int < 128 ==> b == LowerChar(c) as int
  {
    (LowerChar(c) as int) % 256
  }

  /** The character shortcuts: space, l, m, n and the digits 1 to 8. */
  function CharAction(c: char): (a: Option<Action>)
    ensures c == ' ' ==> a == Some(TogglePlayPause)
    ensures c == 'l' || c == 'L' ==> a == Some(ToggleLoop)
    ensures c == 'm' || c == 'M' ==> a == Some(MuteAll)
    ensures c == 'n' || c == 'N' ==> a == Some(SoloNone)
    ensures '1' <= c <= '8' ==> a == Some(ToggleVoice(c as int - '1' as int))
    ensures a.Some? ==> c != 0 as char
    ensures a.Some? && a.value.ToggleVoice? ==> a.value.voice < 8
  {
    if c == 0 as char then None
    else
      var b := NarrowLower(c);
      if b == ' ' as int then Some(TogglePlayPause)
      else if b == 'l' as int then Some(ToggleLoop)
      else if b == 'm' as int then Some(MuteAll)
      else if b == 'n' as int then Some(SoloNone)
      else if '1' as int <= b <= '8' as int then Some(ToggleVoice(b - '1' as int))
      else None
  }

  /** The virtual-key shortcuts; the volume keys only without modifiers. */
  function VirtualAction(k: VirtualKey, modifiers: set<Modifier>): (a: Option<Action>)
    ensures a == Some(StopPlayback) <==> k == Escape
    ensures a == Some(JumpToStart) <==> k == Home
    ensures a == Some(IncreaseVolume) <==> k == Up && modifiers == {}
    ensures a == Some(DecreaseVolume) <==> k == Down && modifiers == {}
    ensures a.None? <==> k !in {Escape, Up, Down, Home} || (k in {Up, Down} && modifiers != {})
  {
    match k
    case Escape => Some(StopPlayback)
    case Up => if modifiers == {} then Some(IncreaseVolume) else None
    case Down => if modifiers == {} then Some(DecreaseVolume) else None
    case Home => Some(JumpToStart)
    case _ => None
  }

  /** The shortcut onKeyboardEvent runs for an event, or None when it is not consumed. */
  function Decide(e: KeyEvent): (a: Option<Action>)
    ensures e.kind != KeyDown ==> a.None?
    ensures e.kind == KeyDown && CharAction(e.character).Some? ==> a == CharAction(e.character)
    ensures e.kind == KeyDown && CharAction(e.character).None? ==> a == VirtualAction(e.virt, e.modifiers)
  {
    if e.kind != KeyDown then None
    else if CharAction(e.character).Some? then CharAction(e.character)
    else VirtualAction(e.virt, e.modifiers)
  }

  /** Upper- and lower-case letters select the same shortcut. */
  lemma CaseInsensitive(c: char)
    requires 'A' <= c <= 'Z'
    ensures CharAction(c) == CharAction(LowerChar(c))
  {
    assert LowerChar(LowerChar(c)) == LowerChar(c);
  }

  /**
    A character shortcut is picked by the low byte of the lower-cased code, so
    a code 256 above a shortcut character (U+016C for 'l', say) runs the same
    shortcut.
   */
  lemma NarrowingAliases(c: char, d: char)
    requires c != 0 as char && d as int == c as int + 256
    requires !('A' <= c <= 'Z')
    ensures CharAction(d) == CharAction(c)
  {
    assert LowerChar(d) == d && LowerChar(c) == c;
    assert NarrowLower(d) == NarrowLower(c);
  }

  /** The digit keys toggle voices 1 to 8, i.e. parameters 100 to 107. */
  lemma DigitsToggleVoices(c: char)
    requires '1' <= c <= '8'
    ensures CharAction(c) == Some(ToggleVoice(c as int - '1' as int))
    ensures Voice0 <= Voice0 + (c as int - '1' as int) <= 107
  {
  }

  /** Any other character (below 256, lower-cased) and any other virtual key is not consumed. */
  lemma OthersNotConsumed(e: KeyEvent)
    requires e.kind == KeyDown && e.character as int < 256
    requires LowerChar(e.character) !in {' ', 'l', 'm', 'n', '1', '2', '3', '4', '5', '6', '7', '8'}
    requires e.virt !in {Escape, Up, Down, Home}
    ensures Decide(e).None?
  {
    var b := NarrowLower(e.character);
    assert b == LowerChar(e.character) as int;
  }

  /**
    The key bindings on a key-down event: space, l, m and n (either case)
    run their shortcuts; with no character shortcut, Escape stops, Home
    rewinds, and Up and Down change the volume only without modifiers.
   */
  lemma KeyBindings(e: KeyEvent)
    requires e.kind == KeyDown
    ensures e.character == ' ' ==> Decide(e) == Some(TogglePlayPause)
    ensures e.character in {'l', 'L'} ==> Decide(e) == Some(ToggleLoop)
    ensures e.character in {'m', 'M'} ==> Decide(e) == Some(MuteAll)
    ensures e.character in {'n', 'N'} ==> Decide(e) == Some(SoloNone)
    ensures CharAction(e.character).None? ==>
              && (e.virt == Escape ==> Decide(e) == Some(StopPlayback))
              && (e.virt == Home ==> Decide(e) == Some(JumpToStart))
              && (e.virt == Up ==> Decide(e) == if e.modifiers == {} then Some(IncreaseVolume) else None)
              && (e.virt == Down ==> Decide(e) == if e.modifiers == {} then Some(DecreaseVolume) else None)
  {
  }

  // ---------------------------------------------------------------------
  // Effects on the parameter objects.
  // ---------------------------------------------------------------------

  /** The toggle rule: 0 when above one half, otherwise 1. */
  function Toggled(v: real): (r: real)
    ensures r == 0.0 || r == 1.0
    ensures r == 1.0 <==> v <= 0.5
  {
    if v > 0.5 then 0.0 else 1.0
  }

  /** Toggling twice restores a value that was 0 or 1. */
  lemma ToggleTwice(v: real)
    requires v == 0.0 || v == 1.0
    ensures Toggled(Toggled(v)) == v
  {
  }

  /** setNormalized on the parameter object, when the controller has one. */
  function SetIfPresent(p: ParamValues, id: int, v: real): (r: ParamValues)
    ensures r.Keys == p.Keys
    ensures id in p ==> r == p[id := v]
    ensures id !in p ==> r == p
  {
    if id in p then p[id := v] else p
  }

  /** setNormalized(v) on each id in turn. */
  function SetEach(p: ParamValues, ids: seq<int>, v: real): (r: ParamValues)
    ensures r.Keys == p.Keys
    ensures forall k :: k in p && k !in ids ==> r[k] == p[k]
    ensures forall k :: k in p && k in ids ==> r[k] == v
    decreases |ids|
  {
    if ids == [] then p else SetEach(SetIfPresent(p, ids[0], v), ids[1..], v)
  }

  function VoiceIds(): (ids: seq<int>)
    ensures |ids| == 8
    ensures forall i :: 0 <= i < 8 ==> ids[i] == Voice0 + i
    ensures forall k :: k in ids <==> IsVoiceParam(k)
  {
    var ids := seq(8, i => Voice0 + i);
    assert forall k :: IsVoiceParam(k) ==> ids[k - Voice0] == k;
    ids
  }

  function SoloIds(): (ids: seq<int>)
    ensures |ids| == 8
    ensures forall i :: 0 <= i < 8 ==> ids[i] == Solo0 + i
    ensures forall k :: k in ids <==> IsSoloParam(k)
  {
    var ids := seq(8, i => Solo0 + i);
    assert forall k :: IsSoloParam(k) ==> ids[k - Solo0] == k;
    ids
  }

  /** The parameter ids a shortcut may write. */
  predicate Touches(a: Action, k: int) {
    match a
    case TogglePlayPause => k == PlayPause
    case ToggleLoop => k == Loop
    case ToggleVoice(i) => k == Voice0 + i
    case StopPlayback => k == PlayPause || k == Position
    case IncreaseVolume => k == MasterVolume
    case DecreaseVolume => k == MasterVolume
    case MuteAll => IsVoiceParam(k)
    case SoloNone => IsVoiceParam(k) || IsSoloParam(k)
    case JumpToStart => k == Position
  }

  /**
    The effect of one shortcut on a controller's parameter objects: no
    parameter object appears or disappears, the ones the shortcut does not
    touch keep their values, and every switch it writes ends at 0 or 1.
   */
  function Apply(p: ParamValues, a: Action): (r: ParamValues)
    requires a.ToggleVoice? ==> a.voice < 8
    ensures r.Keys == p.Keys
    ensures forall k :: k in p && !Touches(a, k) ==> r[k] == p[k]
    ensures !a.IncreaseVolume? && !a.DecreaseVolume? ==> forall k :: k in p && Touches(a, k) ==> r[k] == 0.0 || r[k] == 1.0
  {
    match a
    case TogglePlayPause => if PlayPause in p then p[PlayPause := Toggled(p[PlayPause])] else p
    case ToggleLoop => if Loop in p then p[Loop := Toggled(p[Loop])] else p
    case ToggleVoice(i) =>
      var id := Voice0 + i;
      if id in p then p[id := Toggled(p[id])] else p
    case StopPlayback => SetIfPresent(SetIfPresent(p, PlayPause, 0.0), Position, 0.0)
    case IncreaseVolume =>
      if MasterVolume in p then p[MasterVolume := MinReal(1.0, p[MasterVolume] + VolumeStep)] else p
    case DecreaseVolume =>
      if MasterVolume in p then p[MasterVolume := MaxReal(0.0, p[MasterVolume] - VolumeStep)] else p
    case MuteAll => SetEach(p, VoiceIds(), 0.0)
    case SoloNone => SetEach(SetEach(p, SoloIds(), 0.0), VoiceIds(), 1.0)
    case JumpToStart => SetIfPresent(p, Position, 0.0)
  }

  /**
    onKeyboardEvent: the new parameter values and whether the event was
    consumed. A null controller still consumes a matched event.
   */
  function OnKeyboardEvent(ctl: Option<ParamValues>, e: KeyEvent): (r: (Option<ParamValues>, ConsumeState))
    ensures r.1 == Consumed <==> Decide(e).Some?
    ensures ctl.None? ==> r.0.None?
    ensures ctl.Some? ==> r.0.Some? && r.0.value.Keys == ctl.value.Keys
  {
    match Decide(e)
    case None => (ctl, NotConsumed)
    case Some(a) => (if ctl.None? then None else Some(Apply(ctl.value, a)), Consumed)
  }

  /** An event that is not consumed changes no parameter; nor does anything but a key-down. */
  lemma NotConsumedChangesNothing(ctl: Option<ParamValues>, e: KeyEvent)
    ensures OnKeyboardEvent(ctl, e).1 == NotConsumed ==> OnKeyboardEvent(ctl, e).0 == ctl
    ensures e.kind != KeyDown ==> OnKeyboardEvent(ctl, e) == (ctl, NotConsumed)
  {
  }

  /** Digit d toggles voice d's enable switch and touches nothing else. */
  lemma DigitTogglesOnlyItsVoice(p: ParamValues, c: char, k: int)
    requires '1' <= c <= '8' && k in p
    ensures var id := Voice0 + (c as int - '1' as int);
            var r := OnKeyboardEvent(Some(p), KeyEvent(KeyDown, c, NoKey, {}));
            r.1 == Consumed && r.0.Some?
            && (k == id ==> r.0.value[k] == Toggled(p[k]))
            && (k != id ==> r.0.value[k] == p[k])
  {
    DigitsToggleVoices(c);
  }

  /** Space toggles the play switch and touches nothing else; pressing it twice restores a 0 or 1 value. */
  lemma PlayPauseKeyToggles(p: ParamValues, e: KeyEvent, k: int)
    requires e.kind == KeyDown && e.character == ' ' && k in p
    ensures var r := OnKeyboardEvent(Some(p), e);
            && r.1 == Consumed && r.0.Some?
            && (k == PlayPause ==> r.0.value[k] == Toggled(p[k]))
            && (k != PlayPause ==> r.0.value[k] == p[k])
            && (p[PlayPause := 0.0] == p || p[PlayPause := 1.0] == p ==> OnKeyboardEvent(r.0, e).0 == Some(p))
  {
    var r := OnKeyboardEvent(Some(p), e);
    assert r.0 == Some(Apply(p, TogglePlayPause));
    if PlayPause in p && (p[PlayPause] == 0.0 || p[PlayPause] == 1.0) {
      ToggleTwice(p[PlayPause]);
      assert Apply(Apply(p, TogglePlayPause), TogglePlayPause) == p;
    }
  }

  /** l (either case) toggles the loop switch and touches nothing else; pressing it twice restores a 0 or 1 value. */
  lemma LoopKeyToggles(p: ParamValues, e: KeyEvent, k: int)
    requires e.kind == KeyDown && e.character in {'l', 'L'} && k in p
    ensures var r := OnKeyboardEvent(Some(p), e);
            && r.1 == Consumed && r.0.Some?
            && (k == Loop ==> r.0.value[k] == Toggled(p[k]))
            && (k != Loop ==> r.0.value[k] == p[k])
            && (p[Loop := 0.0] == p || p[Loop := 1.0] == p ==> OnKeyboardEvent(r.0, e).0 == Some(p))
  {
    var r := OnKeyboardEvent(Some(p), e);
    assert r.0 == Some(Apply(p, ToggleLoop));
    if Loop in p && (p[Loop] == 0.0 || p[Loop] == 1.0) {
      ToggleTwice(p[Loop]);
      assert Apply(Apply(p, ToggleLoop), ToggleLoop) == p;
    }
  }

  /**
    Up and Down move the master volume by 0.05, clamped to [0, 1]: the new
    value is min(1, v + 0.05) or max(0, v - 0.05), and a value in [0, 1]
    stays there. Without the parameter object nothing changes.
   */
  lemma VolumeStaysInRange(p: ParamValues, up: bool)
    ensures MasterVolume !in p ==> Apply(p, if up then IncreaseVolume else DecreaseVolume) == p
    ensures MasterVolume in p ==>
              var r := Apply(p, if up then IncreaseVolume else DecreaseVolume)[MasterVolume];
              && r == (if up then MinReal(1.0, p[MasterVolume] + VolumeStep) else MaxReal(0.0, p[MasterVolume] - VolumeStep))
              && (0.0 <= p[MasterVolume] <= 1.0 ==>
                    && 0.0 <= r <= 1.0
                    && (if up then p[MasterVolume] <= r else r <= p[MasterVolume])
                    && -VolumeStep <= r - p[MasterVolume] <= VolumeStep)
  {
  }

  /** Escape (with no character shortcut) stops: play and position become 0; everything else stays. */
  lemma EscapeStops(p: ParamValues, e: KeyEvent, k: int)
    requires e.kind == KeyDown && CharAction(e.character).None? && e.virt == Escape && k in p
    ensures var r := OnKeyboardEvent(Some(p), e);
            && r.1 == Consumed && r.0.Some?
            && (k == PlayPause || k == Position ==> r.0.value[k] == 0.0)
            && (k != PlayPause && k != Position ==> r.0.value[k] == p[k])
  {
  }

  /** Home (with no character shortcut) only rewinds: position becomes 0, play state untouched. */
  lemma HomeOnlyRewinds(p: ParamValues, e: KeyEvent, k: int)
    requires e.kind == KeyDown && CharAction(e.character).None? && e.virt == Home && k in p
    ensures var r := OnKeyboardEvent(Some(p), e);
            && r.1 == Consumed && r.0.Some?
            && (k == Position ==> r.0.value[k] == 0.0)
            && (k != Position ==> r.0.value[k] == p[k])
  {
  }

  /** muteAll switches the eight voices off and nothing else. */
  lemma MuteAllContents(p: ParamValues, k: int)
    requires k in p
    ensures var r := Apply(p, MuteAll);
            (IsVoiceParam(k) ==> r[k] == 0.0) && (!IsVoiceParam(k) ==> r[k] == p[k])
  {
  }

  /** soloNone clears the eight solos, enables the eight voices, and nothing else. */
  lemma SoloNoneContents(p: ParamValues, k: int)
    requires k in p
    ensures var r := Apply(p, SoloNone);
            && (IsSoloParam(k) ==> r[k] == 0.0)
            && (IsVoiceParam(k) ==> r[k] == 1.0)
            && (!IsSoloParam(k) && !IsVoiceParam(k) ==> r[k] == p[k])
  {
  }
}

=== FILE: midi_learn.dfy ===
/**
  MidiLearnHandler: the table of MIDI CC to parameter mappings, keyed by
  an integer built from (channel, cc); the learn mode that captures the
  next incoming CC; exact-then-omni lookup; and the linear CC-to-value map.
  The controller calls (setParamNormalized followed by performEdit) and the
  learn callback are returned as recorded effects.
 */
module MidiLearn {
  import opened Common

  /** One CC to parameter mapping; the field initialisers are the defaults. */
  datatype Mapping = Mapping(
    channel: int,
    ccNumber: int,
    paramId: int,
    minValue: real,
    maxValue: real,
    inverted: bool)

  function DefaultMapping(): (m: Mapping)
    ensures m.channel == 0 && m.ccNumber == 0 && m.paramId == -1
    ensures m.minValue == 0.0 && m.maxValue == 1.0 && !m.inverted
  {
    Mapping(0, 0, -1, 0.0, 1.0, false)
  }

  // ---------------------------------------------------------------------
  // The mapping key: (channel < 0 ? 0xFF : channel) << 8 | ccNumber on a
  // 32-bit int (two's complement, shift and OR on the bit pattern).
  // ---------------------------------------------------------------------

  const Two32: int := 0x1_0000_0000
  const Two31: int := 0x8000_0000

  /** Bitwise OR of two naturals. */
  function Or(a: nat, b: nat): nat
    decreases a + b
  {
    if a == 0 then b
    else if b == 0 then a
    else 2 * Or(a / 2, b / 2) + (if a % 2 == 1 || b % 2 == 1 then 1 else 0)
  }

  /** The int32 value of a 32-bit pattern. */
  function Signed32(u: nat): int {
    if u >= Two31 then u - Two32 else u
  }

  /** Every negative channel means "omni" and is stored as 0xFF. */
  function ChannelSlot(channel: int): int {
    if channel < 0 then 0xFF else channel
  }

  /**
    makeMappingKey(ccNumber, channel). For a CC number and a channel below
    256 the key is slot * 256 + cc, the slot being 0xFF for any negative
    channel.
   */
  function MakeKey(ccNumber: int, channel: int): (k: int)
    ensures 0 <= ccNumber < 256 && channel < 256 ==> k == ChannelSlot(channel) * 256 + ccNumber
  {
    assert 0 <= ccNumber < 256 && channel < 256 ==>
             Signed32(Or((ChannelSlot(channel) * 256) % Two32, ccNumber % Two32)) == ChannelSlot(channel) * 256 + ccNumber by {
      if 0 <= ccNumber < 256 && channel < 256 { SlotOrCC(ChannelSlot(channel), ccNumber); }
    }
    Signed32(Or((ChannelSlot(channel) * 256) % Two32, ccNumber % Two32))
  }

  /** OR with a value entirely below bit k is addition when the other side has no bits below k. */
  lemma {:induction false} OrDisjoint(x: nat, b: nat, k: nat)
    requires b < Pow2(k)
    ensures Or(x * Pow2(k), b) == x * Pow2(k) + b
    decreases k
  {
    var a := x * Pow2(k);
    if k > 0 && a != 0 && b != 0 {
      var half := x * Pow2(k - 1);
      assert a == 2 * half;
      assert a / 2 == half && a % 2 == 0;
      OrDisjoint(x, b / 2, k - 1);
    }
  }

  /** The shift-or on a slot and a CC number below 256 is slot * 256 + cc. */
  lemma SlotOrCC(c: nat, cc: nat)
    requires c < 256 && cc < 256
    ensures Signed32(Or((c * 256) % Two32, cc % Two32)) == c * 256 + cc
  {
    assert 0 <= c * 256 < 256 * 256;
    assert (c * 256) % Two32 == c * 256 && cc % Two32 == cc;
    assert Pow2(8) == 256;
    OrDisjoint(c, cc, 8);
    assert Or(c * 256, cc) == c * 256 + cc < Two31;
  }

  /** Every negative channel gives the same key as the omni channel -1. */
  lemma OmniCollapse(ccNumber: int, channel: int)
    requires channel < 0
    ensures MakeKey(ccNumber, channel) == MakeKey(ccNumber, -1)
  {
  }

  ghost predicate ValidCC(ccNumber: int) { 0 <= ccNumber <= 127 }
  ghost predicate ValidChannel(channel: int) { -1 <= channel <= 15 }

  /**
    On MIDI's ranges the key is injective, its low byte is the CC number and
    its second byte the channel slot.
   */
  lemma KeyInjective(cc1: int, ch1: int, cc2: int, ch2: int)
    requires ValidCC(cc1) && ValidChannel(ch1) && ValidCC(cc2) && ValidChannel(ch2)
    ensures MakeKey(cc1, ch1) % 256 == cc1
    ensures MakeKey(cc1, ch1) / 256 == ChannelSlot(ch1)
    ensures MakeKey(cc1, ch1) == MakeKey(cc2, ch2) <==> cc1 == cc2 && ch1 == ch2
  {
  }

  // ---------------------------------------------------------------------
  // Handler state and its operations.
  // ---------------------------------------------------------------------

  /** The mapping table (key -> mapping) and the parameter being learned, if any. */
  datatype Handler = Handler(mappings: map<int, Mapping>, learning: Option<int>)

  /** The key a mapping is stored under. */
  function KeyOf(m: Mapping): int {
    MakeKey(m.ccNumber, m.channel)
  }

  /** Every entry of a table is stored under the key of its own (cc, channel). */
  ghost predicate ConsistentTable(t: map<int, Mapping>) {
    forall k :: k in t ==> k == KeyOf(t[k])
  }

  ghost predicate KeysConsistent(h: Handler) {
    ConsistentTable(h.mappings)
  }

  function NewHandler(): (h: Handler)
    ensures KeysConsistent(h) && !IsLearning(h) && h.mappings == map[]
  {
    Handler(map[], None)
  }

  predicate IsLearning(h: Handler) {
    h.learning.Some?
  }

  /** isLearning reports startLearn until cancelLearn; neither touches the table. */
  lemma LearnModeCycle(h: Handler, paramId: int)
    ensures IsLearning(StartLearn(h, paramId)) && StartLearn(h, paramId).learning == Some(paramId)
    ensures !IsLearning(CancelLearn(StartLearn(h, paramId)))
    ensures CancelLearn(StartLearn(h, paramId)).mappings == h.mappings
  {
  }

  /** startLearn: the next CC will be bound to paramId. */
  function StartLearn(h: Handler, paramId: int): (h': Handler)
    ensures IsLearning(h') && h'.learning.value == paramId
    ensures h'.mappings == h.mappings
  {
    h.(learning := Some(paramId))
  }

  /** cancelLearn: leaves learn mode and keeps the table. */
  function CancelLearn(h: Handler): (h': Handler)
    ensures !IsLearning(h')
    ensures h'.mappings == h.mappings
  {
    h.(learning := None)
  }

  /** The controller edit applyMapping performs: setParamNormalized then performEdit with the same value. */
  datatype Edit = Edit(paramId: int, value: real)

  /** The learn callback's arguments. */
  datatype LearnEvent = LearnEvent(paramId: int, ccNumber: int, channel: int)

  /** The value applyMapping sends: min + (v/127)(max - min), mirrored about the range when inverted. */
  function MappedValue(m: Mapping, value: int): real {
    var normalized := value as real / 127.0;
    var v := m.minValue + normalized * (m.maxValue - m.minValue);
    if m.inverted then m.maxValue - (v - m.minValue) else v
  }

  /** applyMapping: no effect without a controller. */
  function ApplyMapping(m: Mapping, value: int, hasController: bool): (e: Option<Edit>)
    ensures e.Some? <==> hasController
    ensures e.Some? ==> e.value.paramId == m.paramId && e.value.value == MappedValue(m, value)
    ensures e.Some? && 0 <= value <= 127 && m.minValue <= m.maxValue ==> m.minValue <= e.value.value <= m.maxValue
  {
    assert 0 <= value <= 127 && m.minValue <= m.maxValue ==> m.minValue <= MappedValue(m, value) <= m.maxValue by {
      if 0 <= value <= 127 && m.minValue <= m.maxValue { MappedValueRange(m, value); }
    }
    if !hasController then None else Some(Edit(m.paramId, MappedValue(m, value)))
  }

  /**
    For a CC value in 0..127 and min <= max the sent value stays in
    [min, max]; value 0 gives min (max when inverted) and 127 gives max
    (min when inverted).
   */
  lemma MappedValueRange(m: Mapping, value: int)
    requires 0 <= value <= 127 && m.minValue <= m.maxValue
    ensures m.minValue <= MappedValue(m, value) <= m.maxValue
    ensures value == 0 ==> MappedValue(m, value) == if m.inverted then m.maxValue else m.minValue
    ensures value == 127 ==> MappedValue(m, value) == if m.inverted then m.minValue else m.maxValue
  {
    var n := value as real / 127.0;
    var d := m.maxValue - m.minValue;
    assert 0.0 <= n <= 1.0;
    assert 0.0 <= n * d by { MulNonNegative(n, d); }
    assert n * d <= d by { MulNonNegative(1.0 - n, d); }
    assert MappedValue(m, value) == if m.inverted then m.maxValue - n * d else m.minValue + n * d;
    if value == 0 {
      assert n == 0.0;
    } else if value == 127 {
      assert n == 1.0;
    }
  }

  /** Inversion mirrors the value: the normal and the inverted value add up to min + max. */
  lemma InvertedMirrors(m: Mapping, value: int)
    ensures MappedValue(m.(inverted := true), value) + MappedValue(m.(inverted := false), value)
            == m.minValue + m.maxValue
  {
  }

  /** getMappingForCC: the mapping stored under exactly this key. */
  function GetMappingForCC(h: Handler, ccNumber: int, channel: int): (r: Option<Mapping>)
    ensures r.Some? <==> MakeKey(ccNumber, channel) in h.mappings
    ensures r.Some? ==> r.value == h.mappings[MakeKey(ccNumber, channel)]
  {
    var key := MakeKey(ccNumber, channel);
    if key in h.mappings then Some(h.mappings[key]) else None
  }

  /** addMapping: store m under its own key, replacing any previous entry. */
  function AddMapping(h: Handler, m: Mapping): (h': Handler)
    ensures KeysConsistent(h) ==> KeysConsistent(h')
    ensures h'.learning == h.learning
  {
    h.(mappings := h.mappings[MakeKey(m.ccNumber, m.channel) := m])
  }

  /** removeMapping: erase one key. */
  function RemoveMapping(h: Handler, ccNumber: int, channel: int): (h': Handler)
    ensures KeysConsistent(h) ==> KeysConsistent(h')
    ensures h'.learning == h.learning
    ensures h'.mappings.Keys == h.mappings.Keys - {MakeKey(ccNumber, channel)}
  {
    h.(mappings := h.mappings - {MakeKey(ccNumber, channel)})
  }

  /** clearAllMappings. */
  function ClearAllMappings(h: Handler): (h': Handler)
    ensures |h'.mappings| == 0 && h'.learning == h.learning
  {
    h.(mappings := map[])
  }

  /**
    The table behaves as a map keyed by (cc, channel): a mapping just added
    is found again, a removed key is gone, other keys are untouched, and a
    cleared table finds nothing.
   */
  lemma AddRemoveLookup(h: Handler, m: Mapping, cc: int, ch: int)
    ensures GetMappingForCC(AddMapping(h, m), m.ccNumber, m.channel) == Some(m)
    ensures MakeKey(cc, ch) != MakeKey(m.ccNumber, m.channel) ==>
              GetMappingForCC(AddMapping(h, m), cc, ch) == GetMappingForCC(h, cc, ch)
    ensures GetMappingForCC(RemoveMapping(h, m.ccNumber, m.channel), m.ccNumber, m.channel) == None
    ensures MakeKey(cc, ch) != MakeKey(m.ccNumber, m.channel) ==>
              GetMappingForCC(RemoveMapping(h, m.ccNumber, m.channel), cc, ch) == GetMappingForCC(h, cc, ch)
    ensures GetMappingForCC(ClearAllMappings(h), cc, ch) == None
  {
  }

  /** The mapping learned from a CC: full range, not inverted. */
  function LearnedMapping(channel: int, ccNumber: int, paramId: int): (m: Mapping)
    ensures m.channel == channel && m.ccNumber == ccNumber && m.paramId == paramId
    ensures m.minValue == 0.0 && m.maxValue == 1.0 && !m.inverted
  {
    Mapping(channel, ccNumber, paramId, 0.0, 1.0, false)
  }

  /** What processMidiCC did: the new state, its return value and its effects. */
  datatype CCOutcome = CCOutcome(handler: Handler, handled: bool, edit: Option<Edit>, learned: Option<LearnEvent>)

  /**
    processMidiCC. In learn mode the CC is bound to the learned parameter
    (overwriting its key), learn mode ends, the callback (if any) is told,
    the value is applied and the call reports true. Otherwise the exact
    (cc, channel) mapping wins over the omni (cc, -1) mapping; the table and
    learn state are untouched, and the result is false iff neither exists.
   */
  function ProcessMidiCC(h: Handler, channel: int, ccNumber: int, value: int,
                         hasController: bool, hasCallback: bool): (o: CCOutcome)
    ensures IsLearning(h) ==>
              && o.handled && !IsLearning(o.handler)
              && o.handler.mappings == h.mappings[MakeKey(ccNumber, channel) := LearnedMapping(channel, ccNumber, h.learning.value)]
              && (o.learned.Some? <==> hasCallback)
              && (o.learned.Some? ==> o.learned.value == LearnEvent(h.learning.value, ccNumber, channel))
              && o.edit == ApplyMapping(LearnedMapping(channel, ccNumber, h.learning.value), value, hasController)
    ensures !IsLearning(h) ==>
              && o.handler == h && o.learned == None
              && (o.handled <==> MakeKey(ccNumber, channel) in h.mappings || MakeKey(ccNumber, -1) in h.mappings)
              && (MakeKey(ccNumber, channel) in h.mappings ==>
                    o.edit == ApplyMapping(h.mappings[MakeKey(ccNumber, channel)], value, hasController))
              && (MakeKey(ccNumber, channel) !in h.mappings && MakeKey(ccNumber, -1) in h.mappings ==>
                    o.edit == ApplyMapping(h.mappings[MakeKey(ccNumber, -1)], value, hasController))
              && (!o.handled ==> o.edit == None)
    ensures KeysConsistent(h) ==> KeysConsistent(o.handler)
  {
    match h.learning
    case Some(p) =>
      var m := LearnedMapping(channel, ccNumber, p);
      var h' := Handler(h.mappings[MakeKey(ccNumber, channel) := m], None);
      var ev := if hasCallback then Some(LearnEvent(p, ccNumber, channel)) else None;
      CCOutcome(h', true, ApplyMapping(m, value, hasController), ev)
    case None =>
      var exact := MakeKey(ccNumber, channel);
      var omni := MakeKey(ccNumber, -1);
      if exact in h.mappings then CCOutcome(h, true, ApplyMapping(h.mappings[exact], value, hasController), None)
      else if omni in h.mappings then CCOutcome(h, true, ApplyMapping(h.mappings[omni], value, hasController), None)
      else CCOutcome(h, false, None, None)
  }

  /**
    Learning then looking up: after startLearn(p) and a CC on (channel, cc),
    the table answers that CC with a full-range mapping to p, and a later
    CC on the same channel drives p.
   */
  lemma LearnThenLookup(h: Handler, p: int, channel: int, cc: int, v1: int, v2: int)
    ensures var o := ProcessMidiCC(StartLearn(h, p), channel, cc, v1, true, false);
            && GetMappingForCC(o.handler, cc, channel) == Some(LearnedMapping(channel, cc, p))
            && var o2 := ProcessMidiCC(o.handler, channel, cc, v2, true, false);
               o2.handled && o2.edit == Some(Edit(p, MappedValue(LearnedMapping(channel, cc, p), v2)))
  {
  }

  // ---------------------------------------------------------------------
  // Iteration in key order (std::map iterates its keys ascending).
  // ---------------------------------------------------------------------

  predicate IsLeast(k: int, s: set<int>) {
    k in s && forall j :: j in s ==> k <= j
  }

  lemma {:induction false} LeastExists(s: set<int>)
    requires s != {}
    ensures exists k :: IsLeast(k, s)
    decreases |s|
  {
    var x := PickOne(s);
    if s != {x} {
      var rest := s - {x};
      LeastExists(rest);
      var y :| IsLeast(y, rest);
      var k := if x < y then x else y;
      forall j | j in s
        ensures k <= j
      {
        if j != x {
          assert j in rest;
        }
      }
      assert IsLeast(k, s);
    } else {
      assert IsLeast(x, s);
    }
  }

  lemma PickOne(s: set<int>) returns (x: int)
    requires s != {}
    ensures x in s
  {
    assert exists y :: y in s by {
      if forall y :: y !in s { assert false; }
    }
    x :| x in s;
  }

  function Least(s: set<int>): (k: int)
    requires s != {}
    ensures IsLeast(k, s)
  {
    LeastExists(s);
    var k :| IsLeast(k, s);
    k
  }

  predicate StrictlyIncreasing(xs: seq<int>) {
    forall i, j :: 0 <= i < j < |xs| ==> xs[i] < xs[j]
  }

  /** In an increasing sequence a smaller element sits at a smaller index. */
  lemma IndexBelow(xs: seq<int>, t: int, i: int)
    requires StrictlyIncreasing(xs)
    requires 0 <= t < |xs| && 0 <= i < |xs| && xs[t] < xs[i]
    ensures t < i
  {
  }

  /** The keys of a set in ascending order: the order of a std::map traversal. */
  function SortedKeys(s: set<int>): (xs: seq<int>)
    ensures StrictlyIncreasing(xs)
    ensures |xs| == |s|
    ensures forall k :: k in s <==> k in xs
    ensures forall i :: 0 <= i < |xs| ==> xs[i] in s
    decreases |s|
  {
    if s == {} then []
    else
      var k := Least(s);
      var rest := SortedKeys(s - {k});
      [k] + rest
  }

  /**
    getMappingForParam: walk the table in key order and return the first
    mapping bound to paramId. The result is the mapping with the smallest
    key among those bound to paramId, or nothing when none is.
   */
  method GetMappingForParam(h: Handler, paramId: int) returns (r: Option<Mapping>)
    ensures r.None? <==> forall k :: k in h.mappings ==> h.mappings[k].paramId != paramId
    ensures r.Some? ==> exists k :: k in h.mappings && h.mappings[k] == r.value && r.value.paramId == paramId
                         && forall j :: j in h.mappings && j < k ==> h.mappings[j].paramId != paramId
  {
    var keys := SortedKeys(h.mappings.Keys);
    var i := 0;
    while i < |keys|
      invariant 0 <= i <= |keys|
      invariant forall j :: 0 <= j < i ==> h.mappings[keys[j]].paramId != paramId
    {
      var m := h.mappings[keys[i]];
      if m.paramId == paramId {
        forall j | j in h.mappings && j < keys[i]
          ensures h.mappings[j].paramId != paramId
        {
          var t :| 0 <= t < |keys| && keys[t] == j;
          IndexBelow(keys, t, i);
        }
        return Some(m);
      }
      i := i + 1;
    }
    forall k | k in h.mappings
      ensures h.mappings[k].paramId != paramId
    {
      var t :| 0 <= t < |keys| && keys[t] == k;
    }
    return None;
  }
}

=== FILE: midi_text.dfy ===
/**
  The MIDI-learn table's text form. serializeMappings writes one line
  "channel,cc,paramId,min,max,inverted" per mapping, in key order.
  deserializeMappings clears the table, reads the text line by line and,
  for every non-empty line, performs the chained stream extractions
  int, char, int, char, int, char, float, char, float, char, int; a line
  whose extractions all succeed is stored under its own key, any other
  line is skipped.

  The extractions follow the "C" locale number parser: leading white
  space is skipped, an int is an optional sign and at least one decimal
  digit and must fit in 32 bits, a char is any one non-white character,
  and a float is an optional sign, a mantissa with at least one digit and
  at most one '.', and an optional exponent 'e' or 'E', optional sign and
  at least one digit. How a float is printed is a parameter: `fmt` chooses
  the decimal text (sign, integer digits, fraction digits, exponent) that
  the stream writes for a value.
 */
module MidiText {
  import opened Common
  import opened MidiLearn

  // ---------------------------------------------------------------------
  // Characters and digit strings.
  // ---------------------------------------------------------------------

  /** isspace in the "C" locale. */
  predicate IsSpace(c: char) {
    c == ' ' || c == '\t' || c == '\n' || c == '\U{0B}' || c == '\U{0C}' || c == '\r'
  }

  predicate IsDigit(c: char) { '0' <= c <= '9' }

  predicate AllDigits(s: string) {
    forall i :: 0 <= i < |s| ==> IsDigit(s[i])
  }

  function DigitValue(c: char): (d: nat)
    requires IsDigit(c)
    ensures d < 10
  {
    c as int - '0' as int
  }

  function DigitChar(d: nat): (c: char)
    requires d < 10
    ensures IsDigit(c) && DigitValue(c) == d
  {
    ('0' as int + d) as char
  }

  /** The value of a decimal digit string, most significant digit first. */
  function DigitsValue(s: string): nat
    requires AllDigits(s)
  {
    if s == [] then 0 else DigitsValue(s[..|s| - 1]) * 10 + DigitValue(s[|s| - 1])
  }

  /** The shortest decimal text of a natural number (what ostream << prints). */
  function NatText(n: nat): (s: string)
    ensures AllDigits(s) && s != []
  {
    if n < 10 then [DigitChar(n)] else NatText(n / 10) + [DigitChar(n % 10)]
  }

  /** Printing then reading back a natural number gives the number. */
  lemma {:induction false} NatTextValue(n: nat)
    ensures DigitsValue(NatText(n)) == n
  {
    if n >= 10 {
      NatTextValue(n / 10);
      var s := NatText(n);
      assert s[..|s| - 1] == NatText(n / 10);
    }
  }

  /** ostream << int: a minus sign for negative numbers, then the digits. */
  function IntText(n: int): (s: string)
    ensures s != [] && (s[0] == '-' || IsDigit(s[0]))
  {
    if n < 0 then "-" + NatText(-n) else NatText(n)
  }

  predicate InInt32(n: int) { -0x8000_0000 <= n < 0x8000_0000 }

  // ---------------------------------------------------------------------
  // The extractions, each reading a prefix and returning the rest.
  // ---------------------------------------------------------------------

  function SkipSpace(s: string): (r: string)
    ensures |r| <= |s| && r == s[|s| - |r|..]
    ensures r == [] || !IsSpace(r[0])
  {
    if s != [] && IsSpace(s[0]) then SkipSpace(s[1..]) else s
  }

  /** The longest run of digits at the front of s, and what follows it. */
  function SplitDigits(s: string): (r: (string, string))
    ensures r.0 + r.1 == s
    ensures AllDigits(r.0)
    ensures r.1 == [] || !IsDigit(r.1[0])
  {
    if s != [] && IsDigit(s[0]) then
      var rest := SplitDigits(s[1..]);
      ([s[0]] + rest.0, rest.1)
    else ([], s)
  }

  /** The digit run is determined by the text: any digits followed by a non-digit are that run. */
  lemma {:induction false} SplitDigitsOf(d: string, r: string)
    requires AllDigits(d) && (r == [] || !IsDigit(r[0]))
    ensures SplitDigits(d + r) == (d, r)
  {
    if d != [] {
      var s := d + r;
      assert s[0] == d[0] && IsDigit(s[0]);
      assert s[1..] == d[1..] + r;
      SplitDigitsOf(d[1..], r);
      assert SplitDigits(s) == ([s[0]] + d[1..], r);
      assert [d[0]] + d[1..] == d;
    } else {
      assert d + r == r;
    }
  }

  /** An optional '+' or '-': whether it was '-', and the rest. */
  function SplitSign(s: string): (r: (bool, string))
    ensures r.1 == s || (s != [] && (s[0] == '+' || s[0] == '-') && r.1 == s[1..])
  {
    if s != [] && (s[0] == '+' || s[0] == '-') then (s[0] == '-', s[1..]) else (false, s)
  }

  /** operator>>(int&): sign and digits; no digits or a value outside 32 bits fails. */
  function ScanInt(s: string): (r: Option<(int, string)>)
    ensures r.Some? ==> InInt32(r.value.0) && |r.value.1| < |s|
  {
    var sign := SplitSign(SkipSpace(s));
    var digits := SplitDigits(sign.1);
    if digits.0 == [] then None
    else
      var v: int := if sign.0 then -(DigitsValue(digits.0) as int) else DigitsValue(digits.0);
      if InInt32(v) then Some((v, digits.1)) else None
  }

  /** operator>>(char&): the next non-white character. */
  function ScanChar(s: string): (r: Option<(char, string)>)
    ensures r.Some? ==> !IsSpace(r.value.0) && |r.value.1| < |s|
  {
    var t := SkipSpace(s);
    if t == [] then None else Some((t[0], t[1..]))
  }

  function Pow10(n: nat): (r: real)
    ensures r >= 1.0
  {
    if n == 0 then 1.0 else 10.0 * Pow10(n - 1)
  }

  /** The value of sign, integer digits, fraction digits and a signed decimal exponent. */
  function DecimalValue(negative: bool, intDigits: string, fracDigits: string,
                        expNegative: bool, expDigits: string): real
    requires AllDigits(intDigits) && AllDigits(fracDigits) && AllDigits(expDigits)
  {
    var mantissa := DigitsValue(intDigits + fracDigits) as real / Pow10(|fracDigits|);
    var e := DigitsValue(expDigits);
    var magnitude := if expNegative then mantissa / Pow10(e) else mantissa * Pow10(e);
    if negative then -magnitude else magnitude
  }

  /** Integer digits, then an optional '.' and fraction digits; and the rest. */
  function SplitMantissa(s: string): (r: (string, string, string))
    ensures AllDigits(r.0) && AllDigits(r.1)
    ensures |r.2| <= |s| && (r.0 != [] || r.1 != [] ==> |r.2| < |s|)
  {
    var ip := SplitDigits(s);
    if ip.1 != [] && ip.1[0] == '.' then
      var fp := SplitDigits(ip.1[1..]);
      (ip.0, fp.0, fp.1)
    else (ip.0, [], ip.1)
  }

  /**
    An optional exponent: absent when the text does not start with 'e' or
    'E' (no sign, no digits, the text unchanged); failed when the marker is
    not followed by digits; otherwise its sign, digits and the rest.
   */
  function ScanExponent(s: string): (r: Option<(bool, string, string)>)
    ensures r.Some? ==> AllDigits(r.value.1) && |r.value.2| <= |s|
  {
    if s != [] && (s[0] == 'e' || s[0] == 'E') then
      var esign := SplitSign(s[1..]);
      var ed := SplitDigits(esign.1);
      if ed.0 == [] then None else Some((esign.0, ed.0, ed.1))
    else Some((false, [], s))
  }

  /**
    operator>>(float&): sign, integer digits, an optional '.' and fraction
    digits (at least one digit in all), then an optional exponent whose
    digits are required once 'e' or 'E' has been read.
   */
  function ScanFloat(s: string): (r: Option<(real, string)>)
    ensures r.Some? ==> |r.value.1| < |s|
  {
    var sign := SplitSign(SkipSpace(s));
    var m := SplitMantissa(sign.1);
    if m.0 == [] && m.1 == [] then None
    else
      var e := ScanExponent(m.2);
      if e.None? then None
      else Some((DecimalValue(sign.0, m.0, m.1, e.value.0, e.value.1), e.value.2))
  }

  // ---------------------------------------------------------------------
  // Printed floats.
  // ---------------------------------------------------------------------

  /** The decimal text ostream << float writes: [-]digits[.digits][e(+|-)digits]. */
  datatype FloatText = FloatText(
    negative: bool,
    intDigits: string,
    fracDigits: string,
    expNegative: bool,
    expDigits: string)

  ghost predicate WellFormed(t: FloatText) {
    t.intDigits != [] && AllDigits(t.intDigits) && AllDigits(t.fracDigits) && AllDigits(t.expDigits)
  }

  function Render(t: FloatText): string {
    (if t.negative then "-" else "") + (t.intDigits + (FracText(t) + ExpText(t)))
  }

  /** The value a well-formed printed float denotes. */
  function FloatValue(t: FloatText): real
    requires WellFormed(t)
  {
    DecimalValue(t.negative, t.intDigits, t.fracDigits, t.expNegative, t.expDigits)
  }

  // ---------------------------------------------------------------------
  // Reading back what was printed.
  // ---------------------------------------------------------------------

  /** What may follow a printed number without being read as part of it. */
  predicate Stops(r: string) {
    r == [] || r[0] == ','
  }

  lemma SkipSpaceNone(s: string)
    requires s == [] || !IsSpace(s[0])
    ensures SkipSpace(s) == s
  {
  }

  lemma ScanIntText(n: int, r: string)
    requires InInt32(n) && Stops(r)
    ensures ScanInt(IntText(n) + r) == Some((n, r))
  {
    var k: nat := if n < 0 then -n else n;
    var digits := NatText(k);
    var s := IntText(n) + r;
    SkipSpaceNone(s);
    var sign := SplitSign(s);
    if n < 0 {
      assert s == "-" + (digits + r);
      assert sign == (true, digits + r);
    } else {
      assert s == digits + r;
      assert sign == (false, digits + r);
    }
    SplitDigitsOf(digits, r);
    NatTextValue(k);
  }

  lemma ScanCharOf(c: char, r: string)
    requires !IsSpace(c)
    ensures ScanChar([c] + r) == Some((c, r))
  {
    assert SkipSpace([c] + r) == [c] + r;
    assert ([c] + r)[1..] == r;
  }

  /** Fraction digits and exponent of a printed float, followed by what comes after it. */
  function FracText(t: FloatText): string {
    if t.fracDigits == [] then "" else "." + t.fracDigits
  }

  function ExpText(t: FloatText): string {
    if t.expDigits == [] then "" else "e" + ((if t.expNegative then "-" else "+") + t.expDigits)
  }

  lemma ScanExpText(t: FloatText, r: string)
    requires WellFormed(t) && Stops(r)
    ensures ScanExponent(ExpText(t) + r) ==
            Some((t.expNegative && t.expDigits != [], t.expDigits, r))
  {
    if t.expDigits != [] {
      var s := ExpText(t) + r;
      var es := (if t.expNegative then "-" else "+") + (t.expDigits + r);
      assert s == "e" + es;
      assert s[1..] == es;
      assert SplitSign(es) == (t.expNegative, t.expDigits + r);
      SplitDigitsOf(t.expDigits, r);
    } else {
      assert ExpText(t) + r == r;
    }
  }

  /** The exponent text and what follows it never start with a digit or a '.'. */
  lemma ExpTextStartsClean(t: FloatText, r: string)
    requires Stops(r)
    ensures var e := ExpText(t) + r;
            e == [] || (!IsDigit(e[0]) && e[0] != '.')
  {
    var e := ExpText(t) + r;
    if t.expDigits != [] {
      assert e[0] == 'e';
    } else {
      assert e == r;
    }
  }

  /** The fraction text in front of e: a '.' then exactly its digits, or nothing at all. */
  lemma ScanFracText(t: FloatText, e: string)
    requires AllDigits(t.fracDigits) && (e == [] || (!IsDigit(e[0]) && e[0] != '.'))
    ensures var tail := FracText(t) + e;
            && (tail == [] || !IsDigit(tail[0]))
            && (t.fracDigits != [] ==> tail[0] == '.' && SplitDigits(tail[1..]) == (t.fracDigits, e))
            && (t.fracDigits == [] ==> tail == e)
  {
    var tail := FracText(t) + e;
    if t.fracDigits != [] {
      assert tail == "." + (t.fracDigits + e);
      assert tail[1..] == t.fracDigits + e;
      SplitDigitsOf(t.fracDigits, e);
    } else {
      assert tail == e;
    }
  }

  lemma ScanMantissaText(t: FloatText, r: string)
    requires WellFormed(t) && Stops(r)
    ensures SplitMantissa(t.intDigits + (FracText(t) + (ExpText(t) + r))) ==
            (t.intDigits, t.fracDigits, ExpText(t) + r)
  {
    var e := ExpText(t) + r;
    var tail := FracText(t) + e;
    ExpTextStartsClean(t, r);
    ScanFracText(t, e);
    SplitDigitsOf(t.intDigits, tail);
  }

  lemma Assoc(a: string, b: string, c: string)
    ensures (a + b) + c == a + (b + c)
  {
  }

  /** A missing exponent reads as zero whatever its recorded sign. */
  lemma NoExponent(t: FloatText)
    requires WellFormed(t) && t.expDigits == []
    ensures FloatValue(t) == DecimalValue(t.negative, t.intDigits, t.fracDigits, false, [])
  {
  }

  lemma ScanFloatText(t: FloatText, r: string)
    requires WellFormed(t) && Stops(r)
    ensures ScanFloat(Render(t) + r) == Some((FloatValue(t), r))
  {
    var signText := if t.negative then "-" else "";
    var body := t.intDigits + (FracText(t) + (ExpText(t) + r));
    var s := Render(t) + r;
    Assoc(signText, t.intDigits + (FracText(t) + ExpText(t)), r);
    Assoc(t.intDigits, FracText(t) + ExpText(t), r);
    Assoc(FracText(t), ExpText(t), r);
    assert s == signText + body;
    SkipSpaceNone(s);
    assert SplitSign(s) == (t.negative, body);
    ScanMantissaText(t, r);
    ScanExpText(t, r);
    if t.expDigits == [] {
      NoExponent(t);
    }
  }

  // ---------------------------------------------------------------------
  // Lines.
  // ---------------------------------------------------------------------

  /** The text split at every '\n' (the pieces std::getline returns, plus a last, possibly empty, piece). */
  function Lines(s: string): (ls: seq<string>)
    ensures |ls| >= 1
    ensures forall i :: 0 <= i < |ls| ==> '\n' !in ls[i]
  {
    if s == [] then [[]]
    else
      var rest := Lines(s[1..]);
      if s[0] == '\n' then [[]] + rest else [[s[0]] + rest[0]] + rest[1..]
  }

  lemma {:induction false} LinesAppend(l: string, r: string)
    requires '\n' !in l
    ensures Lines(l + "\n" + r) == [l] + Lines(r)
  {
    if l == [] {
      assert l + "\n" + r == "\n" + r;
      assert ("\n" + r)[1..] == r;
    } else {
      assert (l + "\n" + r)[1..] == l[1..] + "\n" + r;
      LinesAppend(l[1..], r);
      assert [l[0]] + l[1..] == l;
    }
  }

  // ---------------------------------------------------------------------
  // Chains of extractions.
  // ---------------------------------------------------------------------

  /** What one extraction reads. */
  datatype Kind = IntKind | CharKind | FloatKind

  /** What one extraction produced. */
  datatype Field = IntField(i: int) | CharField(c: char) | RealField(x: real)

  predicate FieldOfKind(f: Field, k: Kind) {
    match k
    case IntKind => f.IntField?
    case CharKind => f.CharField?
    case FloatKind => f.RealField?
  }

  function ScanOne(k: Kind, s: string): (r: Option<(Field, string)>)
    ensures r.Some? ==> FieldOfKind(r.value.0, k)
  {
    match k
    case IntKind =>
      var v := ScanInt(s);
      if v.None? then None else Some((IntField(v.value.0), v.value.1))
    case CharKind =>
      var v := ScanChar(s);
      if v.None? then None else Some((CharField(v.value.0), v.value.1))
    case FloatKind =>
      var v := ScanFloat(s);
      if v.None? then None else Some((RealField(v.value.0), v.value.1))
  }

  /**
    stream >> a >> b >> ...: the extractions in order, each on what the
    previous one left; the first failure fails the whole chain.
   */
  function ScanAll(kinds: seq<Kind>, s: string): (r: Option<(seq<Field>, string)>)
    ensures r.Some? ==> |r.value.0| == |kinds|
    ensures r.Some? ==> forall i :: 0 <= i < |kinds| ==> FieldOfKind(r.value.0[i], kinds[i])
  {
    if kinds == [] then Some(([], s))
    else
      var first := ScanOne(kinds[0], s);
      if first.None? then None
      else
        var rest := ScanAll(kinds[1..], first.value.1);
        if rest.None? then None
        else Some(([first.value.0] + rest.value.0, rest.value.1))
  }

  /** The extractions of one mapping line: channel, cc and parameter ints, two floats, the flag, with a separator character between each. */
  function LineKinds(): seq<Kind> {
    [IntKind, CharKind, IntKind, CharKind, IntKind, CharKind, FloatKind, CharKind, FloatKind, CharKind, IntKind]
  }

  /** The chained extractions of one line; the mapping when all of them succeed. */
  function ParseLine(line: string): (r: Option<Mapping>)
    ensures r.Some? <==> ScanAll(LineKinds(), line).Some?
  {
    var scanned := ScanAll(LineKinds(), line);
    if scanned.None? then None
    else
      var f := scanned.value.0;
      assert FieldOfKind(f[0], IntKind) && FieldOfKind(f[2], IntKind) && FieldOfKind(f[4], IntKind);
      assert FieldOfKind(f[6], FloatKind) && FieldOfKind(f[8], FloatKind) && FieldOfKind(f[10], IntKind);
      Some(Mapping(f[0].i, f[2].i, f[4].i, f[6].x, f[8].x, f[10].i != 0))
  }

  // ---------------------------------------------------------------------
  // Printed tokens.
  // ---------------------------------------------------------------------

  /** One printed item of a line. */
  datatype Token = IntToken(n: int) | CharToken(c: char) | FloatToken(t: FloatText)

  function TokenText(tok: Token): string {
    match tok
    case IntToken(n) => IntText(n)
    case CharToken(c) => [c]
    case FloatToken(t) => Render(t)
  }

  function TokensText(toks: seq<Token>): string {
    if toks == [] then "" else TokenText(toks[0]) + TokensText(toks[1..])
  }

  function KindOf(tok: Token): Kind {
    match tok
    case IntToken(_) => IntKind
    case CharToken(_) => CharKind
    case FloatToken(_) => FloatKind
  }

  ghost predicate Readable(tok: Token) {
    match tok
    case IntToken(n) => InInt32(n)
    case CharToken(c) => !IsSpace(c)
    case FloatToken(t) => WellFormed(t)
  }

  /** The field reading a readable token gives back. */
  function Reading(tok: Token): Field
    requires Readable(tok)
  {
    match tok
    case IntToken(n) => IntField(n)
    case CharToken(c) => CharField(c)
    case FloatToken(t) => RealField(FloatValue(t))
  }

  /**
    A token sequence the chain reads back: every token readable, and every
    number followed by a ',' token (or, for the last, by a stopping text).
   */
  ghost predicate ReadableTokens(toks: seq<Token>, after: string) {
    && (forall i :: 0 <= i < |toks| ==> Readable(toks[i]))
    && (forall i :: 0 <= i < |toks| - 1 && !toks[i].CharToken? ==> toks[i + 1] == CharToken(','))
    && (toks != [] && !toks[|toks| - 1].CharToken? ==> Stops(after))
  }

  function KindsOf(toks: seq<Token>): (ks: seq<Kind>)
    ensures |ks| == |toks|
  {
    seq(|toks|, i requires 0 <= i < |toks| => KindOf(toks[i]))
  }

  function Readings(toks: seq<Token>): (fs: seq<Field>)
    requires forall i :: 0 <= i < |toks| ==> Readable(toks[i])
    ensures |fs| == |toks|
  {
    seq(|toks|, i requires 0 <= i < |toks| => Reading(toks[i]))
  }

  lemma ScanOneToken(tok: Token, r: string)
    requires Readable(tok) && (tok.CharToken? || Stops(r))
    ensures ScanOne(KindOf(tok), TokenText(tok) + r) == Some((Reading(tok), r))
  {
    match tok
    case IntToken(n) => ScanIntText(n, r);
    case CharToken(c) => ScanCharOf(c, r);
    case FloatToken(t) => ScanFloatText(t, r);
  }

  /** What follows the first token of a readable chain lets that token be read alone. */
  lemma ReadableTail(toks: seq<Token>, after: string)
    requires toks != [] && ReadableTokens(toks, after)
    ensures ReadableTokens(toks[1..], after)
    ensures Readable(toks[0])
    ensures toks[0].CharToken? || Stops(TokensText(toks[1..]) + after)
  {
    var tail := toks[1..];
    assert forall i :: 0 <= i < |tail| ==> tail[i] == toks[i + 1];
    if !toks[0].CharToken? && |toks| > 1 {
      assert tail[0] == CharToken(',');
      assert TokensText(tail) == "," + TokensText(tail[1..]);
      Assoc(",", TokensText(tail[1..]), after);
    }
  }

  lemma TokensTextCons(toks: seq<Token>, after: string)
    requires toks != []
    ensures TokensText(toks) + after == TokenText(toks[0]) + (TokensText(toks[1..]) + after)
  {
    Assoc(TokenText(toks[0]), TokensText(toks[1..]), after);
  }

  lemma KindsOfCons(toks: seq<Token>)
    requires toks != []
    ensures KindsOf(toks) == [KindOf(toks[0])] + KindsOf(toks[1..])
  {
    var a := KindsOf(toks);
    var b := [KindOf(toks[0])] + KindsOf(toks[1..]);
    forall i | 0 <= i < |a| ensures a[i] == b[i] {
      if i > 0 { assert b[i] == KindsOf(toks[1..])[i - 1]; }
    }
  }

  lemma ReadingsCons(toks: seq<Token>)
    requires toks != [] && forall i :: 0 <= i < |toks| ==> Readable(toks[i])
    ensures Readings(toks) == [Reading(toks[0])] + Readings(toks[1..])
  {
    var a := Readings(toks);
    var b := [Reading(toks[0])] + Readings(toks[1..]);
    forall i | 0 <= i < |a| ensures a[i] == b[i] {
      if i > 0 { assert b[i] == Readings(toks[1..])[i - 1]; }
    }
  }

  /** Reading back a printed chain gives the denoted fields and leaves what followed. */
  lemma {:induction false} ScanTokens(toks: seq<Token>, after: string)
    requires ReadableTokens(toks, after)
    ensures ScanAll(KindsOf(toks), TokensText(toks) + after) == Some((Readings(toks), after))
    decreases |toks|
  {
    if toks == [] {
      assert TokensText(toks) + after == after;
    } else {
      var rest := TokensText(toks[1..]) + after;
      ReadableTail(toks, after);
      TokensTextCons(toks, after);
      KindsOfCons(toks);
      ReadingsCons(toks);
      ScanOneToken(toks[0], rest);
      ScanTokens(toks[1..], after);
      ScanAllCons(KindOf(toks[0]), KindsOf(toks[1..]), TokenText(toks[0]) + rest,
                  Reading(toks[0]), rest, Readings(toks[1..]), after);
    }
  }

  lemma ScanAllCons(k: Kind, ks: seq<Kind>, s: string, f: Field, mid: string, fs: seq<Field>, after: string)
    requires ScanOne(k, s) == Some((f, mid))
    requires ScanAll(ks, mid) == Some((fs, after))
    ensures ScanAll([k] + ks, s) == Some(([f] + fs, after))
  {
    assert ([k] + ks)[1..] == ks;
  }

  // ---------------------------------------------------------------------
  // serializeMappings.
  // ---------------------------------------------------------------------

  /** One mapping's line as printed items: channel,cc,paramId,min,max,inverted. */
  function LineTokens(m: Mapping, fmt: real -> FloatText): seq<Token> {
    [IntToken(m.channel), CharToken(','), IntToken(m.ccNumber), CharToken(','),
     IntToken(m.paramId), CharToken(','), FloatToken(fmt(m.minValue)), CharToken(','),
     FloatToken(fmt(m.maxValue)), CharToken(','), IntToken(if m.inverted then 1 else 0)]
  }

  /** One mapping's line, without its terminating newline. */
  function LineText(m: Mapping, fmt: real -> FloatText): string {
    TokensText(LineTokens(m, fmt))
  }

  /** The lines of the given keys, each followed by '\n'. */
  function LinesOf(t: map<int, Mapping>, keys: seq<int>, fmt: real -> FloatText): (s: string)
    requires forall i :: 0 <= i < |keys| ==> keys[i] in t
    ensures s == [] <==> keys == []
    ensures s != [] ==> s[|s| - 1] == '\n'
    decreases |keys|
  {
    if keys == [] then ""
    else LineText(t[keys[0]], fmt) + "\n" + LinesOf(t, keys[1..], fmt)
  }

  /**
    serializeMappings: every mapping's line, in ascending key order. The
    text is empty exactly for an empty table and otherwise ends with the
    last line's newline; SerializeLoads says what reading it back stores.
   */
  function Serialize(h: Handler, fmt: real -> FloatText): (text: string)
    ensures text == [] <==> h.mappings == map[]
    ensures text != [] ==> text[|text| - 1] == '\n'
  {
    var keys := SortedKeys(h.mappings.Keys);
    LinesOf(h.mappings, keys, fmt)
  }

  // ---------------------------------------------------------------------
  // deserializeMappings.
  // ---------------------------------------------------------------------

  /** The key a line is stored under, if it is stored at all. */
  function LineKey(line: string): Option<int> {
    if line == [] then None
    else
      var m := ParseLine(line);
      if m.None? then None else Some(KeyOf(m.value))
  }

  /** One loop iteration: skip an empty or unparseable line, otherwise store its mapping under its key. */
  function LoadLine(t: map<int, Mapping>, line: string): (r: map<int, Mapping>)
    ensures ConsistentTable(t) ==> ConsistentTable(r)
    ensures LineKey(line).None? ==> r == t
    ensures LineKey(line).Some? ==> r == t[LineKey(line).value := ParseLine(line).value]
  {
    if line == [] then t
    else
      var m := ParseLine(line);
      if m.None? then t else t[KeyOf(m.value) := m.value]
  }

  /** The read loop over lines, in order. */
  function Load(t: map<int, Mapping>, lines: seq<string>): (r: map<int, Mapping>)
    ensures ConsistentTable(t) ==> ConsistentTable(r)
    decreases |lines|
  {
    if lines == [] then t else Load(LoadLine(t, lines[0]), lines[1..])
  }

  /** Some line of `lines` is stored under key k. */
  ghost predicate StoredUnder(lines: seq<string>, k: int) {
    exists i :: 0 <= i < |lines| && LineKey(lines[i]) == Some(k)
  }

  /** Some stored line of `lines` reads as m. */
  ghost predicate ReadFrom(lines: seq<string>, m: Mapping) {
    exists i :: 0 <= i < |lines| && LineKey(lines[i]).Some? && ParseLine(lines[i]) == Some(m)
  }

  /** The keys after reading: the old keys plus the key of every stored line. */
  lemma {:induction false} LoadKeys(t: map<int, Mapping>, lines: seq<string>, k: int)
    ensures k in Load(t, lines) <==> k in t || StoredUnder(lines, k)
    decreases |lines|
  {
    if lines != [] {
      var t' := LoadLine(t, lines[0]);
      LoadKeys(t', lines[1..], k);
      if StoredUnder(lines[1..], k) {
        var i :| 0 <= i < |lines[1..]| && LineKey(lines[1..][i]) == Some(k);
        assert LineKey(lines[i + 1]) == Some(k);
      }
      if StoredUnder(lines, k) {
        var i :| 0 <= i < |lines| && LineKey(lines[i]) == Some(k);
        if i > 0 {
          assert LineKey(lines[1..][i - 1]) == Some(k);
        }
      }
    }
  }

  /** Every entry after reading is an untouched old entry or the mapping of some stored line. */
  lemma {:induction false} LoadSources(t: map<int, Mapping>, lines: seq<string>, k: int)
    requires k in Load(t, lines)
    ensures (k in t && Load(t, lines)[k] == t[k]) || ReadFrom(lines, Load(t, lines)[k])
    decreases |lines|
  {
    if lines != [] {
      var t' := LoadLine(t, lines[0]);
      var r := Load(t, lines);
      LoadSources(t', lines[1..], k);
      if !(k in t' && r[k] == t'[k]) {
        var i :| 0 <= i < |lines[1..]| && LineKey(lines[1..][i]).Some? && ParseLine(lines[1..][i]) == Some(r[k]);
        assert LineKey(lines[i + 1]).Some? && ParseLine(lines[i + 1]) == Some(r[k]);
      } else if !(k in t && t'[k] == t[k]) {
        assert LineKey(lines[0]).Some? && ParseLine(lines[0]) == Some(r[k]);
      }
    }
  }

  /**
    deserializeMappings: the previous table is discarded and the text is
    read line by line. The call reports success whatever the text holds,
    learn mode is untouched and every entry sits under its own key.
   */
  function Deserialize(h: Handler, data: string): (r: (bool, Handler))
    ensures r.0
    ensures r.1.learning == h.learning
    ensures KeysConsistent(r.1)
  {
    (true, Handler(Load(map[], Lines(data)), h.learning))
  }

  /**
    What deserializeMappings keeps: the keys are exactly those of the
    stored lines, and every entry is the mapping of one of them, so empty
    and unparseable lines contribute nothing and nothing of the previous
    table survives.
   */
  lemma DeserializeContents(h: Handler, data: string)
    ensures var r := Deserialize(h, data).1;
            && (forall k :: k in r.mappings <==> StoredUnder(Lines(data), k))
            && (forall k :: k in r.mappings ==> ReadFrom(Lines(data), r.mappings[k]))
  {
    var table := Load(map[], Lines(data));
    forall k ensures k in table <==> StoredUnder(Lines(data), k) {
      LoadKeys(map[], Lines(data), k);
    }
    forall k | k in table
      ensures ReadFrom(Lines(data), table[k])
    {
      LoadSources(map[], Lines(data), k);
    }
  }

  // ---------------------------------------------------------------------
  // The round trip.
  // ---------------------------------------------------------------------

  ghost predicate PrintableMapping(m: Mapping, fmt: real -> FloatText) {
    && InInt32(m.channel) && InInt32(m.ccNumber) && InInt32(m.paramId)
    && WellFormed(fmt(m.minValue)) && WellFormed(fmt(m.maxValue))
  }

  /** A mapping after printing and reading back: min and max become the values of their printed text. */
  function Reread(m: Mapping, fmt: real -> FloatText): Mapping
    requires PrintableMapping(m, fmt)
  {
    m.(minValue := FloatValue(fmt(m.minValue)), maxValue := FloatValue(fmt(m.maxValue)))
  }

  lemma LineTokensReadable(m: Mapping, fmt: real -> FloatText)
    requires PrintableMapping(m, fmt)
    ensures ReadableTokens(LineTokens(m, fmt), [])
  {
  }

  /** A printed line reads back, field by field, as its tokens. */
  lemma LineScans(m: Mapping, fmt: real -> FloatText)
    requires PrintableMapping(m, fmt)
    ensures ScanAll(LineKinds(), LineText(m, fmt)) == Some((Readings(LineTokens(m, fmt)), []))
  {
    var toks := LineTokens(m, fmt);
    LineTokensReadable(m, fmt);
    ScanTokens(toks, []);
    assert TokensText(toks) + [] == LineText(m, fmt);
    LineTokensKinds(m, fmt);
  }

  /** The fields a printed line reads back as. */
  lemma LineReadings(m: Mapping, fmt: real -> FloatText)
    requires PrintableMapping(m, fmt)
    ensures var f := Readings(LineTokens(m, fmt));
            && f[0] == IntField(m.channel) && f[2] == IntField(m.ccNumber) && f[4] == IntField(m.paramId)
            && f[6] == RealField(FloatValue(fmt(m.minValue))) && f[8] == RealField(FloatValue(fmt(m.maxValue)))
            && f[10] == IntField(if m.inverted then 1 else 0)
  {
  }

  /** An empty line has no channel to read. */
  lemma ParseLineEmpty()
    ensures ParseLine([]).None?
  {
    assert ScanInt([]).None?;
  }

  lemma ParseLineText(m: Mapping, fmt: real -> FloatText)
    requires PrintableMapping(m, fmt)
    ensures ParseLine(LineText(m, fmt)) == Some(Reread(m, fmt))
  {
    LineScans(m, fmt);
    LineReadings(m, fmt);
  }

  lemma LineTokensKinds(m: Mapping, fmt: real -> FloatText)
    ensures KindsOf(LineTokens(m, fmt)) == LineKinds()
  {
    var ks := KindsOf(LineTokens(m, fmt));
    assert ks[0] == IntKind && ks[1] == CharKind && ks[2] == IntKind && ks[3] == CharKind;
    assert ks[4] == IntKind && ks[5] == CharKind && ks[6] == FloatKind && ks[7] == CharKind;
    assert ks[8] == FloatKind && ks[9] == CharKind && ks[10] == IntKind;
  }

  lemma NoNewlineInDigits(s: string)
    requires AllDigits(s)
    ensures '\n' !in s
  {
    forall i | 0 <= i < |s|
      ensures s[i] != '\n'
    {
      assert IsDigit(s[i]);
    }
  }

  lemma NoNewlineInFloat(t: FloatText)
    requires WellFormed(t)
    ensures '\n' !in Render(t)
  {
    NoNewlineInDigits(t.intDigits);
    NoNewlineInDigits(t.fracDigits);
    NoNewlineInDigits(t.expDigits);
    assert '\n' !in FracText(t);
    assert '\n' !in ExpText(t);
    assert '\n' !in t.intDigits + (FracText(t) + ExpText(t));
  }

  lemma NoNewlineInToken(tok: Token)
    requires Readable(tok) && tok != CharToken('\n')
    ensures '\n' !in TokenText(tok)
  {
    match tok
    case IntToken(n) =>
      NoNewlineInDigits(NatText(if n < 0 then -n else n));
    case CharToken(c) =>
    case FloatToken(t) =>
      NoNewlineInFloat(t);
  }

  lemma {:induction false} NoNewlineInTokens(toks: seq<Token>)
    requires forall i :: 0 <= i < |toks| ==> Readable(toks[i]) && toks[i] != CharToken('\n')
    ensures '\n' !in TokensText(toks)
    decreases |toks|
  {
    if toks != [] {
      NoNewlineInTokens(toks[1..]);
      NoNewlineInToken(toks[0]);
    }
  }

  /** The table after storing the reread mapping of each key in turn, as the read loop does. */
  ghost function StoreRows(acc: map<int, Mapping>, t: map<int, Mapping>, keys: seq<int>, fmt: real -> FloatText): map<int, Mapping>
    requires forall i :: 0 <= i < |keys| ==> keys[i] in t && PrintableMapping(t[keys[i]], fmt)
    decreases |keys|
  {
    if keys == [] then acc
    else StoreRows(acc[keys[0] := Reread(t[keys[0]], fmt)], t, keys[1..], fmt)
  }

  /** After storing some keys: exactly the old keys and those, each of those holding its reread mapping. */
  lemma {:induction false} StoreRowsContents(acc: map<int, Mapping>, t: map<int, Mapping>, keys: seq<int>,
                                             fmt: real -> FloatText, k: int)
    requires forall i :: 0 <= i < |keys| ==> keys[i] in t && PrintableMapping(t[keys[i]], fmt)
    ensures k in StoreRows(acc, t, keys, fmt) <==> k in acc || k in keys
    ensures k in keys ==> k in t && StoreRows(acc, t, keys, fmt)[k] == Reread(t[k], fmt)
    ensures k !in keys && k in acc ==> StoreRows(acc, t, keys, fmt)[k] == acc[k]
    decreases |keys|
  {
    if keys != [] {
      var acc' := acc[keys[0] := Reread(t[keys[0]], fmt)];
      StoreRowsContents(acc', t, keys[1..], fmt, k);
      assert k in keys <==> k == keys[0] || k in keys[1..] by {
        assert keys == [keys[0]] + keys[1..];
      }
    }
  }

  lemma LinesOfCons(t: map<int, Mapping>, keys: seq<int>, fmt: real -> FloatText)
    requires keys != []
    requires forall i :: 0 <= i < |keys| ==> keys[i] in t && PrintableMapping(t[keys[i]], fmt)
    ensures Lines(LinesOf(t, keys, fmt)) == [LineText(t[keys[0]], fmt)] + Lines(LinesOf(t, keys[1..], fmt))
  {
    var m := t[keys[0]];
    NoNewlineInTokens(LineTokens(m, fmt));
    LinesAppend(LineText(m, fmt), LinesOf(t, keys[1..], fmt));
  }

  lemma LoadLineText(acc: map<int, Mapping>, m: Mapping, fmt: real -> FloatText)
    requires PrintableMapping(m, fmt)
    ensures LoadLine(acc, LineText(m, fmt)) == acc[KeyOf(m) := Reread(m, fmt)]
  {
    ParseLineText(m, fmt);
    ParseLineEmpty();
  }

  /** Reading the lines of some keys into a table stores each key's reread mapping in turn. */
  lemma {:induction false} LoadLinesOf(t: map<int, Mapping>, keys: seq<int>, fmt: real -> FloatText, acc: map<int, Mapping>)
    requires ConsistentTable(t)
    requires forall i :: 0 <= i < |keys| ==> keys[i] in t && PrintableMapping(t[keys[i]], fmt)
    ensures Load(acc, Lines(LinesOf(t, keys, fmt))) == StoreRows(acc, t, keys, fmt)
    decreases |keys|
  {
    if keys == [] {
      assert Lines("") == [[]];
    } else {
      var m := t[keys[0]];
      LinesOfCons(t, keys, fmt);
      var ls := Lines(LinesOf(t, keys, fmt));
      assert ls[1..] == Lines(LinesOf(t, keys[1..], fmt));
      LoadLineText(acc, m, fmt);
      assert KeyOf(m) == keys[0];
      var acc' := acc[keys[0] := Reread(m, fmt)];
      assert Load(acc, ls) == Load(acc', ls[1..]);
      LoadLinesOf(t, keys[1..], fmt, acc');
    }
  }

  /** Storing keys that cover a table, into an empty one, rereads exactly that table. */
  lemma StoreCovering(t: map<int, Mapping>, keys: seq<int>, fmt: real -> FloatText)
    requires forall i :: 0 <= i < |keys| ==> keys[i] in t && PrintableMapping(t[keys[i]], fmt)
    requires forall k :: k in t ==> k in keys
    ensures var rows := StoreRows(map[], t, keys, fmt);
            && rows.Keys == t.Keys
            && forall k :: k in t ==> rows[k] == Reread(t[k], fmt)
  {
    var rows := StoreRows(map[], t, keys, fmt);
    forall k ensures k in rows <==> k in t {
      StoreRowsContents(map[], t, keys, fmt, k);
    }
    assert rows.Keys == t.Keys;
    forall k | k in t ensures rows[k] == Reread(t[k], fmt) {
      StoreRowsContents(map[], t, keys, fmt, k);
    }
  }

  /** The rows of a whole table stored in ascending key order, as the serialised text lists them. */
  ghost function StoreSorted(t: map<int, Mapping>, fmt: real -> FloatText): map<int, Mapping>
    requires forall k :: k in t ==> PrintableMapping(t[k], fmt)
  {
    StoreRows(map[], t, SortedKeys(t.Keys), fmt)
  }

  lemma StoreAll(t: map<int, Mapping>, fmt: real -> FloatText)
    requires forall k :: k in t ==> PrintableMapping(t[k], fmt)
    ensures var rows := StoreSorted(t, fmt);
            && rows.Keys == t.Keys
            && forall k :: k in t ==> rows[k] == Reread(t[k], fmt)
  {
    StoreCovering(t, SortedKeys(t.Keys), fmt);
  }

  /** Reading back the serialised text stores every key's reread mapping, in ascending key order. */
  lemma SerializeLoads(h: Handler, fmt: real -> FloatText)
    requires KeysConsistent(h)
    requires forall k :: k in h.mappings ==> PrintableMapping(h.mappings[k], fmt)
    ensures Load(map[], Lines(Serialize(h, fmt))) == StoreSorted(h.mappings, fmt)
  {
    LoadLinesOf(h.mappings, SortedKeys(h.mappings.Keys), fmt, map[]);
  }

  /**
    Serialise then deserialise: the same keys come back, each with its
    channel, CC number, parameter and inversion flag, and with min and max
    equal to the values of their printed text (exactly the old values when
    the float printer is exact).
   */
  lemma RoundTrip(h: Handler, fmt: real -> FloatText)
    requires KeysConsistent(h)
    requires forall k :: k in h.mappings ==> PrintableMapping(h.mappings[k], fmt)
    ensures var r := Deserialize(h, Serialize(h, fmt)).1;
            && r.learning == h.learning
            && r.mappings.Keys == h.mappings.Keys
            && forall k :: k in h.mappings ==> r.mappings[k] == Reread(h.mappings[k], fmt)
  {
    SerializeLoads(h, fmt);
    StoreAll(h.mappings, fmt);
  }

  lemma RereadExact(m: Mapping, fmt: real -> FloatText)
    requires PrintableMapping(m, fmt)
    requires FloatValue(fmt(m.minValue)) == m.minValue && FloatValue(fmt(m.maxValue)) == m.maxValue
    ensures Reread(m, fmt) == m
  {
  }

  /** A reread table equal to the original wherever the printer is exact. */
  lemma ExactTable(h: Handler, r: Handler, fmt: real -> FloatText)
    requires r.learning == h.learning && r.mappings.Keys == h.mappings.Keys
    requires forall k :: k in h.mappings ==>
               && PrintableMapping(h.mappings[k], fmt)
               && FloatValue(fmt(h.mappings[k].minValue)) == h.mappings[k].minValue
               && FloatValue(fmt(h.mappings[k].maxValue)) == h.mappings[k].maxValue
    requires forall k :: k in h.mappings ==> r.mappings[k] == Reread(h.mappings[k], fmt)
    ensures r == h
  {
    forall k | k in h.mappings ensures r.mappings[k] == h.mappings[k] {
      RereadExact(h.mappings[k], fmt);
    }
    assert r.mappings == h.mappings;
  }

  /** With an exact float printer the table comes back unchanged. */
  lemma RoundTripExact(h: Handler, fmt: real -> FloatText)
    requires KeysConsistent(h)
    requires forall k :: k in h.mappings ==>
               && PrintableMapping(h.mappings[k], fmt)
               && FloatValue(fmt(h.mappings[k].minValue)) == h.mappings[k].minValue
               && FloatValue(fmt(h.mappings[k].maxValue)) == h.mappings[k].maxValue
    ensures Deserialize(h, Serialize(h, fmt)).1 == h
  {
    RoundTrip(h, fmt);
    ExactTable(h, Deserialize(h, Serialize(h, fmt)).1, fmt);
  }
}

=== FILE: params.dfy ===
/**
  The plugin's parameter identifiers (the ParamID enumeration shared by the
  audio processor, the edit controller and the keyboard shortcuts).
 */
module Params {

  const MasterVolume: int := 0
  const PlayPause: int := 1
  const Loop: int := 2
  const Position: int := 3
  const Voice0: int := 100
  const Solo0: int := 200
  const VoiceVol0: int := 300
  const PitchBend0: int := 400
  const PitchBendRange: int := 500
  const SampleSelect: int := 600
  const ViewMode: int := 700

  /** The enumerator after ViewMode, i.e. ViewMode + 1. */
  const NumParams: int := ViewMode + 1

  /** Number of SNES DSP voices, and so of each per-voice parameter group. */
  const NumVoices: int := 8

  /** Every enumerator of the ParamID enumeration, in declaration order. */
  function AllIds(): (ids: seq<int>)
    ensures |ids| == 46
  {
    [MasterVolume, PlayPause, Loop, Position]
    + seq(8, i => Voice0 + i)
    + seq(8, i => Solo0 + i)
    + seq(8, i => VoiceVol0 + i)
    + seq(8, i => PitchBend0 + i)
    + [PitchBendRange]
    + seq(8, i => SampleSelect + i)
    + [ViewMode]
  }

  /** Voice i's enable switch, i in 0..7. */
  function VoiceParam(i: int): (id: int)
    requires 0 <= i < NumVoices
    ensures IsVoiceParam(id) && VoiceIndex(id) == i
  {
    Voice0 + i
  }

  /** Voice i's solo switch, i in 0..7. */
  function SoloParam(i: int): (id: int)
    requires 0 <= i < NumVoices
    ensures IsSoloParam(id) && SoloIndex(id) == i
  {
    Solo0 + i
  }

  predicate IsVoiceParam(id: int) { Voice0 <= id < Voice0 + NumVoices }
  predicate IsSoloParam(id: int) { Solo0 <= id < Solo0 + NumVoices }
  predicate IsVoiceVolumeParam(id: int) { VoiceVol0 <= id < VoiceVol0 + NumVoices }

  /** The voice an enable switch belongs to: an index into an 8-entry array. */
  function VoiceIndex(id: int): (i: int)
    requires IsVoiceParam(id)
    ensures 0 <= i < NumVoices
    ensures Voice0 + i == id
  {
    id - Voice0
  }

  /** The voice a solo switch belongs to: an index into an 8-entry array. */
  function SoloIndex(id: int): (i: int)
    requires IsSoloParam(id)
    ensures 0 <= i < NumVoices
    ensures Solo0 + i == id
  {
    id - Solo0
  }

  /** The enumerators are pairwise distinct and NumParams is 701. */
  lemma IdsDistinct()
    ensures forall i, j :: 0 <= i < j < |AllIds()| ==> AllIds()[i] < AllIds()[j]
    ensures NumParams == 701
    ensures forall k :: 0 <= k < |AllIds()| ==> 0 <= AllIds()[k] < NumParams
  {
  }

  /** The three per-voice groups and the transport controls are disjoint. */
  lemma GroupsDisjoint(id: int)
    ensures !(IsVoiceParam(id) && IsSoloParam(id))
    ensures !(IsVoiceParam(id) && IsVoiceVolumeParam(id))
    ensures !(IsSoloParam(id) && IsVoiceVolumeParam(id))
    ensures id in {MasterVolume, PlayPause, Loop, Position} ==>
              !IsVoiceParam(id) && !IsSoloParam(id) && !IsVoiceVolumeParam(id)
  {
  }
}

=== FILE: preset_browser.dfy ===
/**
  PresetBrowser's list logic: the preset list and its filtered view, the
  selection (a size_t index with SIZE_MAX for "none"), the most-recent
  list, favourites and the search-path list. Scanning directories,
  drawing, scrolling and hit-testing are not part of this model.
 */
module PresetBrowser {
  import opened Common
  import opened PresetOrder

  /** SIZE_MAX on a 64-bit target: the "nothing selected" index. */
  const SizeMax: nat := 0xFFFF_FFFF_FFFF_FFFF

  /** At most this many recent presets are kept. */
  const MaxRecent: nat := 10

  datatype Browser = Browser(
    all: seq<PresetInfo>,
    filtered: seq<PresetInfo>,
    recent: seq<PresetInfo>,
    searchPaths: seq<string>,
    filter: string,
    selected: nat)

  /** The constructor's state: everything empty and nothing selected. */
  function NewBrowser(): (b: Browser)
    ensures Valid(b) && b.selected == SizeMax
    ensures b.all == [] && b.filtered == [] && b.recent == [] && b.searchPaths == [] && b.filter == ""
  {
    Browser([], [], [], [], "", SizeMax)
  }

  /** The selection is either none or an index of the filtered list. */
  ghost predicate Valid(b: Browser) {
    b.selected == SizeMax || b.selected < |b.filtered|
  }

  // ---------------------------------------------------------------------
  // Filtering.
  // ---------------------------------------------------------------------

  /** The filter test: the lower-cased name or game contains the lower-cased filter. */
  predicate Matches(filter: string, p: PresetInfo) {
    Contains(Lower(p.name), Lower(filter)) || Contains(Lower(p.game), Lower(filter))
  }

  /** The list applyFilter computes from the full list. */
  function FilterPresets(all: seq<PresetInfo>, filter: string): (r: seq<PresetInfo>)
    ensures filter == [] ==> r == all
    ensures |r| <= |all|
    ensures forall i :: 0 <= i < |r| ==> r[i] in all && (filter == [] || Matches(filter, r[i]))
    ensures forall i :: 0 <= i < |all| && Matches(filter, all[i]) ==> all[i] in r
  {
    if filter == [] then all else Select(all, p => Matches(filter, p))
  }

  /**
    With a filter the result keeps the matching presets in their order:
    filtering a concatenation filters each part, and a single preset stays
    exactly when it matches.
   */
  lemma FilterOrder(a: seq<PresetInfo>, c: seq<PresetInfo>, filter: string, p: PresetInfo)
    ensures FilterPresets(a + c, filter) == FilterPresets(a, filter) + FilterPresets(c, filter)
    ensures FilterPresets([p], filter) == if filter == [] || Matches(filter, p) then [p] else []
  {
    if filter != [] {
      SelectAppend(a, c, p => Matches(filter, p));
      assert [p][1..] == [];
    }
  }

  /** The test ignores case in the filter: "MARIO" and "mario" select the same presets. */
  lemma FilterIgnoresCase(all: seq<PresetInfo>, filter: string)
    ensures FilterPresets(all, Lower(filter)) == FilterPresets(all, filter)
  {
    LowerIdempotent(filter);
    if filter != [] {
      SelectSame(all, p => Matches(Lower(filter), p), p => Matches(filter, p));
    }
  }

  /** Filtering the filtered list changes nothing. */
  lemma FilterIdempotent(all: seq<PresetInfo>, filter: string)
    ensures FilterPresets(FilterPresets(all, filter), filter) == FilterPresets(all, filter)
  {
    if filter != [] {
      var r := FilterPresets(all, filter);
      SelectAll(r, p => Matches(filter, p));
    }
  }

  /** applyFilter: recompute the filtered list and drop the selection. */
  function ApplyFilter(b: Browser): (r: Browser)
    ensures Valid(r) && r.selected == SizeMax
    ensures r.filtered == FilterPresets(b.all, b.filter)
    ensures r.(filtered := b.filtered, selected := b.selected) == b
  {
    b.(filtered := FilterPresets(b.all, b.filter), selected := SizeMax)
  }

  /** setFilter: store the text, then applyFilter. */
  function SetFilter(b: Browser, filter: string): (r: Browser)
    ensures Valid(r) && r.selected == SizeMax && r.filter == filter
    ensures r.filtered == FilterPresets(b.all, filter)
    ensures r.all == b.all && r.recent == b.recent && r.searchPaths == b.searchPaths
  {
    ApplyFilter(b.(filter := filter))
  }

  /** addPreset: append to the full list; the filtered list is not refreshed. */
  function AddPreset(b: Browser, p: PresetInfo): (r: Browser)
    ensures r.all == b.all + [p]
    ensures r.(all := b.all) == b
    ensures Valid(b) ==> Valid(r)
  {
    b.(all := b.all + [p])
  }

  /** clearPresets: both lists emptied, no selection; the filter text, recent list and paths stay. */
  function ClearPresets(b: Browser): (r: Browser)
    ensures Valid(r) && r.all == [] && r.filtered == [] && r.selected == SizeMax
    ensures r.(all := b.all, filtered := b.filtered, selected := b.selected) == b
  {
    b.(all := [], filtered := [], selected := SizeMax)
  }

  /** sortByName / sortByGame: reorder the full list, then applyFilter. */
  function SortBy(b: Browser, o: SortOrder): (r: Browser)
    ensures Valid(r) && r.selected == SizeMax
    ensures multiset(r.all) == multiset(b.all)
    ensures r.filtered == FilterPresets(r.all, b.filter)
    ensures r.recent == b.recent && r.searchPaths == b.searchPaths && r.filter == b.filter
  {
    ApplyFilter(b.(all := Sort(o, b.all)))
  }

  /** The sorted list is in the order of the chosen comparator. */
  lemma SortByOrders(b: Browser, o: SortOrder)
    ensures SortedBy(o, SortBy(b, o).all)
  {
    SortSorted(o, b.all);
  }

  // ---------------------------------------------------------------------
  // Selection.
  // ---------------------------------------------------------------------

  /**
    selectPreset: an index of the filtered list becomes the selection and is
    reported to the selection callback (when one is set); any other index
    changes nothing and reports nothing.
   */
  function SelectPreset(b: Browser, index: nat, hasCallback: bool): (r: (Browser, Option<PresetInfo>))
    ensures Valid(b) ==> Valid(r.0)
    ensures index < |b.filtered| ==> r.0 == b.(selected := index)
    ensures index >= |b.filtered| ==> r.0 == b
    ensures r.1.Some? <==> index < |b.filtered| && hasCallback
    ensures r.1.Some? ==> r.1.value == b.filtered[index]
  {
    if index < |b.filtered| then
      (b.(selected := index), if hasCallback then Some(b.filtered[index]) else None)
    else (b, None)
  }

  /** getSelectedPreset: the selected entry, or null when the selection is out of range. */
  function GetSelectedPreset(b: Browser): (r: Option<PresetInfo>)
    ensures r.None? <==> b.selected >= |b.filtered|
    ensures r.Some? ==> r.value == b.filtered[b.selected]
  {
    if b.selected < |b.filtered| then Some(b.filtered[b.selected]) else None
  }

  /** Selecting an entry of the list makes it the selected preset. */
  lemma SelectThenGet(b: Browser, index: nat, hasCallback: bool)
    requires index < |b.filtered|
    ensures GetSelectedPreset(SelectPreset(b, index, hasCallback).0) == Some(b.filtered[index])
  {
  }

  /**
    After a filter change (and so after a sort or clearPresets) nothing is
    selected; a vector never holds SIZE_MAX elements.
   */
  lemma NoSelectionAfterFilter(b: Browser, filter: string)
    requires |b.all| < SizeMax
    ensures GetSelectedPreset(SetFilter(b, filter)).None?
  {
  }

  // ---------------------------------------------------------------------
  // Recent presets.
  // ---------------------------------------------------------------------

  /** The entries whose path differs from `path`, in order. */
  function DropPath(s: seq<PresetInfo>, path: string): (r: seq<PresetInfo>)
    ensures forall i :: 0 <= i < |r| ==> r[i] in s && r[i].path != path
    ensures forall i :: 0 <= i < |s| && s[i].path != path ==> s[i] in r
  {
    Select(s, (p: PresetInfo) => p.path != path)
  }

  /**
    addToRecent: earlier entries with the same path are removed, the preset
    goes to the front, and the list is cut to 10.
   */
  function AddToRecent(recent: seq<PresetInfo>, p: PresetInfo): (r: seq<PresetInfo>)
    ensures 1 <= |r| <= MaxRecent && r[0] == p
    ensures forall i :: 1 <= i < |r| ==> r[i].path != p.path && r[i] in recent
  {
    var kept := [p] + DropPath(recent, p.path);
    if |kept| > MaxRecent then kept[..MaxRecent] else kept
  }

  /**
    The entries after the first are the old entries with other paths, in
    their old order, the newest nine of them when there are more.
   */
  lemma RecentKeepsOrder(recent: seq<PresetInfo>, p: PresetInfo, a: seq<PresetInfo>, c: seq<PresetInfo>)
    requires recent == a + c
    ensures var r := AddToRecent(recent, p);
            var d := DropPath(a, p.path) + DropPath(c, p.path);
            r == [p] + if |d| < MaxRecent then d else d[..MaxRecent - 1]
  {
    SelectAppend(a, c, (q: PresetInfo) => q.path != p.path);
  }

  /** Every old entry with another path survives while there is room for it. */
  lemma RecentKeepsOthers(recent: seq<PresetInfo>, p: PresetInfo)
    requires |recent| < MaxRecent
    ensures forall i :: 0 <= i < |recent| && recent[i].path != p.path ==> recent[i] in AddToRecent(recent, p)
  {
    var d := DropPath(recent, p.path);
    forall i | 0 <= i < |recent| && recent[i].path != p.path
      ensures recent[i] in AddToRecent(recent, p)
    {
      assert recent[i] in d;
      assert AddToRecent(recent, p) == [p] + d;
    }
  }

  /** Adding the same preset again changes nothing. */
  lemma AddToRecentIdempotent(recent: seq<PresetInfo>, p: PresetInfo)
    ensures AddToRecent(AddToRecent(recent, p), p) == AddToRecent(recent, p)
  {
    var r := AddToRecent(recent, p);
    var rest := r[1..];
    assert r == [p] + rest;
    SelectAppend([p], rest, (q: PresetInfo) => q.path != p.path);
    assert DropPath([p], p.path) == [];
    SelectAll(rest, (q: PresetInfo) => q.path != p.path);
    assert DropPath(r, p.path) == rest;
  }

  /** What loadSelectedPreset did: the new browser, the file the controller loads, the preset the load callback receives. */
  datatype LoadOutcome = LoadOutcome(browser: Browser, loadPath: Option<string>, loaded: Option<PresetInfo>)

  /**
    loadSelectedPreset: a selected preset's file is loaded by the controller
    (when there is one), reported to the load callback (when one is set) and
    made the most recent entry; without a selection nothing happens.
   */
  function LoadSelectedPreset(b: Browser, hasController: bool, hasCallback: bool): (r: LoadOutcome)
    ensures r.loadPath.Some? <==> b.selected < |b.filtered| && hasController
    ensures r.loaded.Some? <==> b.selected < |b.filtered| && hasCallback
    ensures r.loadPath.Some? ==> r.loadPath.value == b.filtered[b.selected].path
    ensures r.loaded.Some? ==> r.loaded.value == b.filtered[b.selected]
    ensures b.selected < |b.filtered| ==> r.browser == b.(recent := AddToRecent(b.recent, b.filtered[b.selected]))
    ensures b.selected >= |b.filtered| ==> r.browser == b
  {
    if b.selected < |b.filtered| then
      var p := b.filtered[b.selected];
      LoadOutcome(b.(recent := AddToRecent(b.recent, p)),
                  if hasController then Some(p.path) else None,
                  if hasCallback then Some(p) else None)
    else LoadOutcome(b, None, None)
  }

  /**
    Loading is what getSelectedPreset reports: the loaded preset becomes the
    head of the recent list, and loading it again leaves the list as it is.
   */
  lemma LoadMakesMostRecent(b: Browser, hasController: bool, hasCallback: bool)
    requires GetSelectedPreset(b).Some?
    ensures var r := LoadSelectedPreset(b, hasController, hasCallback);
            && r.browser.recent[0] == GetSelectedPreset(b).value
            && LoadSelectedPreset(r.browser, hasController, hasCallback).browser == r.browser
  {
    AddToRecentIdempotent(b.recent, b.filtered[b.selected]);
  }

  // ---------------------------------------------------------------------
  // Favourites.
  // ---------------------------------------------------------------------

  /** The index of the first entry with the given path, if any. */
  function FirstWithPath(s: seq<PresetInfo>, path: string): (r: Option<nat>)
    ensures r.None? <==> forall i :: 0 <= i < |s| ==> s[i].path != path
    ensures r.Some? ==> r.value < |s| && s[r.value].path == path
                        && forall i :: 0 <= i < r.value ==> s[i].path != path
    decreases |s|
  {
    if s == [] then None
    else if s[0].path == path then Some(0)
    else
      var k := FirstWithPath(s[1..], path);
      if k.None? then None else Some(k.value + 1)
  }

  /**
    toggleFavorite: flip the flag of a filtered entry and copy the new flag
    to the first entry of the full list with the same path; an index outside
    the filtered list changes nothing.
   */
  function ToggleFavorite(b: Browser, index: nat): (r: Browser)
    ensures index >= |b.filtered| ==> r == b
    ensures index < |b.filtered| ==>
              var flag := !b.filtered[index].isFavorite;
              var k := FirstWithPath(b.all, b.filtered[index].path);
              && r.filtered == b.filtered[index := b.filtered[index].(isFavorite := flag)]
              && (k.None? ==> r.all == b.all)
              && (k.Some? ==> r.all == b.all[k.value := b.all[k.value].(isFavorite := flag)])
              && r.(all := b.all, filtered := b.filtered) == b
    ensures Valid(b) ==> Valid(r)
  {
    if index < |b.filtered| then
      var p := b.filtered[index];
      var flag := !p.isFavorite;
      var k := FirstWithPath(b.all, p.path);
      var all := if k.None? then b.all else b.all[k.value := b.all[k.value].(isFavorite := flag)];
      b.(filtered := b.filtered[index := p.(isFavorite := flag)], all := all)
    else b
  }

  /**
    Toggling twice restores the browser when the full list's first entry for
    that path already agreed with the filtered entry's flag.
   */
  lemma ToggleTwice(b: Browser, index: nat)
    requires index < |b.filtered|
    requires var k := FirstWithPath(b.all, b.filtered[index].path);
             k.Some? ==> b.all[k.value].isFavorite == b.filtered[index].isFavorite
    ensures ToggleFavorite(ToggleFavorite(b, index), index) == b
  {
    var once := ToggleFavorite(b, index);
    assert once.filtered[index].path == b.filtered[index].path;
    var k := FirstWithPath(b.all, b.filtered[index].path);
    if k.Some? {
      assert FirstWithPath(once.all, b.filtered[index].path) == k by {
        FirstWithPathSameKeys(b.all, once.all, b.filtered[index].path);
      }
    } else {
      assert once.all == b.all;
    }
  }

  /** Lists with the same paths have the same first entry for a path. */
  lemma {:induction false} FirstWithPathSameKeys(s: seq<PresetInfo>, t: seq<PresetInfo>, path: string)
    requires |s| == |t| && forall i :: 0 <= i < |s| ==> s[i].path == t[i].path
    ensures FirstWithPath(s, path) == FirstWithPath(t, path)
    decreases |s|
  {
    if s != [] {
      FirstWithPathSameKeys(s[1..], t[1..], path);
    }
  }

  /** getFavorites: the favourite entries of the full list, in order. */
  function GetFavorites(b: Browser): (r: seq<PresetInfo>)
    ensures forall i :: 0 <= i < |r| ==> r[i] in b.all && r[i].isFavorite
    ensures forall i :: 0 <= i < |b.all| && b.all[i].isFavorite ==> b.all[i] in r
  {
    Select(b.all, (p: PresetInfo) => p.isFavorite)
  }

  /** Favourites keep the list order: the favourites of a concatenation are those of each part. */
  lemma FavoritesOrder(b: Browser, a: seq<PresetInfo>, c: seq<PresetInfo>)
    requires b.all == a + c
    ensures GetFavorites(b) == GetFavorites(b.(all := a)) + GetFavorites(b.(all := c))
  {
    SelectAppend(a, c, (p: PresetInfo) => p.isFavorite);
  }

  // ---------------------------------------------------------------------
  // Search paths.
  // ---------------------------------------------------------------------

  ghost predicate NoDuplicates(s: seq<string>) {
    forall i, j :: 0 <= i < j < |s| ==> s[i] != s[j]
  }

  /** addSearchPath: append unless already present. */
  function AddSearchPath(paths: seq<string>, path: string): (r: seq<string>)
    ensures path in r
    ensures path in paths ==> r == paths
    ensures path !in paths ==> r == paths + [path]
    ensures NoDuplicates(paths) ==> NoDuplicates(r)
  {
    if path in paths then paths else paths + [path]
  }

  /** Adding a path twice is adding it once. */
  lemma AddSearchPathIdempotent(paths: seq<string>, path: string)
    ensures AddSearchPath(AddSearchPath(paths, path), path) == AddSearchPath(paths, path)
  {
  }

  /** removeSearchPath: every occurrence goes, the rest keep their order. */
  function RemoveSearchPath(paths: seq<string>, path: string): (r: seq<string>)
    ensures path !in r
    ensures forall i :: 0 <= i < |r| ==> r[i] in paths
    ensures forall i :: 0 <= i < |paths| && paths[i] != path ==> paths[i] in r
  {
    Select(paths, q => q != path)
  }

  /** removeSearchPath keeps the other paths in their order: it works piecewise and drops exactly the matching entries. */
  lemma RemoveSearchPathKeepsOrder(a: seq<string>, b: seq<string>, q: string, path: string)
    ensures RemoveSearchPath(a + b, path) == RemoveSearchPath(a, path) + RemoveSearchPath(b, path)
    ensures RemoveSearchPath([q], path) == if q == path then [] else [q]
  {
    SelectAppend(a, b, q => q != path);
    assert [q][1..] == [];
  }

  /** Removing a path that was just added gives back a list without it. */
  lemma AddThenRemove(paths: seq<string>, path: string)
    requires path !in paths
    ensures RemoveSearchPath(AddSearchPath(paths, path), path) == paths
  {
    SelectAppend(paths, [path], q => q != path);
    SelectAll(paths, q => q != path);
    assert Select([path], q => q != path) == [];
  }
}

=== FILE: preset_order.dfy ===
/**
  The two orders of the preset browser's sort buttons and a sort that
  realises them. std::sort promises a permutation of its input in which no
  element compares less than one before it; it does not say how equivalent
  elements end up. The model sorts by insertion, which meets that promise.
 */
module PresetOrder {
  import opened Common

  /** PresetInfo: one SPC file found on disk. */
  datatype PresetInfo = PresetInfo(
    name: string,
    path: string,
    game: string,
    artist: string,
    duration: string,
    isFavorite: bool)

  /** The comparator a sort button installs. */
  datatype SortOrder = ByName(ascending: bool) | ByGame(ascending: bool)

  /**
    The comparators of sortByName and sortByGame: names in the chosen
    direction; or games in the chosen direction with equal games ordered by
    ascending name whatever the direction.
   */
  predicate Before(o: SortOrder, a: PresetInfo, b: PresetInfo) {
    match o
    case ByName(asc) => if asc then StrLess(a.name, b.name) else StrLess(b.name, a.name)
    case ByGame(asc) =>
      if a.game == b.game then StrLess(a.name, b.name)
      else if asc then StrLess(a.game, b.game) else StrLess(b.game, a.game)
  }

  lemma {:induction false} StrLessAsymmetric(a: string, b: string)
    requires StrLess(a, b)
    ensures !StrLess(b, a)
    decreases |a|
  {
    if |a| > 0 && |b| > 0 && a[0] == b[0] {
      StrLessAsymmetric(a[1..], b[1..]);
    }
  }

  lemma BeforeIrreflexive(o: SortOrder, a: PresetInfo)
    ensures !Before(o, a, a)
  {
    StrLessIrreflexive(a.name);
  }

  /** Both comparators are transitive, as std::sort requires. */
  lemma BeforeTransitive(o: SortOrder, a: PresetInfo, b: PresetInfo, c: PresetInfo)
    requires Before(o, a, b) && Before(o, b, c)
    ensures Before(o, a, c)
  {
    match o
    case ByName(asc) =>
      if asc {
        StrLessTransitive(a.name, b.name, c.name);
      } else {
        StrLessTransitive(c.name, b.name, a.name);
      }
    case ByGame(asc) =>
      if a.game == b.game && b.game == c.game {
        StrLessTransitive(a.name, b.name, c.name);
      } else if a.game == c.game {
        if asc {
          StrLessAsymmetric(a.game, b.game);
        } else {
          StrLessAsymmetric(b.game, a.game);
        }
      } else if a.game != b.game && b.game != c.game {
        if asc {
          StrLessTransitive(a.game, b.game, c.game);
        } else {
          StrLessTransitive(c.game, b.game, a.game);
        }
      }
  }

  /** If b comes before c and a does not, then a does not come before b either. */
  lemma NotBeforeStep(o: SortOrder, a: PresetInfo, b: PresetInfo, c: PresetInfo)
    requires Before(o, b, c) && !Before(o, a, c)
    ensures !Before(o, a, b)
  {
    if Before(o, a, b) {
      BeforeTransitive(o, a, b, c);
      assert false;
    }
  }

  /** No element compares less than one before it. */
  ghost predicate SortedBy(o: SortOrder, s: seq<PresetInfo>) {
    forall i, j :: 0 <= i < j < |s| ==> !Before(o, s[j], s[i])
  }

  /** Insert x ahead of the first element it comes before. */
  function Insert(o: SortOrder, x: PresetInfo, s: seq<PresetInfo>): (r: seq<PresetInfo>)
    ensures multiset(r) == multiset(s) + multiset{x}
    ensures |r| == |s| + 1
    decreases |s|
  {
    if s == [] || Before(o, x, s[0]) then [x] + s
    else
      assert s == [s[0]] + s[1..];
      [s[0]] + Insert(o, x, s[1..])
  }

  /** Every element of the insertion is x or an element of s. */
  lemma InsertFrom(o: SortOrder, x: PresetInfo, s: seq<PresetInfo>, k: int)
    requires 0 <= k < |s| + 1
    ensures Insert(o, x, s)[k] == x || Insert(o, x, s)[k] in s
  {
    assert Insert(o, x, s)[k] in multiset(s) + multiset{x};
  }

  lemma {:induction false} InsertSorted(o: SortOrder, x: PresetInfo, s: seq<PresetInfo>)
    requires SortedBy(o, s)
    ensures SortedBy(o, Insert(o, x, s))
    decreases |s|
  {
    var r := Insert(o, x, s);
    if s == [] {
    } else if Before(o, x, s[0]) {
      forall i, j | 0 <= i < j < |r| ensures !Before(o, r[j], r[i]) {
        if i == 0 {
          if j == 1 {
            BeforeIrreflexive(o, s[0]);
          }
          NotBeforeStep(o, s[j - 1], x, s[0]);
        }
      }
    } else {
      var t := Insert(o, x, s[1..]);
      InsertSorted(o, x, s[1..]);
      forall i, j | 0 <= i < j < |r| ensures !Before(o, r[j], r[i]) {
        if i == 0 {
          InsertFrom(o, x, s[1..], j - 1);
          if t[j - 1] != x {
            var k :| 0 <= k < |s[1..]| && s[1..][k] == t[j - 1];
            assert s[k + 1] == t[j - 1];
          }
        }
      }
    }
  }

  /** The sort of sortByName / sortByGame. */
  function Sort(o: SortOrder, s: seq<PresetInfo>): (r: seq<PresetInfo>)
    ensures multiset(r) == multiset(s)
    ensures |r| == |s|
    decreases |s|
  {
    if s == [] then []
    else
      assert s == [s[0]] + s[1..];
      Insert(o, s[0], Sort(o, s[1..]))
  }

  /** The result is in order. */
  lemma {:induction false} SortSorted(o: SortOrder, s: seq<PresetInfo>)
    ensures SortedBy(o, Sort(o, s))
    decreases |s|
  {
    if s != [] {
      SortSorted(o, s[1..]);
      InsertSorted(o, s[0], Sort(o, s[1..]));
    }
  }

  /**
    What the order means for names: ascending (descending) by name leaves
    no name greater (smaller) than a later one.
   */
  lemma SortByNameOrder(s: seq<PresetInfo>, asc: bool)
    ensures var r := Sort(ByName(asc), s);
            forall i, j :: 0 <= i < j < |r| ==>
              if asc then !StrLess(r[j].name, r[i].name) else !StrLess(r[i].name, r[j].name)
  {
    SortSorted(ByName(asc), s);
  }

  /**
    What the order means for games: games follow the direction, and within
    one game names ascend even when sorting descending.
   */
  lemma SortByGameOrder(s: seq<PresetInfo>, asc: bool)
    ensures var r := Sort(ByGame(asc), s);
            forall i, j :: 0 <= i < j < |r| ==>
              && (r[i].game == r[j].game ==> !StrLess(r[j].name, r[i].name))
              && (r[i].game != r[j].game ==>
                    if asc then !StrLess(r[j].game, r[i].game) else !StrLess(r[i].game, r[j].game))
  {
    SortSorted(ByGame(asc), s);
  }
}

=== FILE: sample_ring.dfy ===
/**
  The spectrum analyser's sample ring: FFT_SIZE slots and a write cursor.
  pushSamples writes each new sample at the cursor and advances it modulo
  FFT_SIZE; computeFFT reads the ring starting just after the newest sample,
  so the analysis frame runs from the oldest sample to the newest.
 */
module SampleRing {

  /** SpectrumView::FFT_SIZE. */
  const FftSize: nat := 1024

  datatype Ring = Ring(buffer: seq<real>, cursor: nat)

  ghost predicate Valid(r: Ring) {
    |r.buffer| == FftSize && r.cursor < FftSize
  }

  /** The constructor's state: FFT_SIZE zeros, cursor at slot 0. */
  function Empty(): (r: Ring)
    ensures Valid(r) && r.cursor == 0
    ensures forall i :: 0 <= i < FftSize ==> r.buffer[i] == 0.0
  {
    Ring(seq(FftSize, _ => 0.0), 0)
  }

  /** One iteration of the pushSamples loop. */
  function PushOne(r: Ring, x: real): (r': Ring)
    requires Valid(r)
    ensures Valid(r')
    ensures r'.cursor == (r.cursor + 1) % FftSize
    ensures r'.buffer[r.cursor] == x
    ensures forall p :: 0 <= p < FftSize && p != r.cursor ==> r'.buffer[p] == r.buffer[p]
  {
    Ring(r.buffer[r.cursor := x], (r.cursor + 1) % FftSize)
  }

  /**
    The analysis frame built by computeFFT before windowing:
    frame[i] = buffer[(cursor + i) mod FFT_SIZE].
   */
  function Frame(r: Ring): (f: seq<real>)
    requires Valid(r)
    ensures |f| == FftSize
  {
    seq(FftSize, i requires 0 <= i < FftSize => r.buffer[(r.cursor + i) % FftSize])
  }

  /** No slot is lost: buffer slot j appears in the frame at index (j - cursor) mod FFT_SIZE. */
  lemma FrameHoldsEverySlot(r: Ring, j: int)
    requires Valid(r) && 0 <= j < FftSize
    ensures 0 <= (j - r.cursor) % FftSize < FftSize
    ensures Frame(r)[(j - r.cursor) % FftSize] == r.buffer[j]
  {
    SlotOfFrameIndex(r.cursor, j);
  }

  /** Buffer slot j is read at frame index (j - cursor) mod FFT_SIZE. */
  lemma SlotOfFrameIndex(c: int, j: int)
    requires 0 <= c < FftSize && 0 <= j < FftSize
    ensures 0 <= (j - c) % FftSize < FftSize
    ensures (c + (j - c) % FftSize) % FftSize == j
  {
    if j >= c {
      assert (j - c) % FftSize == j - c;
    } else {
      assert (j - c) % FftSize == j - c + FftSize;
      WrapOnce(j + FftSize);
    }
  }

  /** Writing one sample slides the frame by one: the oldest sample drops out. */
  lemma FramePushOne(r: Ring, x: real)
    requires Valid(r)
    ensures Frame(PushOne(r, x)) == Frame(r)[1..] + [x]
  {
    var r' := PushOne(r, x);
    var lhs := Frame(r');
    var rhs := Frame(r)[1..] + [x];
    forall i | 0 <= i < FftSize
      ensures lhs[i] == rhs[i]
    {
      ShiftedSlot(r.cursor, i);
    }
  }

  /** Slot i of the frame after one push is slot i + 1 of the frame before; the last is the written slot. */
  lemma ShiftedSlot(c: int, i: int)
    requires 0 <= c < FftSize && 0 <= i < FftSize
    ensures i < FftSize - 1 ==> ((c + 1) % FftSize + i) % FftSize == (c + (i + 1)) % FftSize
                                && (c + (i + 1)) % FftSize != c
    ensures i == FftSize - 1 ==> ((c + 1) % FftSize + i) % FftSize == c
  {
    var c' := (c + 1) % FftSize;
    assert c' == if c + 1 < FftSize then c + 1 else 0 by { WrapOnce(c + 1); }
    WrapOnce(c' + i);
    WrapOnce(c + (i + 1));
  }

  /** Below twice the ring size, the remainder subtracts the size at most once. */
  lemma WrapOnce(x: int)
    requires 0 <= x < 2 * FftSize
    ensures x % FftSize == if x < FftSize then x else x - FftSize
  {
  }

  /**
    SpectrumView::pushSamples, the ring part: numSamples samples are written
    one after the other. Afterwards the cursor has advanced by numSamples
    modulo FFT_SIZE, the frame is the last FFT_SIZE samples of the old frame
    followed by the new ones, and sample i sits in slot (cursor + i) mod
    FFT_SIZE if it is among the last FFT_SIZE pushed.
   */
  method Push(r: Ring, samples: seq<real>) returns (r': Ring)
    requires Valid(r)
    ensures Valid(r')
    ensures r'.cursor == (r.cursor + |samples|) % FftSize
    ensures Frame(r') == (Frame(r) + samples)[|samples|..]
  {
    r' := r;
    var i := 0;
    while i < |samples|
      invariant 0 <= i <= |samples|
      invariant Valid(r')
      invariant r'.cursor == (r.cursor + i) % FftSize
      invariant Frame(r') == (Frame(r) + samples[..i])[i..]
    {
      FramePushOne(r', samples[i]);
      ghost var before := Frame(r');
      r' := PushOne(r', samples[i]);
      calc {
        Frame(r');
        before[1..] + [samples[i]];
        (Frame(r) + samples[..i])[i..][1..] + [samples[i]];
        { assert samples[..i + 1] == samples[..i] + [samples[i]]; }
        (Frame(r) + samples[..i + 1])[i + 1..];
      }
      i := i + 1;
    }
    assert samples[..i] == samples;
  }

  /** Once FFT_SIZE or more samples are pushed, the frame is exactly the newest FFT_SIZE of them. */
  lemma PushKeepsNewest(r: Ring, samples: seq<real>, r': Ring)
    requires Valid(r) && Valid(r')
    requires Frame(r') == (Frame(r) + samples)[|samples|..]
    requires |samples| >= FftSize
    ensures Frame(r') == samples[|samples| - FftSize..]
  {
    assert (Frame(r) + samples)[|samples|..] == samples[|samples| - FftSize..];
  }

  /**
    Where the samples of one push end up: each of the last FFT_SIZE samples
    pushed sits in slot (old cursor + its index) mod FFT_SIZE.
   */
  lemma SlotOfSample(r: Ring, samples: seq<real>, r': Ring, k: int)
    requires Valid(r) && Valid(r')
    requires r'.cursor == (r.cursor + |samples|) % FftSize
    requires Frame(r') == (Frame(r) + samples)[|samples|..]
    requires 0 <= k < |samples| && |samples| - FftSize <= k
    ensures r'.buffer[(r.cursor + k) % FftSize] == samples[k]
  {
    var j := FftSize - |samples| + k;
    assert 0 <= j < FftSize;
    assert Frame(r')[j] == (Frame(r) + samples)[|samples| + j];
    assert (r'.cursor + j) % FftSize == (r.cursor + k) % FftSize;
  }
}

=== FILE: spc_editor.dfy ===
/**
  SpcEditor's own logic: accepting dropped SPC files (extension test, drag
  state, drop) and showing the panel the view-mode parameter selects.
  Window creation, view lookup, the timer and the preset-browser set-up are
  not part of this model.
 */
module SpcEditor {
  import opened Common

  // ---------------------------------------------------------------------
  // File extensions.
  // ---------------------------------------------------------------------

  /** path.rfind('.'): the index of the last dot, if any. */
  function LastDot(s: string): (r: Option<nat>)
    ensures r.None? ==> forall j :: 0 <= j < |s| ==> s[j] != '.'
    ensures r.Some? ==> r.value < |s| && s[r.value] == '.'
                        && forall j :: r.value < j < |s| ==> s[j] != '.'
    decreases |s|
  {
    if s == [] then None
    else if s[|s| - 1] == '.' then Some(|s| - 1)
    else LastDot(s[..|s| - 1])
  }

  /** The lower-cased suffix from the last dot, or "" when there is no dot. */
  function Extension(path: string): (ext: string)
    ensures ext != [] ==> ext[0] == '.'
    ensures forall j :: 1 <= j < |ext| ==> ext[j] != '.'
  {
    match LastDot(path)
    case None => ""
    case Some(d) => Lower(path[d..])
  }

  /** The extensions the editor accepts. */
  predicate IsSpcExtension(ext: string) {
    ext == ".spc" || ext == ".rsn" || ext == ".spcx"
  }

  predicate AcceptsPath(path: string) {
    IsSpcExtension(Extension(path))
  }

  /**
    The extension test reads as a case-insensitive suffix test: a path is
    accepted exactly when, lower-cased, it ends in .spc, .rsn or .spcx.
   */
  lemma AcceptsIff(path: string)
    ensures AcceptsPath(path) <==>
              EndsWith(Lower(path), ".spc") || EndsWith(Lower(path), ".rsn") || EndsWith(Lower(path), ".spcx")
  {
    ExtensionIs(path, ".spc");
    ExtensionIs(path, ".rsn");
    ExtensionIs(path, ".spcx");
  }

  /** For a dotted suffix e with no further dot, the extension is e iff the lower-cased path ends in e. */
  lemma ExtensionIs(path: string, e: string)
    requires |e| >= 1 && e[0] == '.' && forall j :: 1 <= j < |e| ==> e[j] != '.'
    ensures Extension(path) == e <==> EndsWith(Lower(path), e)
  {
    if Extension(path) == e {
      ExtensionIsSuffix(path);
    }
    if EndsWith(Lower(path), e) {
      SuffixIsExtension(path, e);
    }
  }

  /** The extension is the lower-cased path's tail. */
  lemma ExtensionIsSuffix(path: string)
    ensures EndsWith(Lower(path), Extension(path))
  {
    if LastDot(path).Some? {
      LowerTail(path, LastDot(path).value);
    }
  }

  /** Lower-casing a tail is taking the tail of the lower-cased string. */
  lemma LowerTail(s: string, d: nat)
    requires d <= |s|
    ensures Lower(s)[d..] == Lower(s[d..])
  {
    var a := Lower(s)[d..];
    var b := Lower(s[d..]);
    assert |a| == |b|;
    forall i | 0 <= i < |a| ensures a[i] == b[i] {
      assert a[i] == LowerChar(s[d + i]);
      assert s[d..][i] == s[d + i];
    }
  }

  /** Lower-casing neither creates nor removes dots. */
  lemma LowerKeepsDots(c: char)
    ensures LowerChar(c) == '.' <==> c == '.'
  {
  }

  lemma SuffixIsExtension(path: string, e: string)
    requires |e| >= 1 && e[0] == '.' && forall j :: 1 <= j < |e| ==> e[j] != '.'
    requires EndsWith(Lower(path), e)
    ensures Extension(path) == e
  {
    var l := Lower(path);
    var k := |path| - |e|;
    assert l[k] == e[0];
    LowerKeepsDots(path[k]);
    forall j | k < j < |path| ensures path[j] != '.' {
      assert l[j] == e[j - k];
      LowerKeepsDots(path[j]);
    }
    LastDotAt(path, k);
    LowerTail(path, k);
  }

  /** A dot with no dot after it is the last dot. */
  lemma LastDotAt(s: string, d: nat)
    requires d < |s| && s[d] == '.' && forall j :: d < j < |s| ==> s[j] != '.'
    ensures LastDot(s) == Some(d)
  {
  }

  /** A name without a dot is refused. */
  lemma NoDotRefused(path: string)
    requires forall j :: 0 <= j < |path| ==> path[j] != '.'
    ensures !AcceptsPath(path)
  {
  }

  /** An upper-case extension is accepted like a lower-case one. */
  lemma UpperCaseAccepted()
    ensures AcceptsPath("song.SPC")
  {
    LastDotAt("song.SPC", 4);
    assert "song.SPC"[4..] == ".SPC";
    assert Lower(".SPC") == ".spc";
  }

  /** Only the last extension counts. */
  lemma LastExtensionCounts()
    ensures !AcceptsPath("a.spc.txt")
  {
    LastDotAt("a.spc.txt", 5);
    assert "a.spc.txt"[5..] == ".txt";
    LowerPlain(".txt");
  }

  // ---------------------------------------------------------------------
  // Drag packages.
  // ---------------------------------------------------------------------

  datatype ItemType = FilePathItem | TextItem | BinaryItem

  /** One item of a drag package: its type and its bytes (None for a null pointer). */
  datatype DragItem = DragItem(kind: ItemType, data: Option<string>)

  /** A file-path item with a non-null, non-empty payload. */
  predicate UsablePath(item: DragItem) {
    item.kind == FilePathItem && item.data.Some? && item.data.value != []
  }

  /** containsSpcFile: some usable file path passes the extension test; a null package never does. */
  function ContainsSpcFile(drag: Option<seq<DragItem>>): (b: bool)
    ensures drag.None? ==> !b
    ensures drag.Some? ==>
              (b <==> exists i :: 0 <= i < |drag.value| && UsablePath(drag.value[i]) && AcceptsPath(drag.value[i].data.value))
  {
    drag.Some? && AnySpcPath(drag.value)
  }

  function AnySpcPath(items: seq<DragItem>): (b: bool)
    ensures b <==> exists i :: 0 <= i < |items| && UsablePath(items[i]) && AcceptsPath(items[i].data.value)
    decreases |items|
  {
    if items == [] then false
    else if UsablePath(items[0]) && AcceptsPath(items[0].data.value) then true
    else
      var rest := AnySpcPath(items[1..]);
      assert forall i :: 1 <= i < |items| ==> items[i] == items[1..][i - 1];
      rest
  }

  /** The index of the first usable file path, if any. */
  function FirstUsable(items: seq<DragItem>): (k: Option<nat>)
    ensures k.None? <==> forall i :: 0 <= i < |items| ==> !UsablePath(items[i])
    ensures k.Some? ==> k.value < |items| && UsablePath(items[k.value])
                        && forall i :: 0 <= i < k.value ==> !UsablePath(items[i])
    decreases |items|
  {
    if items == [] then None
    else if UsablePath(items[0]) then Some(0)
    else
      var k := FirstUsable(items[1..]);
      if k.None? then None else Some(k.value + 1)
  }

  /** extractFilePath: the first usable file path, or "" when there is none. */
  function ExtractFilePath(drag: Option<seq<DragItem>>): (path: string)
    ensures drag.None? ==> path == []
    ensures drag.Some? && FirstUsable(drag.value).None? ==> path == []
    ensures drag.Some? && FirstUsable(drag.value).Some? ==>
              path == drag.value[FirstUsable(drag.value).value].data.value && path != []
  {
    if drag.None? then []
    else match FirstUsable(drag.value)
      case None => []
      case Some(k) => drag.value[k].data.value
  }

  /** Whenever a package holds an SPC file, extractFilePath finds a path. */
  lemma SpcFileHasPath(drag: Option<seq<DragItem>>)
    requires ContainsSpcFile(drag)
    ensures ExtractFilePath(drag) != []
  {
  }

  /** The path extracted is the first usable one, which need not be the SPC file. */
  lemma ExtractedNeedNotBeSpc()
    ensures var drag := Some([DragItem(FilePathItem, Some("a.txt")), DragItem(FilePathItem, Some("b.spc"))]);
            ContainsSpcFile(drag) && ExtractFilePath(drag) == "a.txt" && !AcceptsPath("a.txt")
  {
    var items := [DragItem(FilePathItem, Some("a.txt")), DragItem(FilePathItem, Some("b.spc"))];
    LastDotAt("b.spc", 1);
    LowerPlain(".spc");
    assert "b.spc"[1..] == ".spc";
    assert AcceptsPath(items[1].data.value);
    LastDotAt("a.txt", 1);
    LowerPlain(".txt");
    assert "a.txt"[1..] == ".txt";
    assert !AcceptsPath("a.txt");
    assert FirstUsable(items) == Some(0);
  }

  /** A string without upper-case letters is its own lower-case form. */
  lemma LowerPlain(s: string)
    requires forall i :: 0 <= i < |s| ==> !('A' <= s[i] <= 'Z')
    ensures Lower(s) == s
  {
  }

  // ---------------------------------------------------------------------
  // Drag and drop.
  // ---------------------------------------------------------------------

  datatype DragOperation = Copy | NoOperation

  /** The mode-selected panels (None when the view was not found) and the drag flag. */
  datatype Editor = Editor(
    isDragOver: bool,
    mixer: Option<bool>,
    samples: Option<bool>,
    browser: Option<bool>)

  /** onDragEnter: the flag records whether the package holds an SPC file; Copy exactly then. */
  function OnDragEnter(e: Editor, drag: Option<seq<DragItem>>): (r: (Editor, DragOperation))
    ensures r.0 == e.(isDragOver := ContainsSpcFile(drag))
    ensures r.1 == Copy <==> ContainsSpcFile(drag)
  {
    var over := ContainsSpcFile(drag);
    (e.(isDragOver := over), if over then Copy else NoOperation)
  }

  /** onDragMove: Copy exactly while the flag is set; nothing changes. */
  function OnDragMove(e: Editor): (op: DragOperation)
    ensures op == Copy <==> e.isDragOver
  {
    if e.isDragOver then Copy else NoOperation
  }

  /** onDragLeave: the flag is cleared. */
  function OnDragLeave(e: Editor): (r: Editor)
    ensures !r.isDragOver && r.(isDragOver := e.isDragOver) == e
  {
    e.(isDragOver := false)
  }

  /** Entering and then moving offers Copy exactly for SPC packages. */
  lemma EnterThenMove(e: Editor, drag: Option<seq<DragItem>>)
    ensures OnDragMove(OnDragEnter(e, drag).0) == OnDragEnter(e, drag).1
  {
  }

  /**
    onDrop: without an SPC file nothing happens; with one and a controller
    the first usable path is loaded, the flag cleared and the drop accepted;
    without a controller the drop is refused and the flag kept.
   */
  function OnDrop(e: Editor, drag: Option<seq<DragItem>>, hasController: bool): (r: (Editor, bool, Option<string>))
    ensures !ContainsSpcFile(drag) ==> r == (e, false, None)
    ensures r.1 ==> r.0 == e.(isDragOver := false) && r.2 == Some(ExtractFilePath(drag)) && r.2.value != []
    ensures !r.1 ==> r.0 == e && r.2.None?
  {
    if !ContainsSpcFile(drag) then (e, false, None)
    else
      var path := ExtractFilePath(drag);
      if path != [] && hasController then (e.(isDragOver := false), true, Some(path))
      else (e, false, None)
  }

  /** A drop is accepted exactly when the package holds an SPC file and there is a controller. */
  lemma DropAcceptedIff(e: Editor, drag: Option<seq<DragItem>>, hasController: bool)
    ensures OnDrop(e, drag, hasController).1 <==> ContainsSpcFile(drag) && hasController
  {
    if ContainsSpcFile(drag) {
      SpcFileHasPath(drag);
    }
  }

  // ---------------------------------------------------------------------
  // Panel visibility.
  // ---------------------------------------------------------------------

  /** The view mode: trunc(value * 2 + 0.5) of the ViewMode parameter, 0 without a controller. */
  function ViewModeOf(viewModeParam: Option<real>): (mode: int)
    ensures viewModeParam.None? ==> mode == 0
    ensures viewModeParam.Some? && 0.0 <= viewModeParam.value <= 1.0 ==>
              mode == if viewModeParam.value < 0.25 then 0 else if viewModeParam.value < 0.75 then 1 else 2
  {
    match viewModeParam
    case None => 0
    case Some(v) =>
      var n := Trunc(v * 2.0 + 0.5);
      assert 0.0 <= v ==> n as real <= v * 2.0 + 0.5 < n as real + 1.0;
      n
  }

  /** For a normalized value the mode is 0 below 0.25, 1 below 0.75 and 2 from there on. */
  lemma ViewModeThresholds(v: real)
    requires 0.0 <= v <= 1.0
    ensures ViewModeOf(Some(v)) == if v < 0.25 then 0 else if v < 0.75 then 1 else 2
  {
  }

  function ShowIf(panel: Option<bool>, shown: bool): (r: Option<bool>)
    ensures r.Some? <==> panel.Some?
    ensures r.Some? ==> r.value == shown
  {
    if panel.Some? then Some(shown) else None
  }

  /** updatePanelVisibility: Mixer shows for mode 0, Samples for 1, Browser for 2. */
  function UpdatePanelVisibility(e: Editor, viewModeParam: Option<real>): (r: Editor)
    ensures r.isDragOver == e.isDragOver
    ensures r.mixer.Some? == e.mixer.Some? && r.samples.Some? == e.samples.Some? && r.browser.Some? == e.browser.Some?
    ensures r.mixer.Some? ==> (r.mixer.value <==> ViewModeOf(viewModeParam) == 0)
    ensures r.samples.Some? ==> (r.samples.value <==> ViewModeOf(viewModeParam) == 1)
    ensures r.browser.Some? ==> (r.browser.value <==> ViewModeOf(viewModeParam) == 2)
  {
    var mode := ViewModeOf(viewModeParam);
    e.(mixer := ShowIf(e.mixer, mode == 0),
       samples := ShowIf(e.samples, mode == 1),
       browser := ShowIf(e.browser, mode == 2))
  }

  function CountShown(e: Editor): nat {
    (if e.mixer == Some(true) then 1 else 0)
    + (if e.samples == Some(true) then 1 else 0)
    + (if e.browser == Some(true) then 1 else 0)
  }

  /** At most one panel is shown; with all three present and a normalized value, exactly one. */
  lemma OnePanelShown(e: Editor, viewModeParam: Option<real>)
    ensures CountShown(UpdatePanelVisibility(e, viewModeParam)) <= 1
    ensures e.mixer.Some? && e.samples.Some? && e.browser.Some?
            && (viewModeParam.None? || 0.0 <= viewModeParam.value <= 1.0)
            ==> CountShown(UpdatePanelVisibility(e, viewModeParam)) == 1
  {
    if viewModeParam.Some? && 0.0 <= viewModeParam.value <= 1.0 {
      ViewModeThresholds(viewModeParam.value);
    }
  }
}

=== FILE: spc_processor.dfy ===
/**
  SpcProcessor, the audio side of the plugin: the parameter changes a
  process() call applies, the (for now silent) stereo output it writes, and
  the small host queries. Steinberg's tresult is kept to the two values used
  here: kResultOk (equal to kResultTrue in the SDK) and kResultFalse.
 */
module SpcProcessor {
  import opened Common
  import opened Params

  datatype TResult = ResultOk | ResultFalse

  /** The processor's parameter state; each voice array has 8 entries. */
  datatype Processor = Processor(
    masterVolume: real,
    playing: bool,
    looping: bool,
    voiceEnabled: seq<bool>,
    voiceSolo: seq<bool>,
    sampleRate: real)

  ghost predicate Valid(s: Processor) {
    |s.voiceEnabled| == NumVoices && |s.voiceSolo| == NumVoices
  }

  /** The member initialisers: volume 1, stopped, looping, all voices on, no solo, 44.1 kHz. */
  function NewProcessor(): (s: Processor)
    ensures Valid(s)
    ensures s.masterVolume == 1.0 && !s.playing && s.looping && s.sampleRate == 44100.0
    ensures forall i :: 0 <= i < NumVoices ==> s.voiceEnabled[i] && !s.voiceSolo[i]
  {
    Processor(1.0, false, true, seq(8, _ => true), seq(8, _ => false), 44100.0)
  }

  // ---------------------------------------------------------------------
  // Parameter changes.
  // ---------------------------------------------------------------------

  datatype Point = Point(sampleOffset: int, value: real)

  /** One parameter's queue of changes within the block. */
  datatype Queue = Queue(paramId: nat, points: seq<Point>)

  /** The switch on the parameter id: one field set, any other id ignored. */
  function ApplyParam(s: Processor, id: nat, value: real): (r: Processor)
    requires Valid(s)
    ensures Valid(r)
    ensures r.sampleRate == s.sampleRate
    ensures r.masterVolume == (if id == MasterVolume then value else s.masterVolume)
    ensures r.playing == (if id == PlayPause then value > 0.5 else s.playing)
    ensures r.looping == (if id == Loop then value > 0.5 else s.looping)
    ensures forall i :: 0 <= i < NumVoices ==>
              r.voiceEnabled[i] == (if id == Voice0 + i then value > 0.5 else s.voiceEnabled[i])
    ensures forall i :: 0 <= i < NumVoices ==>
              r.voiceSolo[i] == (if id == Solo0 + i then value > 0.5 else s.voiceSolo[i])
  {
    if id == MasterVolume then s.(masterVolume := value)
    else if id == PlayPause then s.(playing := value > 0.5)
    else if id == Loop then s.(looping := value > 0.5)
    else if IsVoiceParam(id) then s.(voiceEnabled := s.voiceEnabled[VoiceIndex(id) := value > 0.5])
    else if IsSoloParam(id) then s.(voiceSolo := s.voiceSolo[SoloIndex(id) := value > 0.5])
    else s
  }

  /** Any id outside the dispatch table changes nothing. */
  lemma OtherIdsIgnored(s: Processor, id: nat, value: real)
    requires Valid(s)
    requires id !in {MasterVolume, PlayPause, Loop} && !IsVoiceParam(id) && !IsSoloParam(id)
    ensures ApplyParam(s, id, value) == s
  {
  }

  /** A queue applies its last point only; an empty queue (no last point) changes nothing. */
  function ApplyQueue(s: Processor, q: Queue): (r: Processor)
    requires Valid(s)
    ensures Valid(r)
    ensures q.points == [] ==> r == s
  {
    if q.points == [] then s else ApplyParam(s, q.paramId, q.points[|q.points| - 1].value)
  }

  /** Earlier points in a queue make no difference. */
  lemma OnlyLastPointCounts(s: Processor, id: nat, earlier: seq<Point>, last: Point)
    requires Valid(s)
    ensures ApplyQueue(s, Queue(id, earlier + [last])) == ApplyParam(s, id, last.value)
            == ApplyQueue(s, Queue(id, [last]))
  {
  }

  /** No queue of the block carries parameter id. */
  predicate NoQueueFor(queues: seq<Option<Queue>>, id: nat) {
    forall i :: 0 <= i < |queues| && queues[i].Some? ==> queues[i].value.paramId != id
  }

  /**
    The changes of one block, queue by queue; a null queue is skipped. A
    parameter without a queue in the block keeps its value.
   */
  function ApplyQueues(s: Processor, queues: seq<Option<Queue>>): (r: Processor)
    requires Valid(s)
    ensures Valid(r)
    ensures r.sampleRate == s.sampleRate
    ensures NoQueueFor(queues, MasterVolume) ==> r.masterVolume == s.masterVolume
    ensures NoQueueFor(queues, PlayPause) ==> r.playing == s.playing
    ensures NoQueueFor(queues, Loop) ==> r.looping == s.looping
    decreases |queues|
  {
    if queues == [] then s
    else
      var next := if queues[0].Some? then ApplyQueue(s, queues[0].value) else s;
      ApplyQueues(next, queues[1..])
  }

  /** Applying queues one after another: the later queue for a parameter wins. */
  lemma {:induction false} ApplyQueuesAppend(s: Processor, a: seq<Option<Queue>>, b: seq<Option<Queue>>)
    requires Valid(s)
    ensures ApplyQueues(s, a + b) == ApplyQueues(ApplyQueues(s, a), b)
    decreases |a|
  {
    if a == [] {
      assert a + b == b;
    } else {
      assert (a + b)[0] == a[0];
      assert (a + b)[1..] == a[1..] + b;
      var next := if a[0].Some? then ApplyQueue(s, a[0].value) else s;
      ApplyQueuesAppend(next, a[1..], b);
    }
  }

  /** The block's last queue for the master volume sets it, whatever came before. */
  lemma LastVolumeQueueWins(s: Processor, a: seq<Option<Queue>>, points: seq<Point>, last: Point)
    requires Valid(s)
    ensures ApplyQueues(s, a + [Some(Queue(MasterVolume, points + [last]))]).masterVolume == last.value
  {
    var q := Some(Queue(MasterVolume, points + [last]));
    ApplyQueuesAppend(s, a, [q]);
    var mid := ApplyQueues(s, a);
    assert ApplyQueues(mid, [q]) == ApplyQueues(ApplyQueue(mid, q.value), []);
  }

  // ---------------------------------------------------------------------
  // Audio output.
  // ---------------------------------------------------------------------

  /** An output bus: one buffer per channel. */
  datatype Bus = Bus(channels: seq<seq<real>>)

  datatype ProcessData = ProcessData(
    changes: Option<seq<Option<Queue>>>,
    outputs: seq<Bus>,
    numSamples: int)

  /** The host's promise: the first two channels of the first bus hold numSamples samples. */
  ghost predicate BuffersFit(d: ProcessData) {
    |d.outputs| > 0 && |d.outputs[0].channels| >= 2 ==>
      d.numSamples <= |d.outputs[0].channels[0]| && d.numSamples <= |d.outputs[0].channels[1]|
  }

  /** The first n samples of a buffer replaced by f of them; the rest kept. */
  function MapPrefix(buf: seq<real>, n: int, f: real -> real): (r: seq<real>)
    ensures |r| == |buf|
    ensures forall i :: 0 <= i < |buf| ==> r[i] == if i < n then f(buf[i]) else buf[i]
  {
    seq(|buf|, i requires 0 <= i < |buf| => if i < n then f(buf[i]) else buf[i])
  }

  /** The output the loops write into the first bus: zeros, then scaled by the volume when playing. */
  function RenderBus(bus: Bus, numSamples: int, playing: bool, volume: real): (r: Bus)
    requires |bus.channels| >= 2
    ensures |r.channels| == |bus.channels|
    ensures forall c, i :: 0 <= c < 2 && 0 <= i < |bus.channels[c]| ==>
              |r.channels[c]| == |bus.channels[c]|
              && r.channels[c][i] == if i < numSamples then 0.0 else bus.channels[c][i]
    ensures r.channels[2..] == bus.channels[2..]
  {
    var left := MapPrefix(bus.channels[0], numSamples, _ => 0.0);
    var right := MapPrefix(bus.channels[1], numSamples, _ => 0.0);
    if !playing then Bus([left, right] + bus.channels[2..])
    else
      Bus([MapPrefix(left, numSamples, x => x * volume), MapPrefix(right, numSamples, x => x * volume)]
          + bus.channels[2..])
  }

  /**
    process: apply the parameter changes, then, when there is a stereo first
    bus, write the block's samples; the result is always kResultOk.
   */
  function Process(s: Processor, d: ProcessData): (r: (Processor, seq<Bus>, TResult))
    requires Valid(s)
    ensures Valid(r.0) && r.2 == ResultOk
    ensures r.0 == if d.changes.Some? then ApplyQueues(s, d.changes.value) else s
    ensures |d.outputs| == 0 || |d.outputs[0].channels| < 2 ==> r.1 == d.outputs
    ensures |r.1| == |d.outputs|
  {
    var s' := if d.changes.Some? then ApplyQueues(s, d.changes.value) else s;
    if |d.outputs| == 0 || |d.outputs[0].channels| < 2 then (s', d.outputs, ResultOk)
    else
      var bus := RenderBus(d.outputs[0], d.numSamples, s'.playing, s'.masterVolume);
      (s', [bus] + d.outputs[1..], ResultOk)
  }

  /**
    The output is silent: with a stereo first bus, both channels hold 0 for
    every sample of the block, playing or not; every other sample, channel
    and bus is left as it was.
   */
  lemma OutputIsSilent(s: Processor, d: ProcessData)
    requires Valid(s) && BuffersFit(d)
    requires |d.outputs| > 0 && |d.outputs[0].channels| >= 2
    ensures var out := Process(s, d).1;
            var old0 := d.outputs[0].channels;
            && |out[0].channels| == |old0|
            && (forall c, i :: 0 <= c < 2 && 0 <= i < |old0[c]| ==>
                  |out[0].channels[c]| == |old0[c]|
                  && out[0].channels[c][i] == if i < d.numSamples then 0.0 else old0[c][i])
            && out[0].channels[2..] == old0[2..]
            && out[1..] == d.outputs[1..]
  {
    var out := Process(s, d).1;
    var old0 := d.outputs[0].channels;
    forall c, i | 0 <= c < 2 && 0 <= i < |old0[c]|
      ensures |out[0].channels[c]| == |old0[c]|
      ensures out[0].channels[c][i] == if i < d.numSamples then 0.0 else old0[c][i]
    {
    }
  }

  // ---------------------------------------------------------------------
  // Host queries.
  // ---------------------------------------------------------------------

  /** The SDK's symbolic sample sizes. */
  const Sample32: int := 0
  const Sample64: int := 1

  /** canProcessSampleSize: only 32-bit float processing is offered. */
  function CanProcessSampleSize(symbolicSampleSize: int): (r: TResult)
    ensures r == ResultOk <==> symbolicSampleSize == Sample32
  {
    if symbolicSampleSize == Sample32 then ResultOk else ResultFalse
  }

  /** setState and getState: refused on a null stream, otherwise accepted with no effect. */
  function SetState(s: Processor, stream: Option<seq<int>>): (r: (Processor, TResult))
    ensures r.0 == s
    ensures r.1 == ResultOk <==> stream.Some?
  {
    (s, if stream.None? then ResultFalse else ResultOk)
  }

  function GetState(s: Processor, stream: Option<seq<int>>): (r: (seq<int>, TResult))
    ensures r.1 == ResultOk <==> stream.Some?
    ensures stream.Some? ==> r.0 == stream.value
    ensures stream.None? ==> r.0 == []
  {
    if stream.None? then ([], ResultFalse) else (stream.value, ResultOk)
  }

  /** A state round trip through any stream leaves the processor as it was. */
  lemma StateRoundTrip(s: Processor, stream: seq<int>)
    ensures var saved := GetState(s, Some(stream));
            saved.1 == ResultOk && SetState(s, Some(saved.0)) == (s, ResultOk)
  {
  }

  /** loadSpcFile: file loading is not implemented and always fails. */
  function LoadSpcFile(s: Processor, filePath: string): (r: (Processor, bool))
    ensures r == (s, false)
  {
    (s, false)
  }

  /**
    setupProcessing: the host's sample rate is stored whatever the setup
    says; the base class then refuses a sample size canProcessSampleSize
    refuses and accepts the rest.
   */
  function SetupProcessing(s: Processor, sampleRate: real, symbolicSampleSize: int): (r: (Processor, TResult))
    ensures r.0.sampleRate == sampleRate && r.0.(sampleRate := s.sampleRate) == s
    ensures r.1 == ResultOk <==> symbolicSampleSize == Sample32
  {
    (s.(sampleRate := sampleRate), CanProcessSampleSize(symbolicSampleSize))
  }
}

=== FILE: spectrum_bands.dfy ===
/**
  SpectrumView's configuration, band mapping and temporal filter:
  the clamping setters, the lazy resize of the three band arrays, the
  clamped bin range of each band, the exponential smoothing and the
  peak-hold with accumulating decay, and the pushSamples pipeline that
  ties them to the sample ring.
 */
module SpectrumBands {
  import opened Common
  import SampleRing

  /** FFT_SIZE / 2: the number of magnitude bins. */
  const SpectrumSize: nat := SampleRing.FftSize / 2

  const MinBands: int := 8
  const MaxBands: int := 128

  datatype Settings = Settings(
    numBands: int,
    decayRate: real,
    smoothing: real,
    showPeaks: bool,
    logScale: bool)

  ghost predicate ValidSettings(s: Settings) {
    && MinBands <= s.numBands <= MaxBands
    && 0.01 <= s.decayRate <= 1.0
    && 0.0 <= s.smoothing <= 0.99
  }

  /** The member initialisers: 32 bands, decay 0.05, smoothing 0.7, peaks shown, log scale. */
  function DefaultSettings(): (s: Settings)
    ensures ValidSettings(s)
    ensures s.numBands == 32 && s.showPeaks && s.logScale
    ensures s.decayRate == 0.05 && s.smoothing == 0.7
  {
    Settings(32, 0.05, 0.7, true, true)
  }

  /** setNumBands: std::clamp(bands, 8, 128); nothing else changes. */
  function SetNumBands(s: Settings, bands: int): (r: Settings)
    ensures MinBands <= r.numBands <= MaxBands
    ensures MinBands <= bands <= MaxBands ==> r.numBands == bands
    ensures bands < MinBands ==> r.numBands == MinBands
    ensures bands > MaxBands ==> r.numBands == MaxBands
    ensures r.(numBands := s.numBands) == s
  {
    s.(numBands := ClampInt(bands, MinBands, MaxBands))
  }

  /** setDecayRate: std::clamp(rate, 0.01, 1). */
  function SetDecayRate(s: Settings, rate: real): (r: Settings)
    ensures 0.01 <= r.decayRate <= 1.0
    ensures 0.01 <= rate <= 1.0 ==> r.decayRate == rate
    ensures r.(decayRate := s.decayRate) == s
  {
    s.(decayRate := ClampReal(rate, 0.01, 1.0))
  }

  /** setSmoothing: std::clamp(smooth, 0, 0.99). */
  function SetSmoothing(s: Settings, smooth: real): (r: Settings)
    ensures 0.0 <= r.smoothing <= 0.99
    ensures 0.0 <= smooth <= 0.99 ==> r.smoothing == smooth
    ensures r.(smoothing := s.smoothing) == s
  {
    s.(smoothing := ClampReal(smooth, 0.0, 0.99))
  }

  /** Each setter keeps the settings valid, so every reachable configuration is valid. */
  lemma SettersKeepValid(s: Settings, bands: int, rate: real, smooth: real, b: bool)
    requires ValidSettings(s)
    ensures ValidSettings(SetNumBands(s, bands))
    ensures ValidSettings(SetDecayRate(s, rate))
    ensures ValidSettings(SetSmoothing(s, smooth))
    ensures ValidSettings(s.(showPeaks := b)) && ValidSettings(s.(logScale := b))
  {
  }

  /** getNumBands after setNumBands(x) is the clamped x, and setting it again changes nothing. */
  lemma SetNumBandsIdempotent(s: Settings, bands: int)
    ensures SetNumBands(SetNumBands(s, bands), bands) == SetNumBands(s, bands)
    ensures SetNumBands(s, bands).numBands == ClampInt(bands, MinBands, MaxBands)
  {
  }

  /** The three parallel per-band arrays. */
  datatype Bands = Bands(values: seq<real>, peaks: seq<real>, decay: seq<real>)

  ghost predicate SameLength(b: Bands) {
    |b.values| == |b.peaks| == |b.decay|
  }

  /** Values, peaks and decay accumulators are never negative. */
  ghost predicate NonNegative(b: Bands) {
    && (forall i :: 0 <= i < |b.values| ==> b.values[i] >= 0.0)
    && (forall i :: 0 <= i < |b.peaks| ==> b.peaks[i] >= 0.0)
    && (forall i :: 0 <= i < |b.decay| ==> b.decay[i] >= 0.0)
  }

  /** The constructor's arrays: numBands_ (32) zeros each. */
  function InitialBands(): (b: Bands)
    ensures SameLength(b) && NonNegative(b) && |b.values| == 32
    ensures forall i :: 0 <= i < 32 ==> b.values[i] == 0.0 && b.peaks[i] == 0.0 && b.decay[i] == 0.0
  {
    Bands(seq(32, _ => 0.0), seq(32, _ => 0.0), seq(32, _ => 0.0))
  }

  /** std::vector::resize(n, 0): the common prefix is kept, new slots are zero. */
  function Resize(xs: seq<real>, n: nat): (r: seq<real>)
    ensures |r| == n
    ensures forall i :: 0 <= i < n && i < |xs| ==> r[i] == xs[i]
    ensures forall i :: |xs| <= i < n ==> r[i] == 0.0
  {
    if n <= |xs| then xs[..n] else xs + seq(n - |xs|, _ => 0.0)
  }

  /** A bin range [start, end) of the magnitude array. */
  datatype BinRange = BinRange(start: nat, end: nat)

  /**
    The raw, unclamped range of band `band`. Linear mode splits the 512 bins
    evenly with integer division; log mode takes the two edges of the
    log10/pow curve, which stay abstract here (`logEdge(k, bands)` stands for
    the truncated 10^(log10(512) k / bands)).
   */
  function RawRange(band: nat, bands: nat, logScale: bool, logEdge: (nat, nat) -> nat): (r: BinRange)
    requires bands >= 1
    ensures !logScale && band < bands ==> r.start < SpectrumSize && r.end <= SpectrumSize
  {
    assert band < bands ==> SpectrumSize * band / bands < SpectrumSize && SpectrumSize * (band + 1) / bands <= SpectrumSize by {
      if band < bands {
        DivBelow(SpectrumSize * band, bands, SpectrumSize);
        DivAtMost(SpectrumSize * (band + 1), bands, SpectrumSize);
      }
    }
    if logScale then BinRange(logEdge(band, bands), logEdge(band + 1, bands))
    else BinRange(SpectrumSize * band / bands, SpectrumSize * (band + 1) / bands)
  }

  /**
    The clamp of updateBands: start at least 1 (the DC bin is skipped), end
    at most 512, and an empty range widened to one bin. The range is never
    empty, so the average never divides by zero; when the raw start is a
    valid bin the range lies inside the magnitude array.
   */
  function ClampRange(raw: BinRange): (r: BinRange)
    ensures 1 <= r.start < r.end
    ensures r.start == if raw.start < 1 then 1 else raw.start
    ensures raw.start < SpectrumSize ==> r.end <= SpectrumSize
    ensures 1 <= raw.start < raw.end <= SpectrumSize ==> r == raw
  {
    var s := if raw.start < 1 then 1 else raw.start;
    var e := if raw.end < SpectrumSize then raw.end else SpectrumSize;
    if s >= e then BinRange(s, s + 1) else BinRange(s, e)
  }

  /** In linear mode every band's raw start is a valid bin, so no read leaves the array. */
  lemma LinearRangeInBounds(band: nat, bands: nat, logEdge: (nat, nat) -> nat)
    requires 1 <= bands && band < bands
    ensures RawRange(band, bands, false, logEdge).start < SpectrumSize
    ensures 1 <= ClampRange(RawRange(band, bands, false, logEdge)).start
    ensures ClampRange(RawRange(band, bands, false, logEdge)).end <= SpectrumSize
  {
  }

  lemma DivAtMost(a: nat, b: nat, c: nat)
    requires b >= 1 && a <= c * b
    ensures a / b <= c
  {
  }

  lemma DivBelow(a: nat, b: nat, c: nat)
    requires b >= 1 && a < c * b
    ensures a / b < c
  {
    var q := a / b;
    assert q * b <= a;
    assert (c - q) * b == c * b - q * b;
    assert (c - q) * b > 0;
  }

  function Sum(xs: seq<real>): real {
    if xs == [] then 0.0 else xs[0] + Sum(xs[1..])
  }

  lemma {:induction false} SumNonNegative(xs: seq<real>)
    requires forall i :: 0 <= i < |xs| ==> xs[i] >= 0.0
    ensures Sum(xs) >= 0.0
  {
    if xs != [] {
      SumNonNegative(xs[1..]);
    }
  }

  /** The band's raw value: the mean magnitude over its bin range. */
  function Mean(mags: seq<real>, r: BinRange): (m: real)
    requires r.start < r.end <= |mags|
    ensures (forall i :: 0 <= i < |mags| ==> mags[i] >= 0.0) ==> m >= 0.0
  {
    assert (forall i :: 0 <= i < |mags| ==> mags[i] >= 0.0) ==> Sum(mags[r.start..r.end]) >= 0.0 by {
      if forall i :: 0 <= i < |mags| ==> mags[i] >= 0.0 {
        SumNonNegative(mags[r.start..r.end]);
      }
    }
    Sum(mags[r.start..r.end]) / (r.end - r.start) as real
  }

  /** One band's temporal filter step: value, peak and decay accumulator. */
  datatype BandCell = BandCell(value: real, peak: real, decay: real)

  /**
    Smoothing then peak hold: smoothed = a v + (1 - a) x. If smoothed rises
    above the held peak, the peak jumps to it and the decay restarts at 0;
    otherwise the accumulator grows by the decay rate and the peak falls by
    the accumulated amount, never below zero.
   */
  function Filter(c: BandCell, raw: real, smoothing: real, decayRate: real): (c': BandCell)
    ensures c'.value == smoothing * c.value + (1.0 - smoothing) * raw
    ensures c'.value > c.peak ==> c'.peak == c'.value && c'.decay == 0.0
    ensures c'.value <= c.peak ==> c'.decay == c.decay + decayRate && c'.peak == MaxReal(0.0, c.peak - c'.decay)
    ensures c.peak >= 0.0 ==> c'.peak >= 0.0
    ensures c.peak >= 0.0 && c.decay + decayRate >= 0.0 ==> c'.peak <= MaxReal(c.peak, c'.value)
  {
    var v := smoothing * c.value + (1.0 - smoothing) * raw;
    if v > c.peak then BandCell(v, v, 0.0)
    else
      var d := c.decay + decayRate;
      BandCell(v, MaxReal(0.0, c.peak - d), d)
  }

  /** With a smoothing factor in [0, 1] and non-negative inputs the filter keeps every field non-negative. */
  lemma FilterNonNegative(c: BandCell, raw: real, smoothing: real, decayRate: real)
    requires c.value >= 0.0 && c.peak >= 0.0 && c.decay >= 0.0
    requires raw >= 0.0 && 0.0 <= smoothing <= 1.0 && decayRate >= 0.0
    ensures var c' := Filter(c, raw, smoothing, decayRate);
            c'.value >= 0.0 && c'.peak >= 0.0 && c'.decay >= 0.0
  {
    MulNonNegative(smoothing, c.value);
    MulNonNegative(1.0 - smoothing, raw);
  }

  /**
    A peak that is not re-triggered falls by at least the decay rate each
    frame (the accumulator only grows), until it reaches zero.
   */
  lemma PeakFalls(c: BandCell, raw: real, smoothing: real, decayRate: real)
    requires c.decay >= 0.0 && decayRate >= 0.01
    requires Filter(c, raw, smoothing, decayRate).value <= c.peak
    ensures var c' := Filter(c, raw, smoothing, decayRate);
            c'.peak == 0.0 || c'.peak <= c.peak - 0.01
  {
  }

  /** Silence: with no new energy the smoothed value shrinks by the smoothing factor. */
  lemma SilenceShrinks(c: BandCell, smoothing: real, decayRate: real)
    requires c.value >= 0.0 && 0.0 <= smoothing <= 0.99
    ensures Filter(c, 0.0, smoothing, decayRate).value <= 0.99 * c.value
  {
    assert Filter(c, 0.0, smoothing, decayRate).value == smoothing * c.value + (1.0 - smoothing) * 0.0;
    assert (0.99 - smoothing) * c.value >= 0.0;
  }

  function Cell(b: Bands, i: nat): BandCell
    requires SameLength(b) && i < |b.values|
  {
    BandCell(b.values[i], b.peaks[i], b.decay[i])
  }

  /** The edges the log curve must respect for its reads to stay inside the magnitudes. */
  ghost predicate LogEdgesBelow(logEdge: (nat, nat) -> nat, bands: nat) {
    forall k: nat :: k < bands ==> logEdge(k, bands) < SpectrumSize
  }

  /** The per-band step of updateBands: clamp the range, average it, filter. */
  function BandStep(c: BandCell, band: nat, s: Settings, mags: seq<real>, logEdge: (nat, nat) -> nat): BandCell
    requires ValidSettings(s) && |mags| == SpectrumSize
    requires band < s.numBands
    requires s.logScale ==> LogEdgesBelow(logEdge, s.numBands)
  {
    var r := ClampRange(RawRange(band, s.numBands, s.logScale, logEdge));
    assert r.end <= SpectrumSize by {
      if !s.logScale { LinearRangeInBounds(band, s.numBands, logEdge); }
    }
    Filter(c, Mean(mags, r), s.smoothing, s.decayRate)
  }

  /**
    updateBands: resize the three arrays when the band count changed (the
    old prefix is kept, new bands start at zero), then run every band
    through BandStep. The arrays end with exactly numBands entries and the
    non-negativity of values, peaks and accumulators is preserved.
   */
  function UpdateBands(b: Bands, s: Settings, mags: seq<real>, logEdge: (nat, nat) -> nat): (b': Bands)
    requires SameLength(b) && ValidSettings(s) && |mags| == SpectrumSize
    requires s.logScale ==> LogEdgesBelow(logEdge, s.numBands)
    ensures SameLength(b') && |b'.values| == s.numBands
    ensures NonNegative(b) && (forall i :: 0 <= i < |mags| ==> mags[i] >= 0.0) ==> NonNegative(b')
  {
    var n := s.numBands;
    var r := if |b.values| != n then Bands(Resize(b.values, n), Resize(b.peaks, n), Resize(b.decay, n)) else b;
    var cells := seq(n, (i: int) requires 0 <= i < n => BandStep(Cell(r, i), i, s, mags, logEdge));
    var b' := Bands(seq(n, i requires 0 <= i < n => cells[i].value),
                    seq(n, i requires 0 <= i < n => cells[i].peak),
                    seq(n, i requires 0 <= i < n => cells[i].decay));
    assert NonNegative(b) && (forall i :: 0 <= i < |mags| ==> mags[i] >= 0.0) ==> NonNegative(b') by {
      if NonNegative(b) && (forall i :: 0 <= i < |mags| ==> mags[i] >= 0.0) {
        forall i | 0 <= i < n
          ensures cells[i].value >= 0.0 && cells[i].peak >= 0.0 && cells[i].decay >= 0.0
        {
          var raw := RawRange(i, n, s.logScale, logEdge);
          if !s.logScale { LinearRangeInBounds(i, n, logEdge); }
          FilterNonNegative(Cell(r, i), Mean(mags, ClampRange(raw)), s.smoothing, s.decayRate);
        }
      }
    }
    b'
  }

  /**
    Band i after updateBands is the filter applied to its (possibly fresh,
    zero) old cell and the mean of its clamped bin range.
   */
  lemma UpdateBandsCell(b: Bands, s: Settings, mags: seq<real>, logEdge: (nat, nat) -> nat, i: nat)
    requires SameLength(b) && ValidSettings(s) && |mags| == SpectrumSize
    requires s.logScale ==> LogEdgesBelow(logEdge, s.numBands)
    requires i < s.numBands
    ensures var old_ := if i < |b.values| then Cell(b, i) else BandCell(0.0, 0.0, 0.0);
            Cell(UpdateBands(b, s, mags, logEdge), i) == BandStep(old_, i, s, mags, logEdge)
  {
    var n := s.numBands;
    var r := if |b.values| != n then Bands(Resize(b.values, n), Resize(b.peaks, n), Resize(b.decay, n)) else b;
    var old_ := if i < |b.values| then Cell(b, i) else BandCell(0.0, 0.0, 0.0);
    assert Cell(r, i) == old_;
  }

  /** The analyser: sample ring, band arrays and settings. */
  datatype Analyser = Analyser(ring: SampleRing.Ring, bands: Bands, settings: Settings)

  ghost predicate ValidAnalyser(a: Analyser) {
    SampleRing.Valid(a.ring) && SameLength(a.bands) && ValidSettings(a.settings)
  }

  /** The constructed view: empty ring, 32 zero bands, default settings. */
  function NewAnalyser(): (a: Analyser)
    ensures ValidAnalyser(a) && NonNegative(a.bands)
    ensures a.ring.cursor == 0 && forall i :: 0 <= i < SampleRing.FftSize ==> a.ring.buffer[i] == 0.0
    ensures |a.bands.values| == 32
    ensures forall i :: 0 <= i < 32 ==> a.bands.values[i] == 0.0 && a.bands.peaks[i] == 0.0 && a.bands.decay[i] == 0.0
    ensures a.settings == DefaultSettings()
  {
    Analyser(SampleRing.Empty(), InitialBands(), DefaultSettings())
  }

  /**
    pushSamples: write the samples into the ring, then (even when there
    were none) recompute the spectrum and update the bands. `mags` are the
    512 magnitudes computeFFT derives from the new frame; the FFT
    arithmetic is outside this model.
   */
  method PushSamples(a: Analyser, samples: seq<real>, mags: seq<real>, logEdge: (nat, nat) -> nat)
    returns (a': Analyser)
    requires ValidAnalyser(a) && |mags| == SpectrumSize
    requires a.settings.logScale ==> LogEdgesBelow(logEdge, a.settings.numBands)
    ensures ValidAnalyser(a')
    ensures a'.settings == a.settings
    ensures a'.ring.cursor == (a.ring.cursor + |samples|) % SampleRing.FftSize
    ensures SampleRing.Frame(a'.ring) == (SampleRing.Frame(a.ring) + samples)[|samples|..]
    ensures |a'.bands.values| == a.settings.numBands
    ensures a'.bands == UpdateBands(a.bands, a.settings, mags, logEdge)
  {
    var ring := SampleRing.Push(a.ring, samples);
    var bands := UpdateBands(a.bands, a.settings, mags, logEdge);
    a' := Analyser(ring, bands, a.settings);
  }
}

=== FILE: view_switcher.dfy ===
/**
  ViewSwitcher: a container that shows one of its panels, and the control
  listener that picks the panel from a control's value in [0, 1]. A panel
  is modelled by its visibility flag; the child views themselves are not.
 */
module ViewSwitcher {
  import opened Common

  datatype Switcher = Switcher(visible: seq<bool>, active: int)

  /** A new switcher: no panels, active index 0. */
  function NewSwitcher(): (s: Switcher)
    ensures Valid(s) && PanelCount(s) == 0 && s.active == 0
  {
    Switcher([], 0)
  }

  function PanelCount(s: Switcher): nat { |s.visible| }

  /** The active index is 0 (also with no panels) or the index of a panel. */
  ghost predicate Valid(s: Switcher) {
    s.active == 0 || 0 <= s.active < |s.visible|
  }

  /** Exactly the active panel is shown. */
  ghost predicate ShowsActiveOnly(s: Switcher) {
    forall i :: 0 <= i < |s.visible| ==> (s.visible[i] <==> i == s.active)
  }

  /**
    addPanel: a null view is ignored. Otherwise the panel is appended; every
    panel but the first is hidden as it is added, the first keeps the
    visibility it came with.
   */
  function AddPanel(s: Switcher, view: Option<bool>): (r: Switcher)
    ensures view.None? ==> r == s
    ensures view.Some? ==> |r.visible| == |s.visible| + 1 && r.visible[..|s.visible|] == s.visible
    ensures view.Some? && |s.visible| > 0 ==> !r.visible[|s.visible|]
    ensures view.Some? && |s.visible| == 0 ==> r.visible == [view.value]
    ensures r.active == s.active
    ensures Valid(s) ==> Valid(r)
  {
    match view
    case None => s
    case Some(shown) => s.(visible := s.visible + [if |s.visible| > 0 then false else shown])
  }

  /** Adding a visible first panel and hidden others keeps exactly the active panel shown. */
  lemma AddPanelKeepsOneShown(s: Switcher, shown: bool)
    requires ShowsActiveOnly(s) && Valid(s)
    requires |s.visible| == 0 ==> shown
    ensures ShowsActiveOnly(AddPanel(s, Some(shown)))
  {
    var r := AddPanel(s, Some(shown));
    forall i | 0 <= i < |r.visible| ensures r.visible[i] <==> i == r.active {
      if i < |s.visible| {
        assert r.visible[i] == s.visible[i];
      }
    }
  }

  /** updateVisibility: show the active panel and hide the others. */
  function UpdateVisibility(s: Switcher): (r: Switcher)
    ensures |r.visible| == |s.visible| && r.active == s.active
    ensures ShowsActiveOnly(r)
  {
    s.(visible := seq(|s.visible|, i => i == s.active))
  }

  /**
    setActiveIndex: an index outside the panels, or the current one, changes
    nothing (visibility included); any other panel becomes the only one shown.
   */
  function SetActiveIndex(s: Switcher, index: int): (r: Switcher)
    ensures index < 0 || index >= |s.visible| || index == s.active ==> r == s
    ensures 0 <= index < |s.visible| && index != s.active ==>
              r.active == index && |r.visible| == |s.visible| && ShowsActiveOnly(r)
    ensures Valid(s) ==> Valid(r)
  {
    if index < 0 || index >= |s.visible| then s
    else if index != s.active then UpdateVisibility(s.(active := index))
    else s
  }

  /** Once the active panel is the only one shown, it stays so under any setActiveIndex. */
  lemma SetActivePreservesOneShown(s: Switcher, index: int)
    requires ShowsActiveOnly(s)
    ensures ShowsActiveOnly(SetActiveIndex(s, index))
  {
  }

  /** Selecting a panel and then the same one again is selecting it once. */
  lemma SetActiveIdempotent(s: Switcher, index: int)
    ensures SetActiveIndex(SetActiveIndex(s, index), index) == SetActiveIndex(s, index)
  {
  }

  /** The panel a control value asks for: trunc(value * (count - 1) + 0.5). */
  function IndexForValue(value: real, count: nat): (i: int)
    ensures 0.0 <= value <= 1.0 && count >= 1 ==> 0 <= i < count
  {
    var n := count as real - 1.0;
    assert 0.0 <= value <= 1.0 && count >= 1 ==> 0 <= Trunc(value * n + 0.5) < count by {
      if 0.0 <= value <= 1.0 && count >= 1 {
        ScaledIndexInRange(value, n);
        assert (count - 1) as real == n;
        TruncInRange(value * n + 0.5, count - 1);
      }
    }
    Trunc(value * n + 0.5)
  }

  /** A value in [0, 1] always names one of the panels when there is one. */
  lemma IndexForValueInRange(value: real, count: nat)
    requires 0.0 <= value <= 1.0 && count >= 1
    ensures 0 <= IndexForValue(value, count) < count
  {
  }

  /** A value in [0.5, m + 0.5] truncates to an index in 0..m. */
  lemma TruncInRange(x: real, m: nat)
    requires 0.5 <= x <= m as real + 0.5
    ensures 0 <= Trunc(x) <= m
  {
    IntBelowHalfStep(Trunc(x), m);
  }

  /** An integer at most half a step above another is not above it. */
  lemma IntBelowHalfStep(k: int, m: int)
    requires k as real <= m as real + 0.5
    ensures k <= m
  {
  }

  /** value * n + 0.5 lies in [0.5, n + 0.5] for value in [0, 1] and n >= 0. */
  lemma ScaledIndexInRange(value: real, n: real)
    requires 0.0 <= value <= 1.0 && n >= 0.0
    ensures 0.5 <= value * n + 0.5 <= n + 0.5
  {
    assert value * n <= 1.0 * n;
  }

  /** The ends of the control select the first and last panels. */
  lemma ValueEndsSelectEndPanels(count: nat)
    requires count >= 1
    ensures IndexForValue(0.0, count) == 0
    ensures IndexForValue(1.0, count) == count - 1
  {
    assert (count as real - 0.5).Floor == count - 1;
  }

  /**
    ViewSwitcherController::valueChanged: without a control or a switcher
    nothing happens; otherwise the switcher moves to the panel the value names.
   */
  function ValueChanged(s: Option<Switcher>, control: Option<real>): (r: Option<Switcher>)
    ensures s.None? || control.None? ==> r == s
    ensures s.Some? && control.Some? ==>
              r.Some? && r.value == SetActiveIndex(s.value, IndexForValue(control.value, PanelCount(s.value)))
  {
    if s.None? || control.None? then s
    else Some(SetActiveIndex(s.value, IndexForValue(control.value, PanelCount(s.value))))
  }

  /** A control value in [0, 1] always makes the named panel the active one. */
  lemma ValueChangedSelects(s: Switcher, value: real)
    requires 0.0 <= value <= 1.0 && PanelCount(s) >= 1
    ensures var r := ValueChanged(Some(s), Some(value));
            r.Some? && r.value.active == IndexForValue(value, PanelCount(s)) < PanelCount(s)
  {
    IndexForValueInRange(value, PanelCount(s));
  }
}

=== FILE: waveform.dfy ===
/**
  WaveformView's state: the left/right sample buffers, the BRR bytes and
  their block-header decoding, the display mode, zoom, offset and the
  selection. A BRR block of the SNES sound DSP is nine bytes: one header
  byte (shift in bits 7-4, filter in bits 3-2, loop flag in bit 1, end flag
  in bit 0) followed by eight bytes of packed samples.
 */
module Waveform {
  import opened Common

  const BlockBytes: nat := 9

  /** A uint8_t value. */
  type Byte = x: int | 0 <= x < 256

  /** An int16_t value. */
  type Int16 = x: int | -32768 <= x < 32768

  // ---------------------------------------------------------------------
  // BRR headers.
  // ---------------------------------------------------------------------

  datatype BrrHeader = BrrHeader(shift: nat, filter: nat, loop: bool, end: bool)

  ghost predicate FieldsInRange(h: BrrHeader) {
    h.shift < 16 && h.filter < 4
  }

  /** The four fields drawBrrBlocks reads out of a header byte. */
  function DecodeHeader(b: Byte): (h: BrrHeader)
    ensures FieldsInRange(h)
    ensures h.end <==> b % 2 == 1
    ensures h.loop <==> (b / 2) % 2 == 1
  {
    BrrHeader(b / 16, (b / 4) % 4, (b / 2) % 2 == 1, b % 2 == 1)
  }

  /** The header byte that carries the given fields. */
  function EncodeHeader(h: BrrHeader): (b: int)
    requires FieldsInRange(h)
    ensures 0 <= b < 256
  {
    h.shift * 16 + h.filter * 4 + (if h.loop then 2 else 0) + (if h.end then 1 else 0)
  }

  /** Every byte is the encoding of its decoded fields. */
  lemma EncodeDecode(b: Byte)
    ensures EncodeHeader(DecodeHeader(b)) == b
  {
    var h := DecodeHeader(b);
    assert b == (b / 16) * 16 + ((b / 4) % 4) * 4 + ((b / 2) % 2) * 2 + b % 2;
  }

  /** Fields in range survive encoding and decoding. */
  lemma DecodeEncode(h: BrrHeader)
    requires FieldsInRange(h)
    ensures DecodeHeader(EncodeHeader(h)) == h
  {
    var l := if h.loop then 1 else 0;
    var e := if h.end then 1 else 0;
    var b := EncodeHeader(h);
    var q4 := h.shift * 4 + h.filter;
    var q2 := q4 * 2 + l;
    assert b == q2 * 2 + e;
    assert b == q4 * 4 + (l * 2 + e);
    assert b == h.shift * 16 + (h.filter * 4 + l * 2 + e);
    DivModOf(b, h.shift, h.filter * 4 + l * 2 + e, 16);
    DivModOf(b, q4, l * 2 + e, 4);
    DivModOf(q4, h.shift, h.filter, 4);
    DivModOf(b, q2, e, 2);
    DivModOf(q2, q4, l, 2);
  }

  /** Quotient and remainder by 2, 4 or 16 are fixed by any decomposition with the remainder in range. */
  lemma DivModOf(b: int, q: int, r: int, k: int)
    requires k == 2 || k == 4 || k == 16
    requires 0 <= r < k && b == q * k + r
    ensures b / k == q && b % k == r
  {
    if k == 2 {
    } else if k == 4 {
    } else {
    }
  }

  /** Whole blocks in a byte buffer; trailing partial bytes are ignored. */
  function NumBlocks(brr: seq<Byte>): (n: nat)
    ensures n * BlockBytes <= |brr| < (n + 1) * BlockBytes
  {
    |brr| / BlockBytes
  }

  /** The header of every whole block, in order; header b is byte 9b. */
  function BlockHeaders(brr: seq<Byte>): (r: seq<BrrHeader>)
    ensures |r| == NumBlocks(brr)
    ensures forall b :: 0 <= b < |r| ==> b * BlockBytes < |brr| && r[b] == DecodeHeader(brr[b * BlockBytes])
  {
    seq(NumBlocks(brr), b requires 0 <= b < NumBlocks(brr) => DecodeHeader(brr[b * BlockBytes]))
  }

  /** Bytes after the last whole block change nothing. */
  lemma TrailingBytesIgnored(brr: seq<Byte>, extra: seq<Byte>)
    requires |brr| % BlockBytes == 0 && |extra| < BlockBytes
    ensures BlockHeaders(brr + extra) == BlockHeaders(brr)
  {
    var n := |brr| / BlockBytes;
    assert |brr| == n * BlockBytes;
    assert NumBlocks(brr + extra) == n;
  }

  /** Nothing is drawn for a buffer shorter than one block. */
  lemma ShortBufferHasNoBlocks(brr: seq<Byte>)
    requires |brr| < BlockBytes
    ensures BlockHeaders(brr) == []
  {
  }

  // ---------------------------------------------------------------------
  // Block colours.
  // ---------------------------------------------------------------------

  datatype Color = Color(red: nat, green: nat, blue: nat, alpha: nat)

  function Rgb(r: nat, g: nat, b: nat): Color { Color(r, g, b, 255) }

  const DefaultWaveformColor: Color := Rgb(74, 159, 255)

  /** What a block's colour says about it, in the order the checks are made. */
  datatype BlockKind = LoopEnd | EndOnly | Filtered(filter: nat) | Plain

  function Classify(h: BrrHeader): (k: BlockKind)
    ensures k == LoopEnd <==> h.end && h.loop
    ensures k == EndOnly <==> h.end && !h.loop
    ensures k.Filtered? <==> !h.end && h.filter > 0
    ensures k.Filtered? ==> k.filter == h.filter
  {
    if h.end && h.loop then LoopEnd
    else if h.end then EndOnly
    else if h.filter > 0 then Filtered(h.filter)
    else Plain
  }

  /**
    The colour drawBrrBlocks gives a block: yellow for a looping end block,
    red for an end block, a blue whose green falls by 30 per filter step for
    filtered blocks, and the waveform colour otherwise.
   */
  function BlockColor(h: BrrHeader, waveformColor: Color): (c: Color)
    requires FieldsInRange(h)
    ensures Classify(h) == LoopEnd ==> c == Rgb(255, 200, 0)
    ensures Classify(h) == EndOnly ==> c == Rgb(255, 100, 100)
    ensures Classify(h).Filtered? ==> c == Rgb(74, 159 - 30 * h.filter, 255) && c.green in {129, 99, 69}
    ensures Classify(h) == Plain ==> c == waveformColor
  {
    if h.end && h.loop then Rgb(255, 200, 0)
    else if h.end then Rgb(255, 100, 100)
    else if h.filter > 0 then Rgb(74, 159 - h.filter * 30, 255)
    else waveformColor
  }

  /** With the default waveform colour, a block's colour tells its kind exactly. */
  lemma ColorTellsKind(h1: BrrHeader, h2: BrrHeader)
    requires FieldsInRange(h1) && FieldsInRange(h2)
    ensures BlockColor(h1, DefaultWaveformColor) == BlockColor(h2, DefaultWaveformColor)
            <==> Classify(h1) == Classify(h2)
  {
  }

  /** The filter mark below a block is drawn exactly for filters 1 to 3, 3 pixels per step. */
  function FilterMarkHeight(h: BrrHeader): (px: nat)
    requires FieldsInRange(h)
    ensures px == 0 <==> h.filter == 0
    ensures px <= 9
  {
    h.filter * 3
  }

  // ---------------------------------------------------------------------
  // View state.
  // ---------------------------------------------------------------------

  datatype DisplayMode = WaveformMode | SpectrumMode | BrrSamples

  datatype View = View(
    left: seq<real>,
    right: seq<real>,
    brr: seq<Byte>,
    mode: DisplayMode,
    zoom: real,
    offset: real,
    selectionStart: nat,
    selectionEnd: nat)

  const ZoomMin: real := 0.1
  const ZoomMax: real := 100.0

  /** A fresh view: no data, waveform mode, zoom 1, offset 0, empty selection. */
  function NewView(): (v: View)
    ensures v.left == [] && v.right == [] && v.brr == []
    ensures v.mode == WaveformMode && v.zoom == 1.0 && v.offset == 0.0
    ensures !HasSelection(v)
  {
    View([], [], [], WaveformMode, 1.0, 0.0, 0, 0)
  }

  /** setSampleData: int16 samples scaled by 1/32768 into the left buffer; right emptied. */
  function SetSampleData(v: View, data: seq<Int16>, numSamples: nat): (r: View)
    requires numSamples <= |data|
    ensures |r.left| == numSamples && r.right == []
    ensures forall i :: 0 <= i < numSamples ==> -1.0 <= r.left[i] <= 32767.0 / 32768.0
    ensures r.(left := v.left, right := v.right) == v
  {
    v.(left := seq(numSamples, i requires 0 <= i < numSamples => data[i] as real / 32768.0),
       right := [])
  }

  /** The scaling loses nothing: every stored value times 32768 is the sample it came from. */
  lemma SampleScaleInverts(v: View, data: seq<Int16>, numSamples: nat)
    requires numSamples <= |data|
    ensures forall i :: 0 <= i < numSamples ==> SetSampleData(v, data, numSamples).left[i] * 32768.0 == data[i] as real
  {
  }

  /**
    setWaveformData: numSamples values copied into the left buffer, and into
    the right one when a right channel is given; otherwise right is emptied.
   */
  function SetWaveformData(v: View, left: seq<real>, right: Option<seq<real>>, numSamples: nat): (r: View)
    requires numSamples <= |left|
    requires right.Some? ==> numSamples <= |right.value|
    ensures r.left == left[..numSamples]
    ensures right.Some? ==> r.right == right.value[..numSamples]
    ensures right.None? ==> r.right == []
    ensures r.(left := v.left, right := v.right) == v
  {
    v.(left := left[..numSamples], right := if right.Some? then right.value[..numSamples] else [])
  }

  /** A stereo view holds two buffers of equal length. */
  lemma StereoLengthsAgree(v: View, left: seq<real>, right: seq<real>, numSamples: nat)
    requires numSamples <= |left| && numSamples <= |right|
    ensures var r := SetWaveformData(v, left, Some(right), numSamples);
            |r.left| == |r.right| == numSamples
  {
  }

  /** clearData: all three buffers emptied; mode, zoom, offset and selection stay. */
  function ClearData(v: View): (r: View)
    ensures r.left == [] && r.right == [] && r.brr == []
    ensures r.(left := v.left, right := v.right, brr := v.brr) == v
  {
    v.(left := [], right := [], brr := [])
  }

  /** setBrrBlockData: the bytes are stored and the view switches to BRR blocks. */
  function SetBrrBlockData(v: View, brr: seq<Byte>): (r: View)
    ensures r.brr == brr && r.mode == BrrSamples
    ensures r.(brr := v.brr, mode := v.mode) == v
  {
    v.(brr := brr, mode := BrrSamples)
  }

  /** After clearData there are no blocks to draw, whatever the mode. */
  lemma ClearedHasNoBlocks(v: View)
    ensures BlockHeaders(ClearData(v).brr) == []
  {
  }

  function SetDisplayMode(v: View, m: DisplayMode): (r: View)
    ensures GetDisplayMode(r) == m
    ensures r.(mode := v.mode) == v
  {
    v.(mode := m)
  }

  function GetDisplayMode(v: View): DisplayMode { v.mode }

  /** setZoom: the request clamped to [0.1, 100]. */
  function SetZoom(v: View, zoom: real): (r: View)
    ensures ZoomMin <= r.zoom <= ZoomMax
    ensures ZoomMin <= zoom <= ZoomMax ==> r.zoom == zoom
    ensures zoom < ZoomMin ==> r.zoom == ZoomMin
    ensures zoom > ZoomMax ==> r.zoom == ZoomMax
    ensures r.(zoom := v.zoom) == v
  {
    v.(zoom := MaxReal(ZoomMin, MinReal(ZoomMax, zoom)))
  }

  /** Zooming to the stored zoom changes nothing. */
  lemma SetZoomIdempotent(v: View, zoom: real)
    ensures SetZoom(SetZoom(v, zoom), SetZoom(v, zoom).zoom) == SetZoom(v, zoom)
  {
  }

  /** setOffset stores the value as given; no clamping. */
  function SetOffset(v: View, offset: real): (r: View)
    ensures GetOffset(r) == offset
    ensures r.(offset := v.offset) == v
  {
    v.(offset := offset)
  }

  function GetOffset(v: View): real { v.offset }

  // ---------------------------------------------------------------------
  // Selection.
  // ---------------------------------------------------------------------

  predicate HasSelection(v: View) {
    v.selectionStart != v.selectionEnd
  }

  function SetSelection(v: View, start: nat, end: nat): (r: View)
    ensures r.selectionStart == start && r.selectionEnd == end
    ensures HasSelection(r) <==> start != end
    ensures r.(selectionStart := v.selectionStart, selectionEnd := v.selectionEnd) == v
  {
    v.(selectionStart := start, selectionEnd := end)
  }

  function ClearSelection(v: View): (r: View)
    ensures r.selectionStart == 0 && r.selectionEnd == 0 && !HasSelection(r)
    ensures r.(selectionStart := v.selectionStart, selectionEnd := v.selectionEnd) == v
  {
    v.(selectionStart := 0, selectionEnd := 0)
  }

  /** Clearing the selection is selecting the empty range at 0. */
  lemma ClearIsEmptySelection(v: View)
    ensures ClearSelection(v) == SetSelection(v, 0, 0)
  {
  }
}
